=== FILE: README.md ===
# Voyager+ client core, modelled in Dafny

This project models the core of the Voyager+ desktop client and its two chat servers as pure
functions over immutable state. Each Dafny module follows one part of the program:

- `ChatMesh` and `MeshWiring` cover the chat-room servers. `ChatMesh` is `ChatServer` and its
  `ClientHandler`: accepting connections, the `JOIN`/`MESSAGE`/`FILE`/`LEAVE` read loop, local
  fan-out and single-hop forwarding to sibling servers. `MeshWiring` is `ServerCoordinator`,
  which starts five servers and wires every one to every other. A server is a record with a
  port, a client map and a sibling list. The mesh is a sequence of servers. Each handler keeps
  an outbox: the lines written to its socket, in order.
- `PrivateChat` is `PrivateChatServer`: the user-name directory (`connectedClients`), the
  handshake, `PRIVATE:`/`GET_USERS`/`DISCONNECT`, the user-list broadcasts and `disconnect`.
  Iteration order of the directory is fixed to registration order (`order`).
- `MessengerClient` and `PrivateClient` are the two client controllers. They cover framing,
  decoding of server lines, the handshake, the list of online users, the message history and
  the user filter.
- `Trips` holds the entities `Trip`, `JoinRequest`, `GroupChat`, `TripPost` and `Notification`,
  with their mutators as functions from old value to new. `TripService` holds the in-memory
  service: join requests, approval with group-chat creation, posting, and the feed and filters.
- `TimeAgo` covers the "time ago" labels of notifications and posts. The elapsed minutes are a
  parameter.
- `JavaText` gives the Java `String` operations the code relies on: `trim`, `indexOf`, `split`
  with and without a limit, `replace`, ASCII case mapping and decimal formatting. `JsonText`
  holds the hand-written JSON helpers: the three `escapeJson` copies, the notepad's
  `unescapeJson`, the regex extractor of `TripApiClient`, the `indexOf` extractor of
  `DatabaseManager` and the notepad's string extractor. The regex extractors are modelled as
  the greedy, backtracking matcher runs them.
- `ApiParsers` covers `TripApiClient`'s record parsers. `Notepad` covers the notepad's note-list
  parser and save request. `Forms` covers the sign-up validation chain and the settings page.

Sockets, threads and the clock are not modelled. The lines a client sends are a parameter, as
are the current time, the ports that accept connections, and ids the program would draw at
random. Where the program would run concurrently, the unit of atomicity is one line read by
one handler: `HandleLine` and the handshake steps apply to any valid state, so any
interleaving of whole lines from several live sessions is a sequence of such steps (as in
`PrivateChat.StaleDisconnectEvicts`, where two sessions hold the same name). `RunSession`
composes one session's lines for the lemmas that follow a single session to its end.

Behaviours of the code worth noting:

- The private directory keeps the last registrant of a name: `put` overwrites.
  A stale handler's `disconnect` then removes the newcomer's entry while the newcomer stays
  connected (`PrivateChat.StaleDisconnectEvicts`).
- A blank user name is never registered. Even so, `disconnect` runs twice on the way out, once
  in the early return and once in `finally`, so every registered handler gets two user lists
  (`PrivateChat.BlankNameBroadcastsTwice`).
- The user-list broadcast reaches only handlers that are registered under their own name, not
  every open connection.
- In the chat rooms, every accepted `JOIN` sets the display name and room again. A `LEAVE` from
  a handler that never joined announces `USER_LEAVE:null`.

## Model

| member | source | states |
|---|---|---|
| JavaText.Trim | src/main/java/com/example/voyeger/SignUpController.java:51-53 | The result is the slice of the input between its leading and trailing characters at most U+0020; nothing trimmable is left at either end |
| JavaText.TrimOfTrimmed | src/main/java/com/example/voyeger/PrivateChatController.java:189-190 | A string with no trimmable character at either end is its own trim |
| JavaText.TrimIdempotent | src/main/java/com/example/voyeger/SettingsController.java:78-80 | Trimming twice is trimming once |
| JavaText.BlankIsTrimEmpty | src/main/java/com/example/voyeger/PrivateChatServer.java:74 | `trim().isEmpty()` holds exactly when every character is at most U+0020 |
| JavaText.Utf16Length | src/main/java/com/example/voyeger/SignUpController.java:63 | `length()` is at least the number of characters and at most twice it |
| JavaText.Utf16LengthIsSize | src/main/java/com/example/voyeger/SignUpController.java:78 | `length()` equals the number of characters exactly when no character lies outside the Basic Multilingual Plane |
| JavaText.IndexOfFrom | src/main/java/com/example/voyeger/DatabaseManager.java:200 | A found index is an occurrence at or after the start, and no earlier occurrence from the start exists; "not found" means no occurrence from the start |
| JavaText.IndexOf | src/main/java/com/example/voyeger/DatabaseManager.java:196 | A found index is an occurrence; "not found" means the pattern does not occur |
| JavaText.IndexOfAt | src/main/java/com/example/voyeger/DatabaseManager.java:196 | An occurrence with no occurrence before it is exactly the index returned |
| JavaText.SplitAll | src/main/java/com/example/voyeger/ChatServer.java:109 | The pieces hold no separator and joined with it give the string back |
| JavaText.SplitAllOfJoin | src/main/java/com/example/voyeger/ChatServer.java:109 | Splitting the join of separator-free pieces gives the pieces back |
| JavaText.DropTrailingEmpty | src/main/java/com/example/voyeger/ChatServer.java:109 | Limit-0 splitting removes exactly the trailing empty pieces: the result is a prefix that is empty or ends in a non-empty piece, and only empty pieces are dropped |
| JavaText.SplitLimit | src/main/java/com/example/voyeger/PrivateChatServer.java:96 | With a positive limit: at most `limit` pieces, which join back to the string; only the last piece may hold the separator, and only when the limit is reached |
| JavaText.SplitLimitStep | src/main/java/com/example/voyeger/MessengerController.java:190 | With a limit above one, the first piece is the text before the first separator, and the rest is the split of the remainder with the limit one lower |
| JavaText.SplitLimitTwo | src/main/java/com/example/voyeger/PrivateChatServer.java:96 | Limit 2 gives exactly the text before and after the first separator |
| JavaText.SplitLimitHead | src/main/java/com/example/voyeger/PrivateChatController.java:154 | With any limit above one, the first piece is the text before the first separator |
| JavaText.SplitLimitThree | src/main/java/com/example/voyeger/MessengerController.java:190 | Limit 3 on `a:b:rest` (a and b without colons) gives `[a, b, rest]`, with any colons of `rest` kept |
| JavaText.SplitLimitFour | src/main/java/com/example/voyeger/MessengerController.java:190 | Limit 4 on `a:b:c:rest` gives `[a, b, c, rest]`; the corrected decoders use this limit |
| JavaText.SplitNoLimitPair | src/main/java/com/example/voyeger/ChatServer.java:109-110 | Without a limit, `a:b` with colon-free `a`, `b` and non-empty `b` splits into exactly `[a, b]` |
| JavaText.ReplaceAbsent | src/main/java/com/example/voyeger/NotepadController.java:236 | `replace` leaves a text that does not contain the target unchanged |
| JavaText.ToLower | src/main/java/com/example/voyeger/PrivateChatController.java:304 | Case mapping is per character: length kept and every position mapped on its own |
| JavaText.ToUpper | src/main/java/com/example/voyeger/TripApiClient.java:165 | Case mapping is per character: length kept and every position mapped on its own |
| JavaText.NatToStringRoundTrip | src/main/java/com/example/voyeger/Notification.java:72 | The decimal text of a count reads back as the count |
| JavaText.TwoDigits | src/main/java/com/example/voyeger/MessengerController.java:361 | `%02d` gives two digits whose value is the number |
| ChatMesh.FanOut | src/main/java/com/example/voyeger/ChatServer.java:43-47 | Each handler except the skipped one gets exactly one more line if its writer is open, and none otherwise; the skipped handler's outbox, every name and room, and the set of handlers are unchanged |
| ChatMesh.ReceiveFromSibling | src/main/java/com/example/voyeger/ChatServer.java:55-63 | A relayed message reaches every local handler whose writer is open once, with no handler excluded; the port, sibling list and client set are unchanged |
| ChatMesh.ForwardCounts | src/main/java/com/example/voyeger/ChatServer.java:50-52 | Forwarding along a sibling list delivers to server `j` exactly as many copies as `j` occurs in the list |
| ChatMesh.BroadcastCounts | src/main/java/com/example/voyeger/ChatServer.java:38-53 | For any sibling lists, a handler on server `j` gets one local copy (same server, not the sender) plus one per occurrence of `j` among the origin's siblings; ports, sibling lists and client sets are unchanged |
| ChatMesh.SingleHop | src/main/java/com/example/voyeger/ChatServer.java:55-63 | A server that is neither the origin nor the origin's sibling is untouched, even when a sibling of a sibling |
| ChatMesh.BroadcastKeeps | src/main/java/com/example/voyeger/ChatServer.java:38-53 | A broadcast never adds or removes a handler and never changes a sibling list |
| ChatMesh.DecodeFrame | src/main/java/com/example/voyeger/ChatServer.java:108-128 | A line is a join exactly when it starts with `JOIN:` and its payload splits (limit 0) into two fields, which are the name and room; a relay exactly for `MESSAGE:`/`FILE:`; a leave exactly for `LEAVE:` |
| ChatMesh.HandleLine | src/main/java/com/example/voyeger/ChatServer.java:108-129 | A join sets the handler's name and room and then broadcasts the join notice; a relay broadcasts the line unchanged; `LEAVE:` broadcasts the leave notice with the handler's name or `null`; anything else changes nothing; the loop stops exactly on `LEAVE:`, and no handler or sibling set changes |
| ChatMesh.JoinTrailingColonRejected | src/main/java/com/example/voyeger/ChatServer.java:109-110 | `JOIN:a:` is ignored, because the trailing empty field is dropped |
| ChatMesh.JoinEmptyNameAccepted | src/main/java/com/example/voyeger/ChatServer.java:109-112 | `JOIN::r` is accepted with an empty user name |
| ChatMesh.JoinThreeFieldsRejected | src/main/java/com/example/voyeger/ChatServer.java:109-110 | A third field makes `JOIN:` a no-op |
| ChatMesh.RemoveClient | src/main/java/com/example/voyeger/ChatServer.java:75-78 | Exactly handler `c` leaves server `i`; every other handler and server is as before |
| ChatMesh.Accept | src/main/java/com/example/voyeger/ChatServer.java:26-29 | An accepted connection is registered before its handler runs, with no name or room, no open writer and no output |
| ChatMesh.ReadLoop | src/main/java/com/example/voyeger/ChatServer.java:105-129 | During the read loop the handler stays registered and no server gains or loses a handler |
| ChatMesh.RunSession | src/main/java/com/example/voyeger/ChatServer.java:99-140 | When the session ends, by `LEAVE:` or end of stream, exactly its own handler has been removed from the server |
| ChatMesh.LinesAfterLeaveIgnored | src/main/java/com/example/voyeger/ChatServer.java:123-128 | Lines after the first `LEAVE:` make no difference to the outcome |
| MeshWiring.Others | src/main/java/com/example/voyeger/ServerCoordinator.java:30-35 | The servers added to server `i` are exactly the others below `n`, in ascending order |
| MeshWiring.OthersCount | src/main/java/com/example/voyeger/ServerCoordinator.java:30-35 | Each other server is added exactly once, and `i` itself never |
| MeshWiring.AddOtherServer | src/main/java/com/example/voyeger/ChatServer.java:71-73 | Server `i`'s sibling list gains `j` at its end; nothing else changes |
| MeshWiring.AddEveryOther | src/main/java/com/example/voyeger/ServerCoordinator.java:30-35 | The inner loop appends every other server to server `i`'s list, in order, and touches no other server |
| MeshWiring.WireMesh | src/main/java/com/example/voyeger/ServerCoordinator.java:29-36 | After the nested loop, every server's sibling list is its old list followed by every other server, in order |
| MeshWiring.Bootstrap | src/main/java/com/example/voyeger/ServerCoordinator.java:8-36 | One empty server per configured port, wired into the complete mesh |
| MeshWiring.NoSelfSibling | src/main/java/com/example/voyeger/ServerCoordinator.java:31 | In the wired mesh no server is its own sibling |
| MeshWiring.SiblingsSymmetric | src/main/java/com/example/voyeger/ServerCoordinator.java:29-36 | In the wired mesh, `j` is a sibling of `i` exactly when `i` is a sibling of `j` |
| MeshWiring.FiveServersFourSiblings | src/main/java/com/example/voyeger/ServerCoordinator.java:6-36 | With the five configured ports, every server has the four other servers as siblings, in port order |
| MeshWiring.ExactlyOnceDelivery | src/main/java/com/example/voyeger/ServerCoordinator.java:29-36 | In the wired mesh, a broadcast appends exactly one copy to every handler on every server, except the sender and handlers whose writer is not yet open, which are unchanged; no other field changes |
| MeshWiring.NoEcho | src/main/java/com/example/voyeger/ChatServer.java:43-47 | The sender never receives its own broadcast back, even through the siblings |
| PrivateChat.Without | src/main/java/com/example/voyeger/PrivateChatServer.java:149 | Removal keeps every other name, keeps order, and keeps the list free of repetition |
| PrivateChat.Register | src/main/java/com/example/voyeger/PrivateChatServer.java:79-81 | The name now maps to this handler, whoever held it before; the directory stays well formed |
| PrivateChat.Unregister | src/main/java/com/example/voyeger/PrivateChatServer.java:149 | Exactly the name leaves the directory, whichever handler held it; removing an absent name changes nothing |
| PrivateChat.Send | src/main/java/com/example/voyeger/PrivateChatServer.java:118 | One line is appended to exactly one handler's output; all other handlers are unchanged |
| PrivateChat.Write | src/main/java/com/example/voyeger/PrivateChatServer.java:118 | At the level of the server state, one line goes to one handler, and the directory and the other handlers are unchanged |
| PrivateChat.Listed | src/main/java/com/example/voyeger/PrivateChatServer.java:129-133 | A user list holds exactly the registered names other than the receiver's, each once |
| PrivateChat.SendUsers | src/main/java/com/example/voyeger/PrivateChatServer.java:138-144 | Each handler registered under one of the names gets exactly one line, its own user list; every other handler gets nothing |
| PrivateChat.BroadcastOnlineUsers | src/main/java/com/example/voyeger/PrivateChatServer.java:138-144 | Every handler registered under its own name gets one user list; everyone else and the directory are unchanged |
| PrivateChat.Connect | src/main/java/com/example/voyeger/PrivateChatServer.java:66-71 | A new connection has no name and has been asked for one (`ENTER_USERNAME`); existing handlers are unchanged |
| PrivateChat.Disconnect | src/main/java/com/example/voyeger/PrivateChatServer.java:146-152 | A handler that read no name changes nothing; otherwise its name leaves the directory, whoever holds it |
| PrivateChat.Named | src/main/java/com/example/voyeger/PrivateChatServer.java:72 | Reading the name records it on the handler alone |
| PrivateChat.DoHandshake | src/main/java/com/example/voyeger/PrivateChatServer.java:71-87 | Registration happens exactly for a present, non-blank name, which then maps to this handler; otherwise the directory and every outbox are as before |
| PrivateChat.Admit | src/main/java/com/example/voyeger/PrivateChatServer.java:79-83 | The name maps to the handler and the handler alone is told `SUCCESS:Connected as <name>` |
| PrivateChat.SendPrivate | src/main/java/com/example/voyeger/PrivateChatServer.java:115-124 | To an online recipient other than the sender: the recipient gets `MESSAGE:<sender>:<text>`, the sender `SENT:<to>:<text>`, and nobody else anything; to the sender's own name, the sender gets both lines in that order; to an offline one, the sender alone gets the error line |
| PrivateChat.HandleLine | src/main/java/com/example/voyeger/PrivateChatServer.java:94-106 | A line never changes the directory or any name, and the loop stops exactly on `DISCONNECT` |
| PrivateChat.ReadLoop | src/main/java/com/example/voyeger/PrivateChatServer.java:90-107 | The read loop leaves the directory and every handler's name as they were |
| PrivateChat.Abandon | src/main/java/com/example/voyeger/PrivateChatServer.java:74-77 | The early return leaves the directory unchanged; without a name it changes nothing at all |
| PrivateChat.AbandonBroadcastsTwice | src/main/java/com/example/voyeger/PrivateChatServer.java:74-112 | On the early-return path with a blank name, every registered handler gets its user list twice and everyone else nothing |
| PrivateChat.AbandonIsTwoBroadcasts | src/main/java/com/example/voyeger/PrivateChatServer.java:74-112 | The early return with a blank name is two user-list broadcasts |
| PrivateChat.BroadcastTwice | src/main/java/com/example/voyeger/PrivateChatServer.java:138-144 | Two broadcasts give each registered handler two copies of the same list |
| PrivateChat.BroadcastAt | src/main/java/com/example/voyeger/PrivateChatServer.java:138-144 | Seen from one handler, a broadcast appends what it hears and leaves the order and what the next broadcast would send unchanged |
| PrivateChat.DisconnectUnlisted | src/main/java/com/example/voyeger/PrivateChatServer.java:146-152 | `disconnect` by a handler whose name is not registered amounts to one user-list broadcast |
| PrivateChat.BroadcastKeepsListing | src/main/java/com/example/voyeger/PrivateChatServer.java:138-144 | Sending user lists changes nobody's registration |
| PrivateChat.Serve | src/main/java/com/example/voyeger/PrivateChatServer.java:89-112 | After the read loop and the `finally` block, the handler's name is no longer registered and nothing else is removed |
| PrivateChat.RunSession | src/main/java/com/example/voyeger/PrivateChatServer.java:65-112 | A whole session keeps the server state well formed and the set of handlers unchanged |
| PrivateChat.SessionReleasesName | src/main/java/com/example/voyeger/PrivateChatServer.java:79-112 | A session that registered a name ends with that name free; every other name keeps its handler and no name is added |
| PrivateChat.BlankSessionKeepsDirectory | src/main/java/com/example/voyeger/PrivateChatServer.java:74-77 | A session with a blank name leaves the directory as it was |
| PrivateChat.NamelessSessionSilent | src/main/java/com/example/voyeger/PrivateChatServer.java:74-77 | A connection closed before sending a name changes nothing |
| PrivateChat.PrivateLine | src/main/java/com/example/voyeger/PrivateChatServer.java:94-101 | `PRIVATE:<r>:<text>` with a colon-free recipient is a private send of the whole rest, colons included |
| PrivateChat.PrivateToOnline | src/main/java/com/example/voyeger/PrivateChatServer.java:115-120 | Sent to an online recipient: the recipient gets the message, the sender the confirmation, nobody else anything |
| PrivateChat.PrivateToSelf | src/main/java/com/example/voyeger/PrivateChatServer.java:115-120 | Sent to the sender's own name: the sender gets its own message as `MESSAGE:` and then the `SENT:` confirmation, nobody else anything |
| PrivateChat.PrivateToOffline | src/main/java/com/example/voyeger/PrivateChatServer.java:121-123 | Sent to an offline recipient: the sender alone gets exactly one error line |
| PrivateChat.PrivateWithoutSeparatorIgnored | src/main/java/com/example/voyeger/PrivateChatServer.java:96-101 | A `PRIVATE:` payload without a colon is ignored |
| PrivateChat.OtherLinesSilent | src/main/java/com/example/voyeger/PrivateChatServer.java:94-106 | Lines other than `PRIVATE:…`, `GET_USERS` and `DISCONNECT` change nothing |
| PrivateChat.GetUsersReply | src/main/java/com/example/voyeger/PrivateChatServer.java:126-136 | `GET_USERS` answers the requester alone, listing every registered name except its own, each once |
| PrivateChat.HandshakeAdmits | src/main/java/com/example/voyeger/PrivateChatServer.java:79-87 | A non-blank name is admitted and then everybody is sent the user lists |
| PrivateChat.RegistrationRepliesToNewcomer | src/main/java/com/example/voyeger/PrivateChatServer.java:83-87 | The newcomer is told `SUCCESS` and then gets its own user list |
| PrivateChat.RegistrationRepliesToOthers | src/main/java/com/example/voyeger/PrivateChatServer.java:138-144 | Another handler gets one user list if it stays registered, and nothing if its name was just taken over |
| PrivateChat.BlankNameBroadcastsTwice | src/main/java/com/example/voyeger/PrivateChatServer.java:74-112 | A blank name is never registered, yet every registered handler gets its user list twice |
| PrivateChat.StaleDisconnectEvicts | src/main/java/com/example/voyeger/PrivateChatServer.java:146-152 | A second registration of a held name takes it over; the first holder's `disconnect` then frees the name while the newcomer stays connected |
| MessengerClient.CurrentTime | src/main/java/com/example/voyeger/MessengerController.java:357-362 | The time is five characters, two-digit hour and minute around the only colon, whose digits read back as the hour and the minute |
| MessengerClient.SendMessage | src/main/java/com/example/voyeger/MessengerController.java:229-241 | A frame goes out exactly when connected and the input is not blank; it carries the trimmed text and is shown locally the same way |
| MessengerClient.HandleIncoming | src/main/java/com/example/voyeger/MessengerController.java:186-226 | A chat or file entry comes only from a `MESSAGE:`/`FILE:` line by someone other than the local user, with colon-free sender and time |
| MessengerClient.HandleIncomingFixed | src/main/java/com/example/voyeger/MessengerController.java:189-210 | The corrected decoder keeps the same guards: entries only from the matching frame and not from the local user |
| MessengerClient.MessageRoundTripAsWritten | src/main/java/com/example/voyeger/MessengerController.java:189-197 | A timestamped frame decodes, as written, with the hour as time and the minute glued to the text, never as the message sent |
| MessengerClient.MessageMisreadExample | src/main/java/com/example/voyeger/MessengerController.java:190-194 | `MESSAGE:bob:09:30:hi` shows time `09` and text `30:hi` |
| MessengerClient.MessageRoundTripFixed | src/main/java/com/example/voyeger/MessengerController.java:233 | The corrected decoder reads back sender, whole time and text, colons and all |
| MessengerClient.FileRoundTripFixed | src/main/java/com/example/voyeger/MessengerController.java:251 | The corrected decoder reads back sender, whole time and file name of a shared file |
| MessengerClient.OwnFramesIgnored | src/main/java/com/example/voyeger/MessengerController.java:196 | The local user's own frames are ignored by both decoders |
| MessengerClient.MessageFrameRelayed | src/main/java/com/example/voyeger/MessengerController.java:233 | The client's message frame is one the chat server relays unchanged |
| MessengerClient.JoinFrameAccepted | src/main/java/com/example/voyeger/MessengerController.java:122 | The server accepts the client's `JOIN` frame with the same name and room when neither has a colon and the room is not empty |
| MessengerClient.UserJoinShown | src/main/java/com/example/voyeger/MessengerController.java:211-219 | The server's join notice is shown with the joining user's name, unless it is the local user |
| MessengerClient.UserLeaveShown | src/main/java/com/example/voyeger/MessengerController.java:220-224 | The server's leave notice is shown with the leaving user's name, `null` included |
| MessengerClient.LeaveFrameEndsSession | src/main/java/com/example/voyeger/MessengerController.java:377 | The client's `LEAVE` frame ends its handler's read loop on the server |
| MessengerClient.Connect | src/main/java/com/example/voyeger/MessengerController.java:107-145 | Ports are tried in order from the start index; every skipped port is down; on success the port accepts and the `JOIN` frame is the only line written; on failure nothing is written |
| MessengerClient.ConnectPicksFirstUp | src/main/java/com/example/voyeger/MessengerController.java:112-141 | The port the loop stops at is the first accepting port at or after the start, as a recursive definition names it |
| MessengerClient.Reconnect | src/main/java/com/example/voyeger/MessengerController.java:174-184 | Reconnecting tries from the first port again and lands on the first accepting port overall |
| PrivateClient.ClientHandshake | src/main/java/com/example/voyeger/PrivateChatController.java:113-121 | The name is sent exactly after an `ENTER_USERNAME` prompt; the client is online exactly when the reply starts with `SUCCESS:` |
| PrivateClient.HandshakeWithServer | src/main/java/com/example/voyeger/PrivateChatController.java:113-121 | Against the directory server, a non-blank name is sent and the client goes online |
| PrivateClient.GreetingAccepted | src/main/java/com/example/voyeger/PrivateChatController.java:113-121 | A prompt followed by the `SUCCESS` reply makes the client send its name and go online |
| PrivateClient.ServerGreeting | src/main/java/com/example/voyeger/PrivateChatServer.java:71-83 | The first two lines the server writes to a new handler with a non-blank name are the prompt and the `SUCCESS` reply |
| PrivateClient.HandleSend | src/main/java/com/example/voyeger/PrivateChatController.java:216-231 | Nothing is sent for blank input or no peer; when offline the user is alerted; otherwise the trimmed, non-empty text goes to the peer |
| PrivateClient.FrameReachesServer | src/main/java/com/example/voyeger/PrivateChatController.java:229 | The server reads the client's frame as a private send of the whole text to that peer |
| PrivateClient.Decode | src/main/java/com/example/voyeger/PrivateChatController.java:149-171 | A user list exactly for `USERS:` lines; a received message or confirmation is the line's colon-free party and text, which rebuild the line |
| PrivateClient.PartyAndText | src/main/java/com/example/voyeger/PrivateChatController.java:154-159 | A found party is colon-free and, with the text, rebuilds the payload |
| PrivateClient.MessageDecoded | src/main/java/com/example/voyeger/PrivateChatController.java:152-159 | A delivered message decodes to its sender and whole text |
| PrivateClient.ConfirmationDecoded | src/main/java/com/example/voyeger/PrivateChatController.java:160-167 | A confirmation decodes to its recipient and whole text |
| PrivateClient.OfflineErrorDecoded | src/main/java/com/example/voyeger/PrivateChatController.java:168-171 | The offline error reaches the user as an alert naming the recipient |
| PrivateClient.PrivateRoundTrip | src/main/java/com/example/voyeger/PrivateChatController.java:229 | End to end, the peer decodes the sender's name and original text, and the sender decodes a confirmation to the peer with the same text |
| PrivateClient.KeepNames | src/main/java/com/example/voyeger/PrivateChatController.java:188-192 | Only non-empty, trimmed names are kept, never more than there were pieces |
| PrivateClient.UpdateOnlineUsers | src/main/java/com/example/voyeger/PrivateChatController.java:183-194 | Every listed user is non-empty and trimmed; an empty payload gives no users |
| PrivateClient.CommaTerminatedIsJoin | src/main/java/com/example/voyeger/PrivateChatServer.java:127-133 | The server's comma-terminated list is the comma join of the names followed by one empty piece |
| PrivateClient.KeepTrimmedNames | src/main/java/com/example/voyeger/PrivateChatController.java:188-192 | Names already trimmed and non-empty pass through unchanged |
| PrivateClient.UsersRoundTrip | src/main/java/com/example/voyeger/PrivateChatController.java:183-194 | The client's parse inverts the server's list for non-empty, comma-free, trimmed names |
| PrivateClient.SplitCommaTerminated | src/main/java/com/example/voyeger/PrivateChatController.java:187 | Splitting a comma-terminated list loses only the final empty piece |
| PrivateClient.UsersLineDecoded | src/main/java/com/example/voyeger/PrivateChatController.java:149-151 | A `USERS:` line from the server shows exactly the names it listed |
| PrivateClient.Append | src/main/java/com/example/voyeger/PrivateChatController.java:237 | The entry goes at the end of the peer's thread; other threads are unchanged |
| PrivateClient.Record | src/main/java/com/example/voyeger/PrivateChatController.java:233-260 | A received message or confirmation is appended to the other party's thread only; other lines leave the history alone |
| PrivateClient.HistoryKeepsOrder | src/main/java/com/example/voyeger/PrivateChatController.java:233-260 | Each thread is the old thread followed by exactly the messages with that peer, in arrival order |
| PrivateClient.FilterUsers | src/main/java/com/example/voyeger/PrivateChatController.java:298-310 | No query or an empty one shows everybody; otherwise exactly the users matching case-insensitively, each as often as it occurs |
| PrivateClient.Keep | src/main/java/com/example/voyeger/PrivateChatController.java:302-307 | The kept users are exactly the matching ones, each as often as it occurs |
| PrivateClient.FilterKeepsOrder | src/main/java/com/example/voyeger/PrivateChatController.java:298-310 | The filtered list is a subsequence of the online users |
| PrivateClient.KeepIsSubsequence | src/main/java/com/example/voyeger/PrivateChatController.java:302-307 | The matching loop keeps the original order |
| Trips.AddIfAbsent | src/main/java/com/example/voyeger/Trip.java:90-94 | The list ends up holding the name, keeps earlier entries in place, grows by at most one, and stays free of duplicates |
| Trips.AddIfAbsentIdempotent | src/main/java/com/example/voyeger/Trip.java:90-94 | Adding a name twice is adding it once |
| Trips.AddAllKeepsPrefix | src/main/java/com/example/voyeger/Trip.java:90-94 | After any sequence of additions the original list is a prefix of the result |
| Trips.AddAllMembers | src/main/java/com/example/voyeger/Trip.java:90-94 | After any additions the names are exactly the earlier and the added ones |
| Trips.AddAllDistinct | src/main/java/com/example/voyeger/Trip.java:90-94 | A duplicate-free list stays duplicate-free through any additions |
| Trips.NewJoinRequest | src/main/java/com/example/voyeger/JoinRequest.java:17-24 | A new request is pending, with the given fields |
| Trips.Approve | src/main/java/com/example/voyeger/JoinRequest.java:45-47 | Approval sets the status from any status and changes nothing else |
| Trips.Reject | src/main/java/com/example/voyeger/JoinRequest.java:49-51 | Rejection sets the status from any status and changes nothing else |
| Trips.LastDecisionWins | src/main/java/com/example/voyeger/JoinRequest.java:45-51 | There is no transition guard: the last decision wins |
| Trips.NewTrip | src/main/java/com/example/voyeger/Trip.java:29-43 | A new trip is a draft with no requests and no chat, whose only member is its creator |
| Trips.AddJoinRequest | src/main/java/com/example/voyeger/Trip.java:86-88 | Exactly one request is appended; earlier requests and every other field stay |
| Trips.ApproveMember | src/main/java/com/example/voyeger/Trip.java:90-94 | The member list gains the name unless present, keeps its prefix and stays duplicate-free; nothing else changes |
| Trips.ApproveMemberIdempotent | src/main/java/com/example/voyeger/Trip.java:90-94 | Approving a member twice is approving once |
| Trips.CreatorStaysMember | src/main/java/com/example/voyeger/Trip.java:90-94 | Through any approvals the creator stays a member and no other field changes |
| Trips.NewGroupChat | src/main/java/com/example/voyeger/GroupChat.java:15-22 | A new chat holds the given members and no messages |
| Trips.AddMember | src/main/java/com/example/voyeger/GroupChat.java:43-47 | As for trip members: the name is added unless present, with the prefix kept and no duplicates |
| Trips.AddMemberIdempotent | src/main/java/com/example/voyeger/GroupChat.java:43-47 | Adding a chat member twice is adding once |
| Trips.AddMessage | src/main/java/com/example/voyeger/GroupChat.java:49-51 | The message is appended; earlier messages are unchanged |
| Trips.Increment | src/main/java/com/example/voyeger/TripPost.java:52 | `n++` on an `int` gives one more, except that the largest value wraps to the smallest |
| Trips.NewPost | src/main/java/com/example/voyeger/TripPost.java:16-25 | A new post has no likes, comments or shares |
| Trips.Like | src/main/java/com/example/voyeger/TripPost.java:52 | Only the like counter moves, by one within range |
| Trips.Unlike | src/main/java/com/example/voyeger/TripPost.java:53 | One fewer like but never below zero; at zero nothing changes |
| Trips.UnlikeUndoesLike | src/main/java/com/example/voyeger/TripPost.java:52-53 | `unlike` after `like` gives the post back while the counter does not wrap |
| Trips.AddComment | src/main/java/com/example/voyeger/TripPost.java:54 | Only the comment counter moves |
| Trips.Share | src/main/java/com/example/voyeger/TripPost.java:55 | Only the share counter moves |
| Trips.DisplayText | src/main/java/com/example/voyeger/Notification.java:63-65 | The text is the requester, the join phrase ending in an opening quote, the trip title and a closing quote, in that order |
| Trips.DisplayTextReadsBack | src/main/java/com/example/voyeger/Notification.java:63-65 | For a quote-free requester, the first quote of the text separates the requester and phrase from the title, so both read back |
| TripService.FindRequest | src/main/java/com/example/voyeger/TripService.java:244-247 | The first request with the id, or none when no request has it |
| TripService.ApproveJoinRequest | src/main/java/com/example/voyeger/TripService.java:238-271 | An unknown trip or request changes nothing; otherwise the first matching request is approved, the requester becomes a member, and the trip's chat gains the requester or a new chat with the members is created and linked; the trip's other fields, other trips and the posts are untouched |
| TripService.ApprovedMemberOnce | src/main/java/com/example/voyeger/TripService.java:254-255 | An approved requester is a member exactly once, however often approved |
| TripService.RejectJoinRequest | src/main/java/com/example/voyeger/TripService.java:274-284 | Only the first request with that id becomes rejected; members, chats and posts are untouched |
| TripService.RequestToJoin | src/main/java/com/example/voyeger/TripService.java:214-235 | A request is created exactly for a known group trip: pending, from the user, appended to that trip; otherwise nothing changes |
| TripService.PostTrip | src/main/java/com/example/voyeger/TripService.java:76-92 | For a known trip the trip becomes posted and a new post carrying the new id and zero counters is stored under that id; otherwise nothing changes |
| TripService.PostTripReadsBack | src/main/java/com/example/voyeger/TripService.java:76-92 | After a post the store reads the returned post back under its own id, the trip differs from before only in being posted, and `getPostedTrips` lists it |
| TripService.Filter | src/main/java/com/example/voyeger/TripService.java:193-196 | Each kept trip occurs as often as before, and only kept trips remain |
| TripService.PostedTrips | src/main/java/com/example/voyeger/TripService.java:193-197 | Exactly the posted trips, each as often as it occurs |
| TripService.UserTrips | src/main/java/com/example/voyeger/TripService.java:200-204 | Exactly the trips created by the user, each as often as it occurs |
| TripService.MemberTrips | src/main/java/com/example/voyeger/TripService.java:207-211 | Exactly the trips the user is an approved member of, each as often as it occurs |
| TripService.Insert | src/main/java/com/example/voyeger/TripService.java:96-97 | Placing a post keeps the list newest first and adds exactly that post |
| TripService.NewsFeed | src/main/java/com/example/voyeger/TripService.java:95-99 | The feed is newest first and a permutation of all posts |
| TripService.InsertAtTime | src/main/java/com/example/voyeger/TripService.java:96-97 | A placed post goes in front of every post with the same time and behind no other such post |
| TripService.NewsFeedStable | src/main/java/com/example/voyeger/TripService.java:95-99 | The sort is stable: for every time, the posts with that time come out in the order they came in |
| TimeAgo.NestedFloors | src/main/java/com/example/voyeger/Notification.java:74-80 | Nested divisions of the minutes are floors by a day and by a week |
| TimeAgo.NotificationBucket | src/main/java/com/example/voyeger/Notification.java:67-82 | Under a minute is "just now"; otherwise the count is the elapsed time floored to the largest unit with a count of at least one, weeks unbounded |
| TimeAgo.PostAgreesWithNotification | src/main/java/com/example/voyeger/TripPost.java:57-71 | Below a week a post's bucket equals the notification's; from a week on it shows a date |
| TimeAgo.NotificationTextReadsBack | src/main/java/com/example/voyeger/Notification.java:71-81 | The label starts with the bucket's count, and the unit word is singular exactly for one hour, day or week |
| TimeAgo.PostTextReadsBack | src/main/java/com/example/voyeger/TripPost.java:61-68 | Below a week the post label starts with the bucket's count |
| JsonText.EscapeJson | src/main/java/com/example/voyeger/TripApiClient.java:393-400 | `null` gives the empty string; otherwise the chain of replacements equals escaping each character on its own (as do the copies in `DatabaseManager` and `NotepadController`) |
| JsonText.EscapedIsClean | src/main/java/com/example/voyeger/TripApiClient.java:393-400 | Escaped text has no raw newline, return or tab, and every quote follows a backslash |
| JsonText.UnescapeFixedRoundTrip | src/main/java/com/example/voyeger/NotepadController.java:235-237 | A single left-to-right unescape undoes the escape on every text |
| JsonText.UnescapeAsWrittenRoundTrip | src/main/java/com/example/voyeger/NotepadController.java:235-237 | The as-written unescape undoes the escape on text with no backslash |
| JsonText.UnescapeAsWrittenMisreadsBackslashN | src/main/java/com/example/voyeger/NotepadController.java:236 | A backslash followed by `n` comes back as a backslash and a newline as written, and unchanged with the single pass |
| JsonText.ValueAfterKey | src/main/java/com/example/voyeger/TripApiClient.java:184 | A capture after the key is a non-empty run free of `,`, `"` and `}` |
| JsonText.ExtractJsonValue | src/main/java/com/example/voyeger/TripApiClient.java:182-192 | The result is trimmed and free of `,`, `"` and `}`; a text without the quoted key gives none |
| JsonText.ExtractJsonValueField | src/main/java/com/example/voyeger/TripApiClient.java:182-192 | A field `"key":"v"` or `"key":v` at the start reads back as `v` when `v` is a trimmed class run |
| JsonText.ExtractJsonValueStopsAtComma | src/main/java/com/example/voyeger/TripApiClient.java:184-188 | A string value holding a comma reads back cut at the comma |
| JsonText.RouteWithCommaIsCut | src/main/java/com/example/voyeger/TripApiClient.java:184-188 | The route `"Dhaka, Sylhet"` comes back as `"Dhaka"` |
| JsonText.ExtractByIndexOfSound | src/main/java/com/example/voyeger/DatabaseManager.java:193-206 | No result without the key pattern; otherwise a quote-free value that stands between the pattern and a quote |
| JsonText.ExtractByIndexOfNeedsKey | src/main/java/com/example/voyeger/DatabaseManager.java:195-197 | Without `"key":"` nothing is found |
| JsonText.ExtractByIndexOfField | src/main/java/com/example/voyeger/DatabaseManager.java:195-203 | The first `"key":"` followed by a quote-free value and a quote reads back as the value |
| JsonText.ExtractByIndexOfCutsEscapedQuote | src/main/java/com/example/voyeger/DatabaseManager.java:200-203 | A value holding an escaped quote is cut just after the backslash |
| JsonText.StringCapture | src/main/java/com/example/voyeger/NotepadController.java:227-229 | A capture is a whole run of the string-body pattern (non-quote characters and backslash pairs), and only a text holding the quoted key has one |
| JsonText.CaptureSkipsCommaKeys | src/main/java/com/example/voyeger/NotepadController.java:227-229 | Occurrences of the quoted key followed by a comma cannot match, so the search reaches the first occurrence that is not |
| JsonText.ExtractAfterCommaKeys | src/main/java/com/example/voyeger/NotepadController.java:225-233 | An escaped field after only comma-followed occurrences of its quoted key is captured; the single-pass unescape gives the value back, the as-written `replace` chain when it holds no backslash |
| JsonText.ExtractJsonString | src/main/java/com/example/voyeger/NotepadController.java:225-233 | A value is found exactly when the pattern captures, so never without the quoted key |
| JsonText.ExtractJsonStringFixed | src/main/java/com/example/voyeger/NotepadController.java:225-233 | With the single-pass unescape, a value is found exactly when the pattern captures |
| JsonText.ExtractJsonStringField | src/main/java/com/example/voyeger/NotepadController.java:225-233 | An escaped field with no earlier key is captured exactly; the single pass gives the value back, the as-written one when it holds no backslash |
| Notepad.ObjectsAreMatches | src/main/java/com/example/voyeger/NotepadController.java:211-213 | Everything the object search returns is a match of the pattern |
| Notepad.NoteOf | src/main/java/com/example/voyeger/NotepadController.java:214-219 | `_id` is preferred to `id`; a field that is not found is the empty string |
| Notepad.NoteOfFixed | src/main/java/com/example/voyeger/NotepadController.java:214-219 | The same with the single-pass unescape |
| Notepad.ParseNotes | src/main/java/com/example/voyeger/NotepadController.java:207-223 | No notes for `null` or empty text; otherwise one note per match of the spaced pattern, the k-th note read from the trimmed k-th match |
| Notepad.ParseNotesFixed | src/main/java/com/example/voyeger/NotepadController.java:207-223 | With the pattern ending at `}`, one note per object, in order |
| Notepad.NoSpacedObjects | src/main/java/com/example/voyeger/NotepadController.java:211 | With no `}` followed by a space the as-written pattern never matches |
| Notepad.CompactArrayYieldsNothing | src/main/java/com/example/voyeger/NotepadController.java:211 | As written, a compact array of notes yields no notes |
| Notepad.SpacedItemsSplit | src/main/java/com/example/voyeger/NotepadController.java:211-213 | As written, objects each followed by a space are found one by one, each match holding its object and the space |
| Notepad.TrimSpacedObject | src/main/java/com/example/voyeger/NotepadController.java:214 | Trimming a match drops the space behind the object |
| Notepad.SpacedArrayNotes | src/main/java/com/example/voyeger/NotepadController.java:207-223 | As written, an array with a space after every object gives one note per object, in order |
| Notepad.CompactArrayNotesFixed | src/main/java/com/example/voyeger/NotepadController.java:207-223 | With the corrected pattern, a compact array gives one note per object, in order |
| Notepad.NoteIdReadsBack | src/main/java/com/example/voyeger/NotepadController.java:215-216 | A note object starting with its escaped `_id` gives that id back |
| Notepad.TwoNoteArray | src/main/java/com/example/voyeger/NotepadController.java:211 | Two notes in a compact array: none as written, two when corrected |
| Notepad.SaveNote | src/main/java/com/example/voyeger/NotepadController.java:108-121 | A missing or empty title is refused; otherwise the body holds the user name as is and the escaped title and content |
| Notepad.SaveNoteTitleReadsBack | src/main/java/com/example/voyeger/NotepadController.java:108-121 | For a quote-free user name, the title reads back from the body it sends with the single-pass unescape (`ExtractJsonStringFixed`) whatever it holds, and with the as-written `replace` chain when it holds no backslash |
| Notepad.SaveNoteTitleMisread | src/main/java/com/example/voyeger/NotepadController.java:225-237 | With the as-written `replace` chain, a saved title `\n` (backslash, `n`) comes back as a backslash and a newline; the single-pass unescape gives it back |
| Notepad.SaveNoteContentReadsBack | src/main/java/com/example/voyeger/NotepadController.java:108-121 | For a quote-free user name, the content reads back, an absent content as the empty string, with the single-pass unescape whatever it holds and with the as-written `replace` chain when it holds no backslash |
| ApiParsers.StatusNamed | src/main/java/com/example/voyeger/TripApiClient.java:165 | `valueOf` finds the constant with exactly that name, or none when no constant has it |
| ApiParsers.StatusOf | src/main/java/com/example/voyeger/TripApiClient.java:162-172 | The constant named by the upper-cased text; `POSTED` when missing or naming none |
| ApiParsers.TypeOf | src/main/java/com/example/voyeger/TripApiClient.java:139-148 | `GROUP` exactly for "group" in any letter case |
| ApiParsers.ParseTrip | src/main/java/com/example/voyeger/TripApiClient.java:100-180 | A trip exactly when an id, a title and a route are present, `_id` preferred; defaults for description and creator; the creator as only member; type and status from their fields |
| ApiParsers.ParseSingleTrip | src/main/java/com/example/voyeger/TripApiClient.java:100-116 | No trip from text missing the quoted title, route or id; a title is trimmed and free of `,` and `"` |
| ApiParsers.TripRecordReadsBack | src/main/java/com/example/voyeger/TripApiClient.java:100-180 | Every trip a client creates reads back from its record through a key-to-value field map, in any letter case of the status |
| ApiParsers.ParseJoinRequest | src/main/java/com/example/voyeger/TripApiClient.java:289-316 | A request exactly with `_id` and requester; the message defaults to ""; approved or rejected exactly when the status names it in any case |
| ApiParsers.Decided | src/main/java/com/example/voyeger/TripApiClient.java:302-314 | Only the status changes: approved or rejected exactly for those names, pending otherwise |
| ApiParsers.RequestRecordReadsBack | src/main/java/com/example/voyeger/TripApiClient.java:289-316 | Every join request reads back from its record through a key-to-value field map |
| ApiParsers.ParseNotification | src/main/java/com/example/voyeger/TripApiClient.java:478-518 | A notification exactly with `_id` and trip title; defaults for the other fields; the user shown is the requester, else the creator, else "Unknown" |
| ApiParsers.NotificationRecordReadsBack | src/main/java/com/example/voyeger/TripApiClient.java:478-518 | Every notification reads back from its record through a key-to-value field map |
| ApiParsers.CreatorShownWithoutRequester | src/main/java/com/example/voyeger/TripApiClient.java:507 | Without a requester the trip's creator is shown |
| Forms.LocalRun | src/main/java/com/example/voyeger/SignUpController.java:73 | The greedy class run: its characters are in the class, and the next is not |
| Forms.EmailMatchesIffShape | src/main/java/com/example/voyeger/SignUpController.java:73 | The matcher accepts exactly the addresses of the pattern's shape |
| Forms.SignUp | src/main/java/com/example/voyeger/SignUpController.java:51-93 | The first failing check in chain order is reported; registration happens exactly when no check fails, with trimmed username, email and full name and the password as typed; lengths are counted in UTF-16 code units |
| Forms.SignUpRegistersIffAcceptable | src/main/java/com/example/voyeger/SignUpController.java:58-93 | Registration is reached exactly for acceptable forms |
| Forms.SupplementaryPasswordCountsTwice | src/main/java/com/example/voyeger/SignUpController.java:78 | Three emoji pass the six-character password check, as `length()` counts two code units for each |
| Forms.SupplementaryUsernameFailsOnChars | src/main/java/com/example/voyeger/SignUpController.java:63-71 | A two-emoji username passes the length check and is refused for its characters |
| Forms.PasswordIsNotTrimmed | src/main/java/com/example/voyeger/SignUpController.java:51-55 | The password is kept as typed while the username is trimmed |
| Forms.UpdateUser | src/main/java/com/example/voyeger/TripService.java:58-60 | The cache entry under the user's name becomes this user; others are unchanged |
| Forms.SaveSettings | src/main/java/com/example/voyeger/SettingsController.java:78-100 | A blank name is refused first, then an email without `@`; a refusal changes nothing; otherwise trimmed fields are stored and the cache updated |
| Forms.SaveSettingsIdempotent | src/main/java/com/example/voyeger/SettingsController.java:40-100 | Reloading the page after a save and saving again changes nothing |
| Forms.SaveTrimmedForm | src/main/java/com/example/voyeger/SettingsController.java:40-46 | Saving a user's own trimmed, valid values gives that user back |

## Left out

- Sockets, threads and executors are left out. Interleaving finer than one line is not
  modelled: the handling of a line, with all the writes it makes, is one atomic step on the
  shared state.
- Per-recipient failure isolation is not modelled. A `PrintWriter` swallows write errors, and a
  write before the writer is open does nothing, which `ChatMesh` does model.
- Logging, console output, server-name prefixes of broadcast lines and `logToAllServers` are
  left out, because they do not change what reaches a client.
- `PrivateChatServer.stop` and server-socket failure are left out.
- HTTP requests and the backend are left out. Parsers take the response text; `requestToJoin`'s
  backend call and `registerUser` are not modelled.
- The iteration order of hash maps and hash sets is not modelled. The model fixes insertion
  order.
- Password hashing and verification (SHA-256, `SecureRandom`, Base64) are left out. They are library
  calls with no logic of the program's own.
- The JavaFX controllers that only display data are left out, as are the budget checks of the
  trip dialogs, because those checks rest on floating-point parsing.
- Case mapping is ASCII only, and no Unicode case folding is modelled.
- Dates and floating-point budgets are left out. The clock, elapsed minutes and random ids are
  parameters, and `TripPost`'s date formatting beyond the "dated" bucket is not modelled.
- `User.joinedDate` is left out.
- Paths that would throw on a `null` value are left out. A missing handshake line in the private client is modelled
  as end of stream, and a `null` current user is not modelled.
- ApiParsers.TripRecordReadsBack reads the fields through a key-to-value map (`MapFields`), not
  through the regex extractor over the JSON text, which cuts a string value at its first comma
  (`JsonText.ExtractJsonValueStopsAtComma`).
- ApiParsers.RequestRecordReadsBack reads the fields through a key-to-value map, for the same
  reason.
- ApiParsers.NotificationRecordReadsBack reads the fields through a key-to-value map, for the
  same reason.
- Notepad.SaveNoteTitleReadsBack and Notepad.SaveNoteContentReadsBack need a user name with no
  `"`, because the save request writes the user name unescaped and a quote in it can end the
  field early. With the notepad's own `replace` chain they read the value back only when it
  holds no backslash (`Notepad.SaveNoteTitleMisread` shows a title that does not come back).
- Indices from `indexOf` and `split` count characters, not UTF-16 code units. They are only
  used to cut the same string, so the pieces agree with Java's; only `length()` comparisons
  against constants count code units (`JavaText.Utf16Length`).
- Keys given to the regex extractors are assumed to be plain identifiers, with no regex
  metacharacters.
- The sign-up background thread and its UI updates are left out.
- JavaText.IndexOf: its contract does not say the index is the first occurrence. Lemma
  `JavaText.IndexOfAt` states that.
- TripService.NewsFeed: its own contract does not state the order of posts with equal
  `postedAt`. `TripService.NewsFeedStable` states it: they keep their input order, as with
  Java's stable sort.
- TimeAgo.PostBucket: its own contract only excludes weeks. `TimeAgo.PostAgreesWithNotification`
  states the rest.
- JsonText.ExtractByIndexOf has no contract of its own. The `JsonText.ExtractByIndexOf*` lemmas
  state its properties.
- MessengerClient.HandleIncoming: its contract states only the guards. The decoded fields are
  stated by the round-trip lemmas.

## Findings

| source | as written | input that shows it | evidently intended | confidence | as-written member | corrected member |
|---|---|---|---|---|---|---|
| src/main/java/com/example/voyeger/MessengerController.java:190-194 | `MESSAGE:` and `FILE:` payloads are split with limit 3, but the time the sender puts in is `HH:MM`, which holds a colon | `MESSAGE:bob:09:30:hi` is shown with time `09` and text `30:hi` | the whole `HH:MM` time and the text, as sent | not executed | MessengerClient.MessageRoundTripAsWritten | MessengerClient.MessageRoundTripFixed |
| src/main/java/com/example/voyeger/NotepadController.java:236 | `unescapeJson` replaces `\n` before `\\` | a note holding a backslash followed by `n` is escaped to `\\n` and read back as a backslash and a newline | the original text back, with each backslash pair read as one unit | not executed | JsonText.UnescapeAsWrittenMisreadsBackslashN | JsonText.UnescapeFixedRoundTrip |
| src/main/java/com/example/voyeger/NotepadController.java:211 | the object pattern requires a space after every `}` | a compact array `[{"_id":"a"},{"_id":"b"}]` yields no notes | one note per object | not executed | Notepad.CompactArrayYieldsNothing | Notepad.CompactArrayNotesFixed |

=== FILE: api_parsers.dfy ===
/**
 * The field defaulting of `TripApiClient`'s `parseSingleTrip`, `parseSingleJoinRequest` and
 * `parseSingleNotification`. Each parser reads its fields with `extractJsonValue`; here it is
 * written over a field reader, and the client's reader is `extractJsonValue` on the object's
 * text. Dates, budgets and timestamps are not read (they are clock and floating-point values).
 */
module ApiParsers {
  import opened Wrappers
  import opened JavaText
  import opened JsonText
  import opened Trips

  /** A field reader: the value an object holds for a key, or `None`. */
  type Fields = string -> Option<string>

  /** The reader the client uses: `extractJsonValue` on one object's text. */
  function JsonFields(json: string): Fields {
    (key: string) => ExtractJsonValue(json, key)
  }

  /** The reader for an object whose fields are exactly the entries of `m`. */
  function MapFields(m: map<string, string>): Fields {
    (key: string) => if key in m then Some(m[key]) else None
  }

  // ---------------------------------------------------------------------------------------
  // enum names

  /** Upper-casing text with no lower-case letter changes nothing. */
  lemma UpperIsIdentity(s: string)
    requires forall i :: 0 <= i < |s| ==> !('a' <= s[i] <= 'z')
    ensures ToUpper(s) == s
  {
  }

  function StatusName(s: TripStatus): string {
    match s
    case Draft => "DRAFT"
    case Posted => "POSTED"
    case InProgress => "IN_PROGRESS"
    case Completed => "COMPLETED"
  }

  /** `TripStatus.valueOf`: the constant with exactly this name, if there is one. */
  function StatusNamed(name: string): (r: Option<TripStatus>)
    ensures r.Some? ==> StatusName(r.value) == name
    ensures r.None? ==> forall s :: StatusName(s) != name
  {
    if name == "DRAFT" then Some(Draft)
    else if name == "POSTED" then Some(Posted)
    else if name == "IN_PROGRESS" then Some(InProgress)
    else if name == "COMPLETED" then Some(Completed)
    else None
  }

  /**
   * The status `parseSingleTrip` sets: the constant named by the upper-cased text, and
   * `POSTED` when the field is missing or names no constant.
   */
  function StatusOf(status: Option<string>): (r: TripStatus)
    ensures status.None? ==> r == Posted
    ensures status.Some? && (exists s :: StatusName(s) == ToUpper(status.value)) ==> StatusName(r) == ToUpper(status.value)
    ensures status.Some? && (forall s :: StatusName(s) != ToUpper(status.value)) ==> r == Posted
  {
    if status.None? then Posted
    else StatusNamed(ToUpper(status.value)).GetOr(Posted)
  }

  /** The type `parseSingleTrip` sets: `GROUP` exactly for "group" in any letter case. */
  function TypeOf(tripType: Option<string>): (r: TripType)
    ensures r == Group <==> tripType.Some? && ToUpper(tripType.value) == "GROUP"
  {
    assert ToUpper("group") == "GROUP";
    UpperIsIdentity("GROUP");
    if tripType.Some? && (EqualsIgnoreCase(tripType.value, "group") || EqualsIgnoreCase(tripType.value, "GROUP")) then Group
    else Solo
  }

  // ---------------------------------------------------------------------------------------
  // parseSingleTrip

  /**
   * `parseSingleTrip` over a field reader: no trip without an id (`_id`, else `id`), a title
   * and a route; otherwise a new trip with the description defaulting to "" and the creator
   * to "Unknown", then the status set from the status field.
   */
  function ParseTrip(get: Fields): (r: Option<Trip>)
    ensures r.Some? <==> (get("_id").Some? || get("id").Some?) && get("title").Some? && get("route").Some?
    ensures r.Some? ==> r.value.id == (if get("_id").Some? then get("_id").value else get("id").value)
    ensures r.Some? ==> r.value.title == get("title").value && r.value.route == get("route").value
    ensures r.Some? ==> r.value.description == get("description").GetOr("")
    ensures r.Some? ==> r.value.creator == get("creatorUsername").GetOr("Unknown")
    ensures r.Some? ==> r.value.members == [r.value.creator] && r.value.joinRequests == [] && r.value.groupChatId.None?
    ensures r.Some? ==> r.value.tripType == TypeOf(get("type")) && r.value.status == StatusOf(get("status"))
  {
    var id := get("_id").OrElse(get("id"));
    var title := get("title");
    var route := get("route");
    if id.None? || title.None? || route.None? then None
    else
      var t := NewTrip(id.value, title.value, route.value, get("description").GetOr(""),
                       TypeOf(get("type")), get("creatorUsername").GetOr("Unknown"));
      Some(t.(status := StatusOf(get("status"))))
  }

  /** `parseSingleTrip` on an object's text: a text without the quoted title or route gives `None`. */
  function ParseSingleTrip(json: string): (r: Option<Trip>)
    ensures !Contains(json, QuotedKey("title")) ==> r.None?
    ensures !Contains(json, QuotedKey("route")) ==> r.None?
    ensures !Contains(json, QuotedKey("_id")) && !Contains(json, QuotedKey("id")) ==> r.None?
    ensures r.Some? ==> IsTrimmed(r.value.title) && ',' !in r.value.title && '"' !in r.value.title
  {
    ParseTrip(JsonFields(json))
  }

  /** A trip as the server sends it: every field present, type and status by name. */
  function TripRecord(t: Trip, lowerCase: bool): Fields {
    var typeName := if t.tripType == Group then "group" else "solo";
    var statusName := if lowerCase then ToLower(StatusName(t.status)) else StatusName(t.status);
    MapFields(map["_id" := t.id, "title" := t.title, "route" := t.route, "description" := t.description,
                  "type" := typeName, "creatorUsername" := t.creator, "status" := statusName])
  }

  /** Upper-casing a lower-cased status name gives the name back. */
  lemma StatusNameCase(s: TripStatus)
    ensures ToUpper(ToLower(StatusName(s))) == StatusName(s)
  {
    var n := StatusName(s);
    assert forall i :: 0 <= i < |n| ==> 'A' <= n[i] <= 'Z' || n[i] == '_';
    assert forall i :: 0 <= i < |n| ==> ToUpperChar(ToLowerChar(n[i])) == n[i];
  }

  /**
   * Every trip a client creates (creator the only member, no requests, no chat) reads back
   * from its record, whatever the letter case of the status name.
   */
  lemma TripRecordReadsBack(t: Trip, lowerCase: bool)
    requires t.members == [t.creator] && t.joinRequests == [] && t.groupChatId.None?
    ensures ParseTrip(TripRecord(t, lowerCase)) == Some(t)
  {
    var get := TripRecord(t, lowerCase);
    TripRecordFields(t, lowerCase);
    TripRecordTypeAndStatus(t, lowerCase);
  }

  lemma TripRecordFields(t: Trip, lowerCase: bool)
    ensures var get := TripRecord(t, lowerCase);
            && get("_id") == Some(t.id) && get("title") == Some(t.title) && get("route") == Some(t.route)
            && get("description") == Some(t.description) && get("creatorUsername") == Some(t.creator)
  {
  }

  lemma TripRecordTypeAndStatus(t: Trip, lowerCase: bool)
    ensures var get := TripRecord(t, lowerCase);
            StatusOf(get("status")) == t.status && TypeOf(get("type")) == t.tripType
  {
    var get := TripRecord(t, lowerCase);
    StatusNameCase(t.status);
    UpperIsIdentity(StatusName(t.status));
    assert ToUpper("solo")[0] != "GROUP"[0];
    assert get("status").Some? && ToUpper(get("status").value) == StatusName(t.status);
  }

  // ---------------------------------------------------------------------------------------
  // parseSingleJoinRequest

  /**
   * `parseSingleJoinRequest`: no request without `_id` (there is no `id` fallback) or a
   * requester; the message defaults to ""; the status is `APPROVED` or `REJECTED` when the
   * field names one in any letter case, and `PENDING` otherwise.
   */
  function ParseJoinRequest(get: Fields, tripId: string): (r: Option<JoinRequest>)
    ensures r.Some? <==> get("_id").Some? && get("requesterUsername").Some?
    ensures r.Some? ==> r.value.id == get("_id").value && r.value.requester == get("requesterUsername").value
    ensures r.Some? ==> r.value.tripId == tripId && r.value.message == get("message").GetOr("")
    ensures r.Some? ==> (r.value.status == Approved <==> get("status").Some? && ToUpper(get("status").value) == "APPROVED")
    ensures r.Some? ==> (r.value.status == Rejected <==> get("status").Some? && ToUpper(get("status").value) == "REJECTED")
  {
    var id := get("_id");
    var requester := get("requesterUsername");
    if id.None? || requester.None? then None
    else Some(Decided(NewJoinRequest(id.value, tripId, requester.value, get("message").GetOr("")), get("status")))
  }

  /** The status field applied to a new request: `approve()`, `reject()` or nothing. */
  function Decided(q: JoinRequest, status: Option<string>): (r: JoinRequest)
    requires q.status == Pending
    ensures r.(status := q.status) == q
    ensures r.status == Approved <==> status.Some? && ToUpper(status.value) == "APPROVED"
    ensures r.status == Rejected <==> status.Some? && ToUpper(status.value) == "REJECTED"
    ensures r.status == Pending <==> (status.None? || ToUpper(status.value) !in {"APPROVED", "REJECTED"})
  {
    UpperIsIdentity("APPROVED");
    UpperIsIdentity("REJECTED");
    if status.Some? && EqualsIgnoreCase(status.value, "APPROVED") then Approve(q)
    else if status.Some? && EqualsIgnoreCase(status.value, "REJECTED") then Reject(q)
    else q
  }

  function RequestStatusName(s: RequestStatus): string {
    match s
    case Pending => "PENDING"
    case Approved => "APPROVED"
    case Rejected => "REJECTED"
  }

  /** A join request as the server sends it. */
  function RequestRecord(q: JoinRequest): Fields {
    MapFields(map["_id" := q.id, "requesterUsername" := q.requester, "message" := q.message,
                  "status" := RequestStatusName(q.status)])
  }

  /** Every join request reads back from its record. */
  lemma RequestRecordReadsBack(q: JoinRequest)
    ensures ParseJoinRequest(RequestRecord(q), q.tripId) == Some(q)
  {
    var get := RequestRecord(q);
    assert get("_id") == Some(q.id) && get("requesterUsername") == Some(q.requester);
    assert get("message") == Some(q.message) && get("status") == Some(RequestStatusName(q.status));
    UpperIsIdentity(RequestStatusName(q.status));
    var p := NewJoinRequest(q.id, q.tripId, q.requester, q.message);
    assert Decided(p, get("status")).status == q.status;
  }

  // ---------------------------------------------------------------------------------------
  // parseSingleNotification

  /**
   * `parseSingleNotification`: no notification without `_id` or a trip title; the type
   * defaults to `JOIN_REQUEST`, the trip id, route and message to "", and the user shown is
   * the requester, else the trip's creator, else "Unknown".
   */
  function ParseNotification(get: Fields): (r: Option<Notification>)
    ensures r.Some? <==> get("_id").Some? && get("tripTitle").Some?
    ensures r.Some? ==> r.value.id == get("_id").value && r.value.tripTitle == get("tripTitle").value
    ensures r.Some? ==> r.value.kind == get("type").GetOr("JOIN_REQUEST")
    ensures r.Some? ==> r.value.tripId == get("tripId").GetOr("") && r.value.tripRoute == get("tripRoute").GetOr("")
    ensures r.Some? ==> r.value.message == get("message").GetOr("")
    ensures r.Some? && get("requesterUsername").Some? ==> r.value.requester == get("requesterUsername").value
    ensures r.Some? && get("requesterUsername").None? && get("tripCreatorUsername").Some? ==>
              r.value.requester == get("tripCreatorUsername").value
    ensures r.Some? && get("requesterUsername").None? && get("tripCreatorUsername").None? ==>
              r.value.requester == "Unknown"
  {
    var id := get("_id");
    var title := get("tripTitle");
    if id.None? || title.None? then None
    else
      var shown := get("requesterUsername").OrElse(get("tripCreatorUsername"));
      Some(Notification(id.value, get("type").GetOr("JOIN_REQUEST"), get("tripId").GetOr(""), title.value,
                        get("tripRoute").GetOr(""), shown.GetOr("Unknown"), get("message").GetOr("")))
  }

  /** A join-request notification as the server sends it. */
  function NotificationRecord(n: Notification): Fields {
    MapFields(map["_id" := n.id, "type" := n.kind, "tripId" := n.tripId, "tripTitle" := n.tripTitle,
                  "tripRoute" := n.tripRoute, "requesterUsername" := n.requester, "message" := n.message])
  }

  /** Every notification reads back from its record. */
  lemma NotificationRecordReadsBack(n: Notification)
    ensures ParseNotification(NotificationRecord(n)) == Some(n)
  {
  }

  /** A notification about a trip whose record names only the creator shows the creator. */
  lemma CreatorShownWithoutRequester(id: string, title: string, creator: string)
    ensures var r := ParseNotification(MapFields(map["_id" := id, "tripTitle" := title, "tripCreatorUsername" := creator]));
            r == Some(Notification(id, "JOIN_REQUEST", "", title, "", creator, ""))
  {
  }
}

=== FILE: chat_mesh.dfy ===
/**
 * The chat-room servers of `ChatServer.java`: every server keeps a set of client handlers and
 * a list of sibling servers. A frame read by one handler is handled as one atomic step.
 * A socket is an outbox: the sequence of lines written to it. Servers are numbered by their
 * position in the mesh, and a sibling is referred to by that number.
 */
module ChatMesh {
  import opened Wrappers
  import opened JavaText

  type ClientId = nat

  /**
   * One `ClientHandler`: the user name and room set by the last accepted `JOIN`, whether its
   * `PrintWriter` has been opened yet (it is opened when the handler starts running), and
   * every line written to its socket.
   */
  datatype Session = Session(username: Option<string>, room: Option<string>, writerOpen: bool, outbox: seq<string>)

  /** One `ChatServer`: its port, its registered handlers and its sibling servers, in order. */
  datatype Server = Server(port: int, clients: map<ClientId, Session>, siblings: seq<nat>)

  type Mesh = seq<Server>

  /** `n` copies of `msg`. */
  function Copies(msg: string, n: nat): (r: seq<string>)
    ensures |r| == n && forall k :: 0 <= k < n ==> r[k] == msg
  {
    seq(n, _ => msg)
  }

  /**
   * `ClientHandler.sendMessage` applied `n` times: each call writes one line, unless the
   * writer is not open yet, in which case the call does nothing.
   */
  function DeliverN(s: Session, msg: string, n: nat): Session {
    if s.writerOpen then s.(outbox := s.outbox + Copies(msg, n)) else s
  }

  /**
   * The loop over `clients` in `broadcastMessage` (skipping `skip`) and in
   * `receiveMessageFromOtherServer` (`skip == None`): one `sendMessage` per handler.
   */
  function FanOut(clients: map<ClientId, Session>, msg: string, skip: Option<ClientId>): (r: map<ClientId, Session>)
    ensures r.Keys == clients.Keys
    ensures forall c :: c in clients ==>
              r[c].username == clients[c].username && r[c].room == clients[c].room && r[c].writerOpen == clients[c].writerOpen
    ensures forall c :: c in clients && skip == Some(c) ==> r[c].outbox == clients[c].outbox
    ensures forall c :: c in clients && skip != Some(c) ==>
              r[c].outbox == if clients[c].writerOpen then clients[c].outbox + [msg] else clients[c].outbox
  {
    map c | c in clients :: if skip == Some(c) then clients[c] else DeliverN(clients[c], msg, 1)
  }

  /** `receiveMessageFromOtherServer`: every local handler, no exclusion, and no forwarding. */
  function ReceiveFromSibling(srv: Server, msg: string): (r: Server)
    ensures r.port == srv.port && r.siblings == srv.siblings && r.clients.Keys == srv.clients.Keys
    ensures forall c :: c in srv.clients ==> r.clients[c] == DeliverN(srv.clients[c], msg, 1)
  {
    srv.(clients := FanOut(srv.clients, msg, None))
  }

  /** The second loop of `broadcastMessage`: one call per entry of the sibling list, in order. */
  function Forward(mesh: Mesh, sibs: seq<nat>, msg: string): (r: Mesh)
    ensures |r| == |mesh|
    decreases |sibs|
  {
    if |sibs| == 0 then mesh
    else
      var j := sibs[0];
      var next := if j < |mesh| then mesh[j := ReceiveFromSibling(mesh[j], msg)] else mesh;
      Forward(next, sibs[1..], msg)
  }

  /** `broadcastMessage(msg, sender)` on server `i`: local fan-out, then the siblings. */
  function Broadcast(mesh: Mesh, i: nat, msg: string, sender: ClientId): (r: Mesh)
    requires i < |mesh|
    ensures |r| == |mesh|
  {
    var local := mesh[i := mesh[i].(clients := FanOut(mesh[i].clients, msg, Some(sender)))];
    Forward(local, mesh[i].siblings, msg)
  }

  // ---------------------------------------------------------------------------------------
  // counting deliveries

  /** `n` receptions from siblings, in one step. */
  function ReceiveN(srv: Server, msg: string, n: nat): Server {
    srv.(clients := map c | c in srv.clients :: DeliverN(srv.clients[c], msg, n))
  }

  lemma DeliverNAdd(s: Session, msg: string, a: nat, b: nat)
    ensures DeliverN(DeliverN(s, msg, a), msg, b) == DeliverN(s, msg, a + b)
  {
    if s.writerOpen {
      assert Copies(msg, a) + Copies(msg, b) == Copies(msg, a + b);
    }
  }

  lemma ReceiveNAdd(srv: Server, msg: string, a: nat, b: nat)
    ensures ReceiveN(ReceiveN(srv, msg, a), msg, b) == ReceiveN(srv, msg, a + b)
  {
    var lhs := ReceiveN(ReceiveN(srv, msg, a), msg, b).clients;
    var rhs := ReceiveN(srv, msg, a + b).clients;
    forall c | c in srv.clients ensures lhs[c] == rhs[c] {
      DeliverNAdd(srv.clients[c], msg, a, b);
    }
    assert lhs == rhs;
  }

  lemma ReceiveZero(srv: Server, msg: string)
    ensures ReceiveN(srv, msg, 0) == srv
  {
    var r := ReceiveN(srv, msg, 0).clients;
    forall c | c in srv.clients ensures r[c] == srv.clients[c] {
      assert Copies(msg, 0) == [];
      assert srv.clients[c].outbox + [] == srv.clients[c].outbox;
    }
    assert r == srv.clients;
  }

  lemma ReceiveOne(srv: Server, msg: string)
    ensures ReceiveN(srv, msg, 1) == ReceiveFromSibling(srv, msg)
  {
    assert ReceiveN(srv, msg, 1).clients == ReceiveFromSibling(srv, msg).clients;
  }

  /**
   * Forwarding along a sibling list delivers to server `j` exactly as many copies as `j`
   * occurs in the list, and a server reached this way never passes the message on.
   */
  lemma {:induction false} ForwardCounts(mesh: Mesh, sibs: seq<nat>, msg: string, j: nat)
    requires j < |mesh|
    ensures Forward(mesh, sibs, msg)[j] == ReceiveN(mesh[j], msg, multiset(sibs)[j])
    decreases |sibs|
  {
    if |sibs| == 0 {
      ReceiveZero(mesh[j], msg);
    } else {
      var k := sibs[0];
      var next := if k < |mesh| then mesh[k := ReceiveFromSibling(mesh[k], msg)] else mesh;
      assert sibs == [k] + sibs[1..];
      assert multiset(sibs)[j] == (if k == j then 1 else 0) + multiset(sibs[1..])[j];
      ForwardCounts(next, sibs[1..], msg, j);
      if k == j {
        ReceiveOne(mesh[j], msg);
        ReceiveNAdd(mesh[j], msg, 1, multiset(sibs[1..])[j]);
      }
    }
  }

  /**
   * One broadcast at server `i` from `sender`, for ANY sibling lists: each handler on server
   * `j` receives one local copy (if `j == i` and it is not the sender) plus one copy per
   * occurrence of `j` in server `i`'s sibling list; nothing else changes anywhere.
   */
  lemma {:induction false} BroadcastCounts(mesh: Mesh, i: nat, msg: string, sender: ClientId, j: nat, c: ClientId)
    requires i < |mesh| && j < |mesh| && c in mesh[j].clients
    ensures var r := Broadcast(mesh, i, msg, sender);
            var local := if j == i && c != sender then 1 else 0;
            && r[j].port == mesh[j].port && r[j].siblings == mesh[j].siblings
            && r[j].clients.Keys == mesh[j].clients.Keys
            && r[j].clients[c] == DeliverN(mesh[j].clients[c], msg, local + multiset(mesh[i].siblings)[j])
  {
    var local := mesh[i := mesh[i].(clients := FanOut(mesh[i].clients, msg, Some(sender)))];
    ForwardCounts(local, mesh[i].siblings, msg, j);
    var n := multiset(mesh[i].siblings)[j];
    if j == i && c != sender {
      DeliverNAdd(mesh[j].clients[c], msg, 1, n);
    } else {
      assert local[j].clients[c] == mesh[j].clients[c];
    }
  }

  /**
   * Single hop: a server that is neither the origin nor on the origin's sibling list is left
   * untouched, even when it is a sibling of one of the origin's siblings.
   */
  lemma SingleHop(mesh: Mesh, i: nat, msg: string, sender: ClientId, j: nat)
    requires i < |mesh| && j < |mesh| && j != i && j !in mesh[i].siblings
    ensures Broadcast(mesh, i, msg, sender)[j] == mesh[j]
  {
    var local := mesh[i := mesh[i].(clients := FanOut(mesh[i].clients, msg, Some(sender)))];
    ForwardCounts(local, mesh[i].siblings, msg, j);
    assert multiset(mesh[i].siblings)[j] == 0;
    ReceiveZero(mesh[j], msg);
  }

  // ---------------------------------------------------------------------------------------
  // the handler's read loop

  /** The notice broadcast when a handler joins a room. */
  function UserJoinLine(username: string, room: string): string {
    "USER_JOIN:" + username + ":" + room
  }

  /** The notice broadcast on `LEAVE:`, naming the handler's user (`null` if it never joined). */
  function UserLeaveLine(username: Option<string>): string {
    "USER_LEAVE:" + TextOf(username)
  }

  /** Result of handling one inbound line: the new mesh, and whether the read loop ends. */
  datatype StepResult = StepResult(mesh: Mesh, stop: bool)

  /** The frame kinds `ClientHandler.run` tells apart, by prefix. */
  datatype Frame =
    | Join(username: string, room: string)   // `JOIN:` with exactly two fields
    | BadJoin                                 // `JOIN:` with any other field count
    | Relay                                   // `MESSAGE:` or `FILE:`, passed on unchanged
    | Leave                                   // `LEAVE:`
    | Other                                   // anything else

  function DecodeFrame(line: string): (f: Frame)
    ensures f.Join? <==> StartsWith(line, "JOIN:") && |SplitNoLimit(line[5..], ':')| == 2
    ensures f.Join? ==> [f.username, f.room] == SplitNoLimit(line[5..], ':')
    ensures f.Relay? <==> StartsWith(line, "MESSAGE:") || StartsWith(line, "FILE:")
    ensures f.Leave? <==> StartsWith(line, "LEAVE:")
  {
    FrameTagsExclusive(line);
    if StartsWith(line, "JOIN:") then
      var parts := SplitNoLimit(line[5..], ':');
      if |parts| == 2 then Join(parts[0], parts[1]) else BadJoin
    else if StartsWith(line, "MESSAGE:") || StartsWith(line, "FILE:") then Relay
    else if StartsWith(line, "LEAVE:") then Leave
    else Other
  }

  /** A line starts with at most one of the frame tags: their first letters differ. */
  lemma FrameTagsExclusive(line: string)
    ensures StartsWith(line, "JOIN:") ==> !StartsWith(line, "MESSAGE:") && !StartsWith(line, "FILE:") && !StartsWith(line, "LEAVE:")
    ensures StartsWith(line, "MESSAGE:") || StartsWith(line, "FILE:") ==> !StartsWith(line, "LEAVE:")
  {
    if |line| > 0 {
      assert StartsWith(line, "JOIN:") ==> line[0] == line[..5][0] == 'J';
      assert StartsWith(line, "MESSAGE:") ==> line[0] == line[..8][0] == 'M';
      assert StartsWith(line, "FILE:") ==> line[0] == line[..5][0] == 'F';
      assert StartsWith(line, "LEAVE:") ==> line[0] == line[..6][0] == 'L';
    }
  }

  /** Handler `c` on server `i` after an accepted `JOIN`: its user name and room are set. */
  function Joined(mesh: Mesh, i: nat, c: ClientId, u: string, room: string): (r: Mesh)
    requires i < |mesh| && c in mesh[i].clients
    ensures |r| == |mesh| && r[i].clients.Keys == mesh[i].clients.Keys
  {
    mesh[i := mesh[i].(clients := mesh[i].clients[c := mesh[i].clients[c].(username := Some(u), room := Some(room))])]
  }

  /** One iteration of the read loop of handler `c` on server `i`. */
  function HandleLine(mesh: Mesh, i: nat, c: ClientId, line: string): (r: StepResult)
    requires i < |mesh| && c in mesh[i].clients
    ensures |r.mesh| == |mesh|
    ensures forall j :: 0 <= j < |mesh| ==>
              r.mesh[j].clients.Keys == mesh[j].clients.Keys && r.mesh[j].siblings == mesh[j].siblings
    ensures r.stop <==> StartsWith(line, "LEAVE:")
    ensures DecodeFrame(line).Join? ==>
              c in r.mesh[i].clients
              && r.mesh[i].clients[c].username == Some(DecodeFrame(line).username)
              && r.mesh[i].clients[c].room == Some(DecodeFrame(line).room)
    ensures DecodeFrame(line).Join? ==>
              var f := DecodeFrame(line);
              r.mesh == Broadcast(Joined(mesh, i, c, f.username, f.room), i, UserJoinLine(f.username, f.room), c)
    ensures DecodeFrame(line).Relay? ==> r.mesh == Broadcast(mesh, i, line, c)
    ensures DecodeFrame(line).Leave? ==>
              r.mesh == Broadcast(mesh, i, UserLeaveLine(mesh[i].clients[c].username), c)
    ensures DecodeFrame(line).BadJoin? || DecodeFrame(line).Other? ==> r.mesh == mesh
  {
    match DecodeFrame(line)
    case Join(u, room) =>
      var joined := Joined(mesh, i, c, u, room);
      var r := StepResult(Broadcast(joined, i, UserJoinLine(u, room), c), false);
      assert forall j :: 0 <= j < |mesh| ==> joined[j].clients.Keys == mesh[j].clients.Keys;
      BroadcastKeeps(joined, i, UserJoinLine(u, room), c);
      BroadcastCounts(joined, i, UserJoinLine(u, room), c, i, c);
      r
    case Relay =>
      BroadcastKeeps(mesh, i, line, c);
      StepResult(Broadcast(mesh, i, line, c), false)
    case Leave =>
      BroadcastKeeps(mesh, i, UserLeaveLine(mesh[i].clients[c].username), c);
      StepResult(Broadcast(mesh, i, UserLeaveLine(mesh[i].clients[c].username), c), true)
    case BadJoin => StepResult(mesh, false)
    case Other => StepResult(mesh, false)
  }

  /** `JOIN:a:` is rejected: the trailing empty field is dropped, leaving one field. */
  lemma JoinTrailingColonRejected()
    ensures DecodeFrame("JOIN:a:") == BadJoin
  {
    var payload := "JOIN:a:"[5..];
    assert payload == JoinWith(["a", ""], ':');
    SplitAllOfJoin(["a", ""], ':');
    assert ':' in payload by { assert payload[1] == ':'; }
    assert SplitNoLimit(payload, ':') == ["a"];
  }

  /** `JOIN::r` is accepted with an empty user name. */
  lemma JoinEmptyNameAccepted()
    ensures DecodeFrame("JOIN::r") == Join("", "r")
  {
    var payload := "JOIN::r"[5..];
    assert payload == JoinWith(["", "r"], ':');
    SplitAllOfJoin(["", "r"], ':');
    assert ':' in payload by { assert payload[0] == ':'; }
    assert SplitNoLimit(payload, ':') == ["", "r"];
  }

  /** A third field makes `JOIN:` a no-op. */
  lemma JoinThreeFieldsRejected()
    ensures DecodeFrame("JOIN:a:b:c") == BadJoin
  {
    assert "JOIN:a:b:c"[5..] == "a:b:c";
    SplitThreeFields();
  }

  lemma SplitThreeFields()
    ensures SplitNoLimit("a:b:c", ':') == ["a", "b", "c"]
  {
    assert "a:b:c" == JoinWith(["a", "b", "c"], ':');
    SplitAllOfJoin(["a", "b", "c"], ':');
    assert ':' in "a:b:c" by { assert "a:b:c"[1] == ':'; }
  }

  /** Broadcasting never adds or removes a handler and never changes a sibling list. */
  lemma BroadcastKeeps(mesh: Mesh, i: nat, msg: string, sender: ClientId)
    requires i < |mesh|
    ensures forall j :: 0 <= j < |mesh| ==>
              Broadcast(mesh, i, msg, sender)[j].clients.Keys == mesh[j].clients.Keys
              && Broadcast(mesh, i, msg, sender)[j].siblings == mesh[j].siblings
  {
    forall j | 0 <= j < |mesh|
      ensures Broadcast(mesh, i, msg, sender)[j].clients.Keys == mesh[j].clients.Keys
      ensures Broadcast(mesh, i, msg, sender)[j].siblings == mesh[j].siblings
    {
      var local := mesh[i := mesh[i].(clients := FanOut(mesh[i].clients, msg, Some(sender)))];
      ForwardCounts(local, mesh[i].siblings, msg, j);
    }
  }

  /** `removeClient`: only handler `c` leaves server `i`. */
  function RemoveClient(mesh: Mesh, i: nat, c: ClientId): (r: Mesh)
    requires i < |mesh|
    ensures |r| == |mesh| && c !in r[i].clients
    ensures forall d :: d in mesh[i].clients && d != c ==> d in r[i].clients && r[i].clients[d] == mesh[i].clients[d]
    ensures r[i].clients.Keys == mesh[i].clients.Keys - {c}
    ensures forall j :: 0 <= j < |mesh| && j != i ==> r[j] == mesh[j]
  {
    mesh[i := mesh[i].(clients := mesh[i].clients - {c})]
  }

  /** `ChatServer.start`: an accepted connection is registered before its handler runs. */
  function Accept(mesh: Mesh, i: nat, c: ClientId): (r: Mesh)
    requires i < |mesh| && c !in mesh[i].clients
    ensures |r| == |mesh| && c in r[i].clients
    ensures r[i].clients[c] == Session(None, None, false, [])
  {
    mesh[i := mesh[i].(clients := mesh[i].clients[c := Session(None, None, false, [])])]
  }

  /** The read loop over the lines the client sends, stopping after `LEAVE:`. */
  function ReadLoop(mesh: Mesh, i: nat, c: ClientId, lines: seq<string>): (r: Mesh)
    requires i < |mesh| && c in mesh[i].clients
    ensures |r| == |mesh| && c in r[i].clients
    ensures forall j :: 0 <= j < |mesh| ==> r[j].clients.Keys == mesh[j].clients.Keys
    decreases |lines|
  {
    if |lines| == 0 then mesh
    else
      var step := HandleLine(mesh, i, c, lines[0]);
      if step.stop then step.mesh else ReadLoop(step.mesh, i, c, lines[1..])
  }

  /**
   * `ClientHandler.run` from start to end of stream (or `LEAVE:`): the writer is opened, the
   * lines are handled in order, and the `finally` block deregisters the handler.
   */
  function RunSession(mesh: Mesh, i: nat, c: ClientId, lines: seq<string>): (r: Mesh)
    requires i < |mesh| && c in mesh[i].clients
    ensures |r| == |mesh| && c !in r[i].clients
    ensures r[i].clients.Keys == mesh[i].clients.Keys - {c}
  {
    var started := mesh[i := mesh[i].(clients := mesh[i].clients[c := mesh[i].clients[c].(writerOpen := true)])];
    var looped := ReadLoop(started, i, c, lines);
    RemoveClient(looped, i, c)
  }

  /** Lines after the first `LEAVE:` are never read. */
  lemma {:induction false} LinesAfterLeaveIgnored(mesh: Mesh, i: nat, c: ClientId, before: seq<string>, leave: string, after1: seq<string>, after2: seq<string>)
    requires i < |mesh| && c in mesh[i].clients
    requires StartsWith(leave, "LEAVE:")
    ensures ReadLoop(mesh, i, c, before + [leave] + after1) == ReadLoop(mesh, i, c, before + [leave] + after2)
    decreases |before|
  {
    if |before| == 0 {
      assert ([] + [leave] + after1)[0] == leave;
      assert ([] + [leave] + after2)[0] == leave;
    } else {
      var step := HandleLine(mesh, i, c, before[0]);
      assert (before + [leave] + after1)[0] == before[0];
      assert (before + [leave] + after2)[0] == before[0];
      if !step.stop {
        assert (before + [leave] + after1)[1..] == before[1..] + [leave] + after1;
        assert (before + [leave] + after2)[1..] == before[1..] + [leave] + after2;
        LinesAfterLeaveIgnored(step.mesh, i, c, before[1..], leave, after1, after2);
      }
    }
  }
}

=== FILE: forms.dfy ===
/**
 * The two account forms: the validation chain of `SignUpController.handleSignUp`, which
 * reports the first failing check or hands the cleaned fields to registration, and
 * `SettingsController.handleSaveSettings`, which validates the edited profile and stores the
 * updated user in the service's user cache under its (unchanged) username.
 */
module Forms {
  import opened Wrappers
  import opened JavaText
  import opened JsonText

  // ---------------------------------------------------------------------------------------
  // The two patterns of the sign-up form, as `String.matches` reads them

  /** `[a-zA-Z0-9_]`. */
  predicate IsUsernameChar(c: char) {
    ('a' <= c <= 'z') || ('A' <= c <= 'Z') || ('0' <= c <= '9') || c == '_'
  }

  /** `username.matches("^[a-zA-Z0-9_]+$")`: the whole text is a non-empty run of the class. */
  predicate UsernameMatches(u: string) {
    |u| > 0 && forall k :: 0 <= k < |u| ==> IsUsernameChar(u[k])
  }

  /** `[A-Za-z0-9+_.-]`, the class before the `@` of an address; it does not hold `@`. */
  predicate IsLocalChar(c: char) {
    ('a' <= c <= 'z') || ('A' <= c <= 'Z') || ('0' <= c <= '9')
    || c == '+' || c == '_' || c == '.' || c == '-'
  }

  /** No character of `s` is one `.` refuses to match. */
  predicate NoLineTerminator(s: string) {
    forall k :: 0 <= k < |s| ==> !IsLineTerminator(s[k])
  }

  /** The length of the greedy `[A-Za-z0-9+_.-]+` run at the start of `s`. */
  function LocalRun(s: string): (n: nat)
    ensures n <= |s|
    ensures forall k :: 0 <= k < n ==> IsLocalChar(s[k])
    ensures n < |s| ==> !IsLocalChar(s[n])
  {
    if |s| == 0 || !IsLocalChar(s[0]) then 0 else 1 + LocalRun(s[1..])
  }

  /**
   * `email.matches("^[A-Za-z0-9+_.-]+@(.+)$")` as the matcher runs it: the greedy class run
   * stops at the first character outside the class, which must be the `@`; `.+` then has to
   * reach the end of the text without meeting a line terminator.
   */
  predicate EmailMatches(e: string) {
    var n := LocalRun(e);
    0 < n && n + 1 < |e| && e[n] == '@' && NoLineTerminator(e[n + 1..])
  }

  /**
   * The language of the email pattern, stated without a matcher: some `@` has a non-empty
   * prefix drawn from the class and a non-empty suffix with no line terminator.
   */
  predicate EmailShape(e: string) {
    exists i :: 0 < i < |e| - 1 && e[i] == '@'
      && (forall k :: 0 <= k < i ==> IsLocalChar(e[k]))
      && NoLineTerminator(e[i + 1..])
  }

  /** The matcher accepts exactly the language of the pattern (backtracking buys nothing here). */
  lemma EmailMatchesIffShape(e: string)
    ensures EmailMatches(e) <==> EmailShape(e)
  {
    var n := LocalRun(e);
    if EmailMatches(e) {
      assert 0 < n < |e| - 1 && e[n] == '@';
    }
    if EmailShape(e) {
      var i :| 0 < i < |e| - 1 && e[i] == '@'
        && (forall k :: 0 <= k < i ==> IsLocalChar(e[k]))
        && NoLineTerminator(e[i + 1..]);
      assert !IsLocalChar(e[i]);
      assert n == i;
    }
  }

  // ---------------------------------------------------------------------------------------
  // Sign-up

  /** The raw texts of the five sign-up fields. */
  datatype SignUpForm = SignUpForm(username: string, fullName: string, email: string,
                                   password: string, confirm: string)

  /** The six checks of the form, in the order they run. */
  datatype SignUpCheck =
    | FieldsRequired | UsernameTooShort | UsernameChars | EmailInvalid
    | PasswordTooShort | PasswordMismatch

  /** Position of a check in the chain. */
  function Rank(c: SignUpCheck): nat {
    match c
    case FieldsRequired => 0
    case UsernameTooShort => 1
    case UsernameChars => 2
    case EmailInvalid => 3
    case PasswordTooShort => 4
    case PasswordMismatch => 5
  }

  /** The status line shown for a failed check. */
  function SignUpMessage(c: SignUpCheck): string {
    match c
    case FieldsRequired => "\U{26A0} All fields are required!"
    case UsernameTooShort => "\U{26A0} Username must be at least 3 characters!"
    case UsernameChars => "\U{26A0} Username can only contain letters, numbers, and underscores!"
    case EmailInvalid => "\U{26A0} Please enter a valid email address!"
    case PasswordTooShort => "\U{26A0} Password must be at least 6 characters!"
    case PasswordMismatch => "\U{26A0} Passwords do not match!"
  }

  /**
   * When each check fails, in terms of the cleaned fields: username, full name and email are
   * trimmed, the password and its confirmation are taken as typed. Lengths are those of
   * `String.length()`, which counts a character outside the Basic Multilingual Plane twice.
   */
  predicate Fails(c: SignUpCheck, f: SignUpForm) {
    var u := Trim(f.username);
    match c
    case FieldsRequired => u == [] || Trim(f.fullName) == [] || Trim(f.email) == [] || f.password == []
    case UsernameTooShort => Utf16Length(u) < 3
    case UsernameChars => exists k :: 0 <= k < |u| && !IsUsernameChar(u[k])
    case EmailInvalid => !EmailShape(Trim(f.email))
    case PasswordTooShort => Utf16Length(f.password) < 6
    case PasswordMismatch => f.password != f.confirm
  }

  /** What the form does: report one check, or call `registerUser(username, email, password, fullName)`. */
  datatype SignUpOutcome =
    | Rejected(check: SignUpCheck)
    | Register(username: string, email: string, password: string, fullName: string)

  /**
   * `handleSignUp` up to the background registration: the first failing check, in chain
   * order, is reported and nothing else happens; registration is reached exactly when no
   * check fails, with the trimmed username, email and full name and the untrimmed password.
   */
  function SignUp(f: SignUpForm): (r: SignUpOutcome)
    ensures r.Rejected? ==> Fails(r.check, f)
    ensures r.Rejected? ==> forall c :: Rank(c) < Rank(r.check) ==> !Fails(c, f)
    ensures r.Register? <==> forall c :: !Fails(c, f)
    ensures r.Register? ==> r == Register(Trim(f.username), Trim(f.email), f.password, Trim(f.fullName))
  {
    var username := Trim(f.username);
    var fullName := Trim(f.fullName);
    var email := Trim(f.email);
    EmailMatchesIffShape(email);
    if username == [] || fullName == [] || email == [] || f.password == [] then
      assert Fails(FieldsRequired, f);
      Rejected(FieldsRequired)
    else if Utf16Length(username) < 3 then
      assert Fails(UsernameTooShort, f);
      Rejected(UsernameTooShort)
    else if !UsernameMatches(username) then
      assert Fails(UsernameChars, f);
      Rejected(UsernameChars)
    else if !EmailMatches(email) then
      assert Fails(EmailInvalid, f);
      Rejected(EmailInvalid)
    else if Utf16Length(f.password) < 6 then
      assert Fails(PasswordTooShort, f);
      Rejected(PasswordTooShort)
    else if f.password != f.confirm then
      assert Fails(PasswordMismatch, f);
      Rejected(PasswordMismatch)
    else
      Register(username, email, f.password, fullName)
  }

  /**
   * What a successful sign-up needs, without the chain: a username of at least three
   * characters from `[A-Za-z0-9_]`, a non-blank full name, an address of the pattern's shape
   * and a password of at least six UTF-16 code units typed the same way twice. The emptiness tests
   * on the username, email and password are subsumed by the later checks.
   */
  predicate Acceptable(f: SignUpForm) {
    var u := Trim(f.username);
    && Utf16Length(u) >= 3 && (forall k :: 0 <= k < |u| ==> IsUsernameChar(u[k]))
    && Trim(f.fullName) != []
    && EmailShape(Trim(f.email))
    && Utf16Length(f.password) >= 6 && f.password == f.confirm
  }

  /** Registration is reached if and only if the form is acceptable. */
  lemma SignUpRegistersIffAcceptable(f: SignUpForm)
    ensures SignUp(f).Register? <==> Acceptable(f)
  {
    var r := SignUp(f);
    if Acceptable(f) {
      forall c ensures !Fails(c, f) {
        if c == FieldsRequired {
          assert '@' in Trim(f.email) by {
            var i :| 0 < i < |Trim(f.email)| - 1 && Trim(f.email)[i] == '@';
          }
        }
      }
    } else {
      assert Fails(FieldsRequired, f) || Fails(UsernameTooShort, f) || Fails(UsernameChars, f)
        || Fails(EmailInvalid, f) || Fails(PasswordTooShort, f) || Fails(PasswordMismatch, f);
    }
  }

  /** A password is taken as typed: surrounding spaces count towards its length and must be confirmed. */
  lemma PasswordIsNotTrimmed(f: SignUpForm)
    requires Acceptable(f)
    ensures SignUp(f).password == f.password
    ensures SignUp(f).username == Trim(f.username)
  {
    SignUpRegistersIffAcceptable(f);
  }

  /**
   * Three key emoji make a six-unit password: `length()` sees two code units for each, so the
   * length check passes although the password has only three characters.
   */
  lemma SupplementaryPasswordCountsTwice()
    ensures var pw := "\U{1F511}\U{1F511}\U{1F511}";
            && |pw| == 3
            && SignUp(SignUpForm("ann", "Ann", "a@b", pw, pw)).Register?
  {
    var pw := "\U{1F511}\U{1F511}\U{1F511}";
    var f := SignUpForm("ann", "Ann", "a@b", pw, pw);
    assert Acceptable(f) by {
      assert Utf16Length(pw) == 6;
      assert Trim(f.username) == f.username && Utf16Length(f.username) >= 3 by {
        TrimOfTrimmed(f.username);
      }
      assert Trim(f.fullName) == f.fullName by {
        TrimOfTrimmed(f.fullName);
      }
      assert EmailShape(Trim(f.email)) by {
        TrimOfTrimmed(f.email);
        assert f.email[1] == '@' && IsLocalChar(f.email[0]);
      }
    }
    SignUpRegistersIffAcceptable(f);
  }

  /**
   * A username of two emoji passes the length check as four code units and is then refused
   * for its characters.
   */
  lemma SupplementaryUsernameFailsOnChars()
    ensures SignUp(SignUpForm("\U{1F511}\U{1F511}", "Ann", "a@b", "secret1", "secret1"))
            == Rejected(UsernameChars)
  {
    assert Utf16Length("\U{1F511}\U{1F511}") == 4;
  }

  // ---------------------------------------------------------------------------------------
  // Settings

  /** The profile fields of `User` the settings page edits (the join date is left out). */
  datatype User = User(username: string, displayName: string, email: string, bio: string,
                       profilePicturePath: string, coverPhotoPath: string)

  /** The raw texts of the settings fields. */
  datatype SettingsForm = SettingsForm(displayName: string, email: string, bio: string,
                                       profilePicture: string, coverPhoto: string)

  datatype SettingsError = NameRequired | EmailRequired

  function SettingsMessage(e: SettingsError): string {
    match e
    case NameRequired => "Display name cannot be empty!"
    case EmailRequired => "Please enter a valid email address!"
  }

  /** The user cache of the service after the save, the current user, and the error shown if any. */
  datatype SettingsResult = SettingsResult(users: map<string, User>, user: User, error: Option<SettingsError>)

  /** `TripService.updateUser`: the cache entry under the user's name becomes this user. */
  function UpdateUser(users: map<string, User>, u: User): (r: map<string, User>)
    ensures u.username in r && r[u.username] == u
    ensures r.Keys == users.Keys + {u.username}
    ensures forall name :: name in users && name != u.username ==> r[name] == users[name]
  {
    users[u.username := u]
  }

  /**
   * `handleSaveSettings`: a display name that trims to nothing is refused first, then an email
   * whose trimmed text has no `@` (an empty one included); a refusal leaves the user and the
   * cache as they were. Otherwise name, email and bio are stored trimmed, the two image paths
   * as typed, the username is kept, and the cache holds the updated user under that name.
   */
  function SaveSettings(users: map<string, User>, current: User, form: SettingsForm): (r: SettingsResult)
    ensures r.error == Some(NameRequired) <==> IsBlank(form.displayName)
    ensures r.error == Some(EmailRequired) <==> !IsBlank(form.displayName) && '@' !in Trim(form.email)
    ensures r.error.Some? ==> r.users == users && r.user == current
    ensures r.error.None? ==>
      && r.user.username == current.username
      && r.user.displayName == Trim(form.displayName) && r.user.displayName != []
      && r.user.email == Trim(form.email) && '@' in r.user.email
      && r.user.bio == Trim(form.bio)
      && r.user.profilePicturePath == form.profilePicture
      && r.user.coverPhotoPath == form.coverPhoto
    ensures r.error.None? ==> r.users == UpdateUser(users, r.user)
  {
    var displayName := Trim(form.displayName);
    var email := Trim(form.email);
    var bio := Trim(form.bio);
    BlankIsTrimEmpty(form.displayName);
    if displayName == [] then
      SettingsResult(users, current, Some(NameRequired))
    else if email == [] || '@' !in email then
      SettingsResult(users, current, Some(EmailRequired))
    else
      var updated := current.(displayName := displayName, email := email, bio := bio,
                              profilePicturePath := form.profilePicture,
                              coverPhotoPath := form.coverPhoto);
      SettingsResult(UpdateUser(users, updated), updated, None)
  }

  /** `loadUserData`: the form opens showing the user's current values. */
  function LoadForm(u: User): SettingsForm {
    SettingsForm(u.displayName, u.email, u.bio, u.profilePicturePath, u.coverPhotoPath)
  }

  /**
   * Saving is idempotent: reopening the page after a successful save and saving the loaded
   * form again accepts it and changes neither the user nor the cache.
   */
  lemma SaveSettingsIdempotent(users: map<string, User>, current: User, form: SettingsForm)
    requires SaveSettings(users, current, form).error.None?
    ensures var r := SaveSettings(users, current, form);
            SaveSettings(r.users, r.user, LoadForm(r.user)) == r
  {
    var r := SaveSettings(users, current, form);
    var u := r.user;
    TrimIdempotent(form.displayName);
    TrimIdempotent(form.email);
    TrimIdempotent(form.bio);
    BlankIsTrimEmpty(u.displayName);
    SaveTrimmedForm(r.users, u);
    UpdateUserTwice(users, u);
  }

  /** Saving a user's own, already trimmed and valid, values gives that user back. */
  lemma SaveTrimmedForm(users: map<string, User>, u: User)
    requires Trim(u.displayName) == u.displayName && u.displayName != []
    requires Trim(u.email) == u.email && '@' in u.email
    requires Trim(u.bio) == u.bio
    ensures SaveSettings(users, u, LoadForm(u)) == SettingsResult(UpdateUser(users, u), u, None)
  {
    BlankIsTrimEmpty(u.displayName);
  }

  /** Storing the same user twice is storing it once. */
  lemma UpdateUserTwice(users: map<string, User>, u: User)
    ensures UpdateUser(UpdateUser(users, u), u) == UpdateUser(users, u)
  {
  }
}

=== FILE: java_text.dfy ===
/**
 * The parts of `java.lang.String` the messaging code and the helpers rely on, with Java's
 * exact semantics: `trim`, `startsWith`, `indexOf`, `replace` on literal text, `split` on a
 * single literal character with and without a limit, ASCII case mapping and decimal
 * formatting of non-negative numbers.
 */
module JavaText {
  import opened Wrappers

  /** String concatenation with a possibly-null string: `null` prints as `"null"`. */
  function TextOf(s: Option<string>): string {
    s.GetOr("null")
  }

  // ---------------------------------------------------------------------------------------
  // trim / isEmpty

  /** `String.trim` strips every character whose code is at most U+0020. */
  predicate IsTrimmable(c: char) {
    c <= ' '
  }

  /** Number of leading trimmable characters of `s`. */
  function LeadingBlanks(s: string): (n: nat)
    ensures n <= |s|
    ensures forall k :: 0 <= k < n ==> IsTrimmable(s[k])
    ensures n < |s| ==> !IsTrimmable(s[n])
  {
    if |s| == 0 || !IsTrimmable(s[0]) then 0 else 1 + LeadingBlanks(s[1..])
  }

  /** Length of `s` once its trailing trimmable characters are removed. */
  function WithoutTrailingBlanks(s: string): (m: nat)
    ensures m <= |s|
    ensures forall k :: m <= k < |s| ==> IsTrimmable(s[k])
    ensures 0 < m ==> !IsTrimmable(s[m - 1])
  {
    if |s| == 0 || !IsTrimmable(s[|s| - 1]) then |s| else WithoutTrailingBlanks(s[..|s| - 1])
  }

  /** Java's `s.trim()`: the slice of `s` between its leading and trailing blanks. */
  function Trim(s: string): (r: string)
    ensures LeadingBlanks(s) + |r| <= |s|
    ensures r == s[LeadingBlanks(s)..LeadingBlanks(s) + |r|]
    ensures r == [] || (!IsTrimmable(r[0]) && !IsTrimmable(r[|r| - 1]))
    ensures forall k :: 0 <= k < LeadingBlanks(s) ==> IsTrimmable(s[k])
    ensures forall k :: LeadingBlanks(s) + |r| <= k < |s| ==> IsTrimmable(s[k])
    ensures r == [] <==> forall k :: 0 <= k < |s| ==> IsTrimmable(s[k])
  {
    var n := LeadingBlanks(s);
    var m := WithoutTrailingBlanks(s);
    if m <= n then
      assert forall k :: 0 <= k < |s| ==> IsTrimmable(s[k]) by {
        forall k | 0 <= k < |s| ensures IsTrimmable(s[k]) {
          if k >= n { assert k >= m; }
        }
      }
      assert n == |s|;
      []
    else
      s[n..m]
  }

  /** A string with no trimmable character at either end. */
  predicate IsTrimmed(s: string) {
    s == [] || (!IsTrimmable(s[0]) && !IsTrimmable(s[|s| - 1]))
  }

  /** Trimming a string with no trimmable ends changes nothing, so trim is idempotent. */
  lemma TrimOfTrimmed(s: string)
    requires IsTrimmed(s)
    ensures Trim(s) == s
  {
    assert LeadingBlanks(s) == 0;
    assert WithoutTrailingBlanks(s) == |s|;
  }

  lemma TrimIdempotent(s: string)
    ensures Trim(Trim(s)) == Trim(s)
  {
    TrimOfTrimmed(Trim(s));
  }

  /** Every character of `s` is trimmable; `BlankIsTrimEmpty` shows this is `s.trim().isEmpty()`. */
  predicate IsBlank(s: string) {
    forall k :: 0 <= k < |s| ==> IsTrimmable(s[k])
  }

  /** `s.trim().isEmpty()` holds exactly for the blank strings. */
  lemma BlankIsTrimEmpty(s: string)
    ensures IsBlank(s) <==> Trim(s) == []
  {
  }

  // ---------------------------------------------------------------------------------------
  // length

  /** A character outside the Basic Multilingual Plane, stored by Java as a surrogate pair. */
  predicate IsSupplementary(c: char) {
    c as int > 0xFFFF
  }

  /**
   * `s.length()`: the number of UTF-16 code units, one per character of the Basic
   * Multilingual Plane and two per supplementary character.
   */
  function Utf16Length(s: string): (n: nat)
    ensures |s| <= n <= 2 * |s|
  {
    if s == [] then 0 else (if IsSupplementary(s[0]) then 2 else 1) + Utf16Length(s[1..])
  }

  /** `length()` counts characters exactly when no character needs a surrogate pair. */
  lemma {:induction false} Utf16LengthIsSize(s: string)
    ensures Utf16Length(s) == |s| <==> forall k :: 0 <= k < |s| ==> !IsSupplementary(s[k])
  {
    if s != [] {
      Utf16LengthIsSize(s[1..]);
      assert forall k :: 1 <= k < |s| ==> s[k] == s[1..][k - 1];
    }
  }

  // ---------------------------------------------------------------------------------------
  // startsWith / indexOf / contains

  predicate StartsWith(s: string, prefix: string) {
    |prefix| <= |s| && s[..|prefix|] == prefix
  }

  /** `pat` occurs in `s` at index `i`. */
  predicate OccursAt(s: string, pat: string, i: int) {
    0 <= i && i + |pat| <= |s| && s[i..i + |pat|] == pat
  }

  /** Java's `s.indexOf(pat, from)`, with `None` for -1. */
  function IndexOfFrom(s: string, pat: string, from: nat): (r: Option<nat>)
    ensures r.Some? ==> from <= r.value && OccursAt(s, pat, r.value)
    ensures r.Some? ==> forall i :: from <= i < r.value ==> !OccursAt(s, pat, i)
    ensures r.None? ==> forall i :: from <= i ==> !OccursAt(s, pat, i)
    decreases |s| - from
  {
    if from + |pat| > |s| then None
    else if s[from..from + |pat|] == pat then Some(from)
    else IndexOfFrom(s, pat, from + 1)
  }

  /** Java's `s.indexOf(pat)`. */
  function IndexOf(s: string, pat: string): (r: Option<nat>)
    ensures r.Some? ==> OccursAt(s, pat, r.value)
    ensures r.None? ==> forall i :: !OccursAt(s, pat, i)
  {
    IndexOfFrom(s, pat, 0)
  }

  /** An occurrence with none before it is the one `indexOf` finds. */
  lemma IndexOfAt(s: string, pat: string, i: nat)
    requires OccursAt(s, pat, i)
    requires forall j :: 0 <= j < i ==> !OccursAt(s, pat, j)
    ensures IndexOf(s, pat) == Some(i)
  {
    var r := IndexOfFrom(s, pat, 0);
    assert r.Some? && r.value <= i;
  }

  /** Java's `s.contains(pat)`. */
  predicate Contains(s: string, pat: string) {
    IndexOf(s, pat).Some?
  }

  /** A text holding an occurrence contains the pattern. */
  lemma ContainsAt(s: string, pat: string, i: nat)
    requires OccursAt(s, pat, i)
    ensures Contains(s, pat)
  {
  }

  /** First index of character `c` in `s`. */
  function IndexOfChar(s: string, c: char): (k: nat)
    requires c in s
    ensures k < |s| && s[k] == c && c !in s[..k]
  {
    if s[0] == c then 0 else 1 + IndexOfChar(s[1..], c)
  }

  /** The first `c` follows a `c`-free prefix `a`. */
  lemma {:induction false} IndexOfCharAfter(s: string, c: char, a: string)
    requires c !in a && |a| < |s| && s[..|a|] == a && s[|a|] == c
    ensures IndexOfChar(s, c) == |a|
  {
    if |a| > 0 {
      assert s[0] == a[0];
      assert s[1..][..|a| - 1] == a[1..];
      IndexOfCharAfter(s[1..], c, a[1..]);
    }
  }

  // ---------------------------------------------------------------------------------------
  // split on one literal character

  /** The pieces joined back with `d` between consecutive ones. */
  function JoinWith(parts: seq<string>, d: char): string {
    if |parts| == 0 then []
    else if |parts| == 1 then parts[0]
    else parts[0] + [d] + JoinWith(parts[1..], d)
  }

  /** Every piece of `s` between occurrences of `d`, empty pieces included. */
  function SplitAll(s: string, d: char): (r: seq<string>)
    ensures |r| >= 1
    ensures forall i :: 0 <= i < |r| ==> d !in r[i]
    ensures JoinWith(r, d) == s
  {
    if |s| == 0 then [[]]
    else
      var rest := SplitAll(s[1..], d);
      if s[0] == d then
        assert s == [d] + s[1..];
        [[]] + rest
      else
        var r := [[s[0]] + rest[0]] + rest[1..];
        assert JoinWith(r, d) == s by {
          if |rest| == 1 {
            assert r == [[s[0]] + rest[0]];
          } else {
            assert r[1..] == rest[1..];
            assert JoinWith(r, d) == r[0] + [d] + JoinWith(rest[1..], d);
            assert JoinWith(rest, d) == rest[0] + [d] + JoinWith(rest[1..], d);
            assert s == [s[0]] + s[1..];
          }
        }
        r
  }

  /** Splitting a join of `d`-free pieces gives the pieces back. */
  lemma {:induction false} SplitAllOfJoin(parts: seq<string>, d: char)
    requires |parts| >= 1
    requires forall i :: 0 <= i < |parts| ==> d !in parts[i]
    ensures SplitAll(JoinWith(parts, d), d) == parts
    decreases |parts|, |parts[0]|
  {
    var s := JoinWith(parts, d);
    if |parts[0]| == 0 {
      if |parts| == 1 {
      } else {
        assert s == [d] + JoinWith(parts[1..], d);
        assert s[1..] == JoinWith(parts[1..], d);
        SplitAllOfJoin(parts[1..], d);
        assert parts == [parts[0]] + parts[1..];
      }
    } else {
      var c := parts[0][0];
      var tail := [parts[0][1..]] + parts[1..];
      assert c != d by { assert c in parts[0]; }
      assert forall i :: 0 <= i < |tail| ==> d !in tail[i] by {
        forall i | 0 <= i < |tail| ensures d !in tail[i] {
          if i == 0 {
            assert forall x :: x in parts[0][1..] ==> x in parts[0];
          } else {
            assert tail[i] == parts[i];
          }
        }
      }
      assert s == [c] + JoinWith(tail, d) by {
        if |parts| == 1 {
        } else {
          assert tail[1..] == parts[1..];
          assert parts[0] == [c] + parts[0][1..];
        }
      }
      assert s[1..] == JoinWith(tail, d);
      SplitAllOfJoin(tail, d);
      var rest := SplitAll(s[1..], d);
      assert rest == tail;
      assert parts[0] == [c] + tail[0];
      assert parts == [[c] + rest[0]] + rest[1..];
    }
  }

  /** Drops every trailing empty piece, as `split` with limit 0 does. */
  function DropTrailingEmpty(parts: seq<string>): (r: seq<string>)
    ensures |r| <= |parts| && r == parts[..|r|]
    ensures r == [] || r[|r| - 1] != []
    ensures forall i :: |r| <= i < |parts| ==> parts[i] == []
  {
    if |parts| == 0 then []
    else if parts[|parts| - 1] == [] then DropTrailingEmpty(parts[..|parts| - 1])
    else parts
  }

  /**
   * Java's `s.split(d)` (limit 0): every piece, with trailing empty pieces removed; a string
   * without `d` comes back whole, so `"".split(d)` is `[""]`.
   */
  function SplitNoLimit(s: string, d: char): seq<string> {
    if d !in s then [s] else DropTrailingEmpty(SplitAll(s, d))
  }

  /**
   * Java's `s.split(d, limit)` for `limit > 0`: at most `limit - 1` cuts; the last piece keeps
   * the rest of the string, separators included, and trailing empty pieces are kept.
   */
  function SplitLimit(s: string, d: char, limit: nat): (r: seq<string>)
    requires limit > 0
    ensures 1 <= |r| <= limit
    ensures JoinWith(r, d) == s
    ensures forall i :: 0 <= i < |r| - 1 ==> d !in r[i]
    ensures |r| < limit ==> d !in r[|r| - 1]
  {
    if limit == 1 || d !in s then
      assert [s][0] == s;
      [s]
    else
      var k := IndexOfChar(s, d);
      var rest := SplitLimit(s[k + 1..], d, limit - 1);
      SplitCons(s, d, k, rest, limit);
      [s[..k]] + rest
  }

  /** The piece before the first `d`, put in front of the pieces of the rest, splits `s` as promised. */
  lemma SplitCons(s: string, d: char, k: nat, rest: seq<string>, limit: nat)
    requires k < |s| && s[k] == d && d !in s[..k] && limit >= 2
    requires 1 <= |rest| <= limit - 1 && JoinWith(rest, d) == s[k + 1..]
    requires forall i :: 0 <= i < |rest| - 1 ==> d !in rest[i]
    requires |rest| < limit - 1 ==> d !in rest[|rest| - 1]
    ensures var r := [s[..k]] + rest;
            && JoinWith(r, d) == s
            && (forall i :: 0 <= i < |r| - 1 ==> d !in r[i])
            && (|r| < limit ==> d !in r[|r| - 1])
  {
    var r := [s[..k]] + rest;
    assert r[1..] == rest;
    assert s == s[..k] + [d] + s[k + 1..];
    forall i | 0 <= i < |r| - 1 ensures d !in r[i] {
      if i > 0 {
        assert r[i] == rest[i - 1];
      }
    }
    assert r[|r| - 1] == rest[|rest| - 1];
  }

  /** With a limit above one, the first piece is the text before the first `d` and the rest is split with one cut less. */
  lemma SplitLimitStep(s: string, d: char, limit: nat, a: string, t: string)
    requires limit >= 2 && d !in a
    requires s == a + [d] + t
    ensures SplitLimit(s, d, limit) == [a] + SplitLimit(t, d, limit - 1)
  {
    assert s[..|a|] == a;
    IndexOfCharAfter(s, d, a);
    assert s[|a| + 1..] == t;
  }

  /** With limit 2, the pieces are exactly the text before and after the first `d`. */
  lemma SplitLimitTwo(s: string, d: char, a: string, b: string)
    requires d !in a
    requires s == a + [d] + b
    ensures SplitLimit(s, d, 2) == [a, b]
  {
    SplitLimitStep(s, d, 2, a, b);
  }

  /** With any limit above one, the first piece is the text before the first `d`. */
  lemma SplitLimitHead(s: string, d: char, limit: nat, a: string, rest: string)
    requires limit >= 2 && d !in a
    requires s == a + [d] + rest
    ensures |SplitLimit(s, d, limit)| >= 2 && SplitLimit(s, d, limit)[0] == a
  {
    SplitLimitStep(s, d, limit, a, rest);
  }

  /** With limit 3 the first two pieces are the text up to the first and second `d`. */
  lemma SplitLimitThree(s: string, d: char, a: string, b: string, c: string)
    requires d !in a && d !in b
    requires s == a + [d] + b + [d] + c
    ensures SplitLimit(s, d, 3) == [a, b, c]
  {
    ThreeFields(a, b, c, [d]);
    SplitLimitStep(s, d, 3, a, b + [d] + c);
    SplitLimitTwo(b + [d] + c, d, b, c);
    ThreePieces(a, b, c);
  }

  /** With limit 4 the first three pieces are the text up to each of the first three `d`s. */
  lemma SplitLimitFour(s: string, d: char, a: string, b: string, c: string, e: string)
    requires d !in a && d !in b && d !in c
    requires s == a + [d] + b + [d] + c + [d] + e
    ensures SplitLimit(s, d, 4) == [a, b, c, e]
  {
    FourFields(a, b, c, e, [d]);
    SplitLimitStep(s, d, 4, a, b + [d] + c + [d] + e);
    SplitLimitThree(b + [d] + c + [d] + e, d, b, c, e);
    FourPieces(a, b, c, e);
  }

  lemma ThreePieces(a: string, b: string, c: string)
    ensures [a] + [b, c] == [a, b, c]
  {
  }

  lemma FourPieces(a: string, b: string, c: string, e: string)
    ensures [a] + [b, c, e] == [a, b, c, e]
  {
  }

  lemma ThreeFields(a: string, b: string, c: string, sep: string)
    ensures a + sep + b + sep + c == a + sep + (b + sep + c)
  {
  }

  lemma FourFields(a: string, b: string, c: string, e: string, sep: string)
    ensures a + sep + b + sep + c + sep + e == a + sep + (b + sep + c + sep + e)
  {
  }

  /** Without a limit, two colon-free pieces come back as they were when the second is not empty. */
  lemma SplitNoLimitPair(s: string, d: char, a: string, b: string)
    requires d !in a && d !in b && b != []
    requires s == a + [d] + b
    ensures SplitNoLimit(s, d) == [a, b]
  {
    assert JoinWith([a, b], d) == s;
    SplitAllOfJoin([a, b], d);
    assert s[|a|] == d;
  }

  // ---------------------------------------------------------------------------------------
  // replace on literal text

  /** Java's `s.replace(target, replacement)`: left to right, non-overlapping. */
  function Replace(s: string, target: string, replacement: string): string
    requires |target| > 0
    decreases |s|
  {
    if |s| < |target| then s
    else if s[..|target|] == target then
      replacement + Replace(s[|target|..], target, replacement)
    else
      [s[0]] + Replace(s[1..], target, replacement)
  }

  /** `replace` leaves a text without the target as it is. */
  lemma {:induction false} ReplaceAbsent(s: string, target: string, replacement: string)
    requires |target| > 0
    requires !Contains(s, target)
    ensures Replace(s, target, replacement) == s
    decreases |s|
  {
    if |s| >= |target| {
      assert !OccursAt(s, target, 0);
      assert !Contains(s[1..], target) by {
        forall i ensures !OccursAt(s[1..], target, i) {
          if OccursAt(s[1..], target, i) {
            assert s[1..][i..i + |target|] == s[i + 1..i + 1 + |target|];
            assert OccursAt(s, target, i + 1);
          }
        }
      }
      ReplaceAbsent(s[1..], target, replacement);
      assert s == [s[0]] + s[1..];
    }
  }

  // ---------------------------------------------------------------------------------------
  // case mapping (ASCII letters only)

  function ToLowerChar(c: char): char {
    if 'A' <= c <= 'Z' then (c as int + 32) as char else c
  }

  function ToUpperChar(c: char): char {
    if 'a' <= c <= 'z' then (c as int - 32) as char else c
  }

  function ToLower(s: string): (r: string)
    ensures |r| == |s| && forall i :: 0 <= i < |s| ==> r[i] == ToLowerChar(s[i])
  {
    if |s| == 0 then [] else [ToLowerChar(s[0])] + ToLower(s[1..])
  }

  function ToUpper(s: string): (r: string)
    ensures |r| == |s| && forall i :: 0 <= i < |s| ==> r[i] == ToUpperChar(s[i])
  {
    if |s| == 0 then [] else [ToUpperChar(s[0])] + ToUpper(s[1..])
  }

  /** Java's `a.equalsIgnoreCase(b)` restricted to ASCII case folding. */
  predicate EqualsIgnoreCase(a: string, b: string) {
    ToUpper(a) == ToUpper(b)
  }

  // ---------------------------------------------------------------------------------------
  // decimal formatting

  predicate IsDigit(c: char) {
    '0' <= c <= '9'
  }

  function DigitChar(d: nat): (c: char)
    requires d < 10
    ensures IsDigit(c)
  {
    ('0' as int + d) as char
  }

  function DigitValue(c: char): nat
    requires IsDigit(c)
  {
    c as int - '0' as int
  }

  /** `String.valueOf(n)` for a non-negative `n`. */
  function NatToString(n: nat): (r: string)
    ensures |r| >= 1
    ensures forall i :: 0 <= i < |r| ==> IsDigit(r[i])
    ensures n >= 10 ==> r[0] != '0'
  {
    if n < 10 then [DigitChar(n)] else NatToString(n / 10) + [DigitChar(n % 10)]
  }

  /** Reads a run of decimal digits. */
  function ParseDigits(s: string): nat
    requires forall i :: 0 <= i < |s| ==> IsDigit(s[i])
  {
    if |s| == 0 then 0 else 10 * ParseDigits(s[..|s| - 1]) + DigitValue(s[|s| - 1])
  }

  /** Formatting is injective: the digits read back as the number. */
  lemma {:induction false} NatToStringRoundTrip(n: nat)
    ensures ParseDigits(NatToString(n)) == n
  {
    if n >= 10 {
      var s := NatToString(n);
      assert s[..|s| - 1] == NatToString(n / 10);
      NatToStringRoundTrip(n / 10);
    }
  }

  /** `String.format("%02d", n)` for `0 <= n < 100`. */
  function TwoDigits(n: nat): (r: string)
    requires n < 100
    ensures |r| == 2 && IsDigit(r[0]) && IsDigit(r[1])
    ensures 10 * DigitValue(r[0]) + DigitValue(r[1]) == n
  {
    [DigitChar(n / 10), DigitChar(n % 10)]
  }
}

=== FILE: json_text.dfy ===
/**
 * The hand-written JSON helpers: `escapeJson` (one definition for the three identical copies in
 * `TripApiClient`, `DatabaseManager` and `NotepadController`), the notepad's `unescapeJson`, and
 * the three ways the client reads a value back out of a JSON text: the regex extractor of
 * `TripApiClient`, the `indexOf` extractor of `DatabaseManager` and the escaped-string regex of
 * `NotepadController`. Regular expressions are modelled by the match the Java engine returns:
 * the leftmost start, greedy quantifiers, and backtracking where it changes the result.
 */
module JsonText {
  import opened Wrappers
  import opened JavaText

  // ---------------------------------------------------------------------------------------
  // escaping

  /** The letter written after a backslash for each character JSON text must escape here. */
  function Code(c: char): Option<char> {
    if c == '\\' then Some('\\')
    else if c == '"' then Some('"')
    else if c == '\n' then Some('n')
    else if c == '\r' then Some('r')
    else if c == '\t' then Some('t')
    else None
  }

  /** The escape of one character: a backslash and its code, or the character itself. */
  function EscapeChar(c: char): (r: string)
    ensures 1 <= |r| <= 2
    ensures |r| == 1 <==> Code(c).None?
  {
    if Code(c).Some? then ['\\', Code(c).value] else [c]
  }

  /** The reference escape: every character escaped on its own, left to right. */
  function EscapeRef(s: string): (r: string)
    ensures |s| <= |r| <= 2 * |s|
  {
    if s == [] then [] else EscapeChar(s[0]) + EscapeRef(s[1..])
  }

  /** `s.replace(c, rep)` for a one-character target is a per-character substitution. */
  function MapChar(s: string, c: char, rep: string): (r: string)
    ensures c !in s ==> r == s
  {
    if s == [] then [] else (if s[0] == c then rep else [s[0]]) + MapChar(s[1..], c, rep)
  }

  lemma {:induction false} ReplaceOneChar(s: string, c: char, rep: string)
    ensures Replace(s, [c], rep) == MapChar(s, c, rep)
    decreases |s|
  {
    if |s| > 0 {
      ReplaceOneChar(s[1..], c, rep);
    }
  }

  lemma {:induction false} MapCharConcat(a: string, b: string, c: char, rep: string)
    ensures MapChar(a + b, c, rep) == MapChar(a, c, rep) + MapChar(b, c, rep)
    decreases |a|
  {
    if a != [] {
      assert (a + b)[0] == a[0] && (a + b)[1..] == a[1..] + b;
      MapCharConcat(a[1..], b, c, rep);
    } else {
      assert a + b == b;
    }
  }

  /** The five substitutions of `escapeJson`, in the order the source applies them. */
  function EscapeChain(s: string): string {
    Replace(Replace(Replace(Replace(Replace(s, "\\", "\\\\"), "\"", "\\\""), "\n", "\\n"), "\r", "\\r"), "\t", "\\t")
  }

  function MapChain(s: string): string {
    MapChar(MapChar(MapChar(MapChar(MapChar(s, '\\', "\\\\"), '"', "\\\""), '\n', "\\n"), '\r', "\\r"), '\t', "\\t")
  }

  lemma ChainIsMapChain(s: string)
    ensures EscapeChain(s) == MapChain(s)
  {
    var s1 := MapChar(s, '\\', "\\\\");
    var s2 := MapChar(s1, '"', "\\\"");
    var s3 := MapChar(s2, '\n', "\\n");
    var s4 := MapChar(s3, '\r', "\\r");
    ReplaceOneChar(s, '\\', "\\\\");
    ReplaceOneChar(s1, '"', "\\\"");
    ReplaceOneChar(s2, '\n', "\\n");
    ReplaceOneChar(s3, '\r', "\\r");
    ReplaceOneChar(s4, '\t', "\\t");
  }

  lemma MapChainConcat(a: string, b: string)
    ensures MapChain(a + b) == MapChain(a) + MapChain(b)
  {
    var a1, b1 := MapChar(a, '\\', "\\\\"), MapChar(b, '\\', "\\\\");
    var a2, b2 := MapChar(a1, '"', "\\\""), MapChar(b1, '"', "\\\"");
    var a3, b3 := MapChar(a2, '\n', "\\n"), MapChar(b2, '\n', "\\n");
    var a4, b4 := MapChar(a3, '\r', "\\r"), MapChar(b3, '\r', "\\r");
    MapCharConcat(a, b, '\\', "\\\\");
    MapCharConcat(a1, b1, '"', "\\\"");
    MapCharConcat(a2, b2, '\n', "\\n");
    MapCharConcat(a3, b3, '\r', "\\r");
    MapCharConcat(a4, b4, '\t', "\\t");
  }

  lemma MapChainOfChar(c: char)
    ensures MapChain([c]) == EscapeChar(c)
  {
    var s1 := MapChar([c], '\\', "\\\\");
    if c == '\\' {
      assert s1 == "\\\\";
      assert MapChar(s1, '"', "\\\"") == s1;
    } else {
      assert s1 == [c];
    }
  }

  lemma {:induction false} MapChainIsRef(s: string)
    ensures MapChain(s) == EscapeRef(s)
    decreases |s|
  {
    if s != [] {
      assert s == [s[0]] + s[1..];
      MapChainConcat([s[0]], s[1..]);
      MapChainOfChar(s[0]);
      MapChainIsRef(s[1..]);
    }
  }

  /**
   * `escapeJson`: `null` becomes the empty string; otherwise the chain of replacements, which
   * escapes each character on its own because the backslash is replaced first.
   */
  function EscapeJson(s: Option<string>): (r: string)
    ensures s.None? ==> r == []
    ensures s.Some? ==> r == EscapeRef(s.value)
  {
    match s
    case None => []
    case Some(text) =>
      ChainIsMapChain(text);
      MapChainIsRef(text);
      EscapeChain(text)
  }

  /** Escaped text holds no raw newline, carriage return or tab, and every quote follows a backslash. */
  lemma {:induction false} EscapedIsClean(s: string)
    ensures forall k :: 0 <= k < |EscapeRef(s)| ==> EscapeRef(s)[k] !in {'\n', '\r', '\t'}
    ensures forall k :: 0 <= k < |EscapeRef(s)| && EscapeRef(s)[k] == '"' ==> 0 < k && EscapeRef(s)[k - 1] == '\\'
    decreases |s|
  {
    if s != [] {
      EscapedIsClean(s[1..]);
      var e, rest := EscapeChar(s[0]), EscapeRef(s[1..]);
      assert EscapeRef(s) == e + rest;
      forall k | |e| <= k < |e| + |rest|
        ensures (e + rest)[k] == rest[k - |e|]
      {
      }
    }
  }

  // ---------------------------------------------------------------------------------------
  // unescaping

  /** The character a backslash code stands for; any other letter is kept with its backslash. */
  function Decoded(z: char): Option<char>
    ensures Decoded(z).Some? ==> Code(Decoded(z).value) == Some(z)
  {
    if z == '\\' then Some('\\')
    else if z == '"' then Some('"')
    else if z == 'n' then Some('\n')
    else if z == 'r' then Some('\r')
    else if z == 't' then Some('\t')
    else None
  }

  /** `unescapeJson` as written: five substitutions, the backslash pair last. */
  function UnescapeAsWritten(s: string): string {
    Replace(Replace(Replace(Replace(Replace(s, "\\\"", "\""), "\\n", "\n"), "\\r", "\r"), "\\t", "\t"), "\\\\", "\\")
  }

  /** Unescaping in one left-to-right pass, each backslash pair read as one unit. */
  function UnescapeFixed(s: string): string
    decreases |s|
  {
    if s == [] then []
    else if |s| >= 2 && s[0] == '\\' && Decoded(s[1]).Some? then [Decoded(s[1]).value] + UnescapeFixed(s[2..])
    else [s[0]] + UnescapeFixed(s[1..])
  }

  lemma UnescapeFixedOfEscape(c: char, rest: string)
    ensures UnescapeFixed(EscapeChar(c) + rest) == [c] + UnescapeFixed(rest)
  {
    var e := EscapeChar(c);
    if Code(c).Some? {
      assert (e + rest)[0] == '\\' && (e + rest)[1] == Code(c).value;
      assert Decoded(Code(c).value) == Some(c);
      assert (e + rest)[2..] == rest;
    } else {
      assert (e + rest)[0] == c && (e + rest)[1..] == rest;
    }
  }

  /** The single-pass unescape undoes `escapeJson` on every text. */
  lemma {:induction false} UnescapeFixedRoundTrip(s: string)
    ensures UnescapeFixed(EscapeJson(Some(s))) == s
    decreases |s|
  {
    if s != [] {
      UnescapeFixedRoundTrip(s[1..]);
      assert EscapeRef(s) == EscapeChar(s[0]) + EscapeRef(s[1..]);
      UnescapeFixedOfEscape(s[0], EscapeRef(s[1..]));
      assert s == [s[0]] + s[1..];
    }
  }

  /**
   * The text after the substitutions for the codes in `done` have been undone: the characters
   * of `s` whose code is in `done` are back, the others are still escaped.
   */
  function PartlyUnescaped(s: string, done: set<char>): string
    decreases |s|
  {
    if s == [] then [] else PartlyEscaped(s[0], done) + PartlyUnescaped(s[1..], done)
  }

  /** One character of `PartlyUnescaped`: still escaped unless its code is in `done`. */
  function PartlyEscaped(x: char, done: set<char>): string {
    if Code(x).Some? && x !in done then EscapeChar(x) else [x]
  }

  lemma {:induction false} NothingUnescaped(s: string)
    ensures PartlyUnescaped(s, {}) == EscapeRef(s)
    decreases |s|
  {
    if s != [] {
      NothingUnescaped(s[1..]);
    }
  }

  lemma {:induction false} AllUnescaped(s: string, done: set<char>)
    requires forall k :: 0 <= k < |s| ==> s[k] in done || Code(s[k]).None?
    ensures PartlyUnescaped(s, done) == s
    decreases |s|
  {
    if s != [] {
      AllUnescaped(s[1..], done);
      assert s == [s[0]] + s[1..];
    }
  }

  /** `replace` past a first character that cannot start the target. */
  lemma ReplacePastChar(x: char, rest: string, target: string, rep: string)
    requires |target| > 0 && x != target[0]
    ensures Replace([x] + rest, target, rep) == [x] + Replace(rest, target, rep)
  {
    var s := [x] + rest;
    assert s[0] == x && s[1..] == rest;
    if |s| >= |target| {
      assert s[..|target|][0] == x;
    } else {
      assert |rest| < |target|;
    }
  }

  /** `replace` at a text that starts with the target. */
  lemma ReplaceAtTarget(rest: string, target: string, rep: string)
    requires |target| > 0
    ensures Replace(target + rest, target, rep) == rep + Replace(rest, target, rep)
  {
    var s := target + rest;
    assert s[..|target|] == target && s[|target|..] == rest;
  }

  /** `replace` past an escape pair other than the target. */
  lemma ReplacePastEscape(z: char, rest: string, target: string, rep: string)
    requires |target| == 2 && target[0] == '\\' && z != target[1] && z != '\\'
    ensures Replace(['\\', z] + rest, target, rep) == ['\\', z] + Replace(rest, target, rep)
  {
    var s := ['\\', z] + rest;
    assert s[..2] != target;
    assert s[1..] == [z] + rest;
    ReplacePastChar(z, rest, target, rep);
  }

  /** One substitution `"\" + code -> c` of the chain undoes the escape of `c` and nothing else. */
  lemma {:induction false} UnescapeStep(s: string, done: set<char>, c: char)
    requires '\\' !in s
    requires c != '\\' && Code(c).Some? && c !in done
    ensures Replace(PartlyUnescaped(s, done), ['\\', Code(c).value], [c]) == PartlyUnescaped(s, done + {c})
    decreases |s|
  {
    if s != [] {
      UnescapeStep(s[1..], done, c);
      assert s[0] in s;
      UnescapeStepHead(s[0], PartlyUnescaped(s[1..], done), PartlyUnescaped(s[1..], done + {c}), done, c);
    }
  }

  /** The substitution for `c`, applied to one character of a partly unescaped text. */
  lemma UnescapeStepHead(x: char, rest: string, rest': string, done: set<char>, c: char)
    requires x != '\\' && c != '\\' && Code(c).Some? && c !in done
    requires Replace(rest, ['\\', Code(c).value], [c]) == rest'
    ensures Replace(PartlyEscaped(x, done) + rest, ['\\', Code(c).value], [c]) == PartlyEscaped(x, done + {c}) + rest'
  {
    var target := ['\\', Code(c).value];
    if Code(x).Some? && x !in done {
      var z := Code(x).value;
      assert PartlyEscaped(x, done) == ['\\', z];
      if x == c {
        ReplaceAtTarget(rest, target, [c]);
      } else {
        ReplacePastEscape(z, rest, target, [c]);
      }
    } else {
      ReplacePastChar(x, rest, target, [c]);
    }
  }

  /** With every code undone, a backslash-free text is back as it was. */
  lemma NoBackslashFullyUnescaped(s: string)
    requires '\\' !in s
    ensures PartlyUnescaped(s, {'"', '\n', '\r', '\t'}) == s
  {
    forall k | 0 <= k < |s| ensures s[k] in {'"', '\n', '\r', '\t'} || Code(s[k]).None? {
      assert s[k] in s;
    }
    AllUnescaped(s, {'"', '\n', '\r', '\t'});
  }

  /** The first four substitutions of the as-written chain undo the escapes of a backslash-free text. */
  lemma FourSteps(s: string)
    requires '\\' !in s
    ensures Replace(Replace(Replace(Replace(EscapeRef(s), "\\\"", "\""), "\\n", "\n"), "\\r", "\r"), "\\t", "\t") == s
  {
    var d1: set<char> := {'"'};
    var d2: set<char> := {'"', '\n'};
    var d3: set<char> := {'"', '\n', '\r'};
    var d4: set<char> := {'"', '\n', '\r', '\t'};
    var p1 := PartlyUnescaped(s, d1);
    var p2 := PartlyUnescaped(s, d2);
    var p3 := PartlyUnescaped(s, d3);
    assert Replace(EscapeRef(s), "\\\"", "\"") == p1 by {
      NothingUnescaped(s);
      assert d1 == {} + {'"'};
      UnescapeStep(s, {}, '"');
    }
    assert Replace(p1, "\\n", "\n") == p2 by {
      assert d2 == d1 + {'\n'};
      UnescapeStep(s, d1, '\n');
    }
    assert Replace(p2, "\\r", "\r") == p3 by {
      assert d3 == d2 + {'\r'};
      UnescapeStep(s, d2, '\r');
    }
    assert Replace(p3, "\\t", "\t") == PartlyUnescaped(s, d4) by {
      assert d4 == d3 + {'\t'};
      UnescapeStep(s, d3, '\t');
    }
    NoBackslashFullyUnescaped(s);
  }

  lemma NoBackslashPair(s: string)
    requires '\\' !in s
    ensures !Contains(s, "\\\\")
  {
    forall i ensures !OccursAt(s, "\\\\", i) {
      if 0 <= i < |s| {
        assert s[i] in s;
      }
    }
  }

  /** Text without a backslash survives `escapeJson` followed by the as-written `unescapeJson`. */
  lemma UnescapeAsWrittenRoundTrip(s: string)
    requires '\\' !in s
    ensures UnescapeAsWritten(EscapeJson(Some(s))) == s
  {
    FourSteps(s);
    NoBackslashPair(s);
    ReplaceAbsent(s, "\\\\", "\\");
  }

  /** `replace` leaves a short text alone when no window of it is the target. */
  lemma ReplaceNoMatchShort(s: string, target: string, rep: string)
    requires |target| == 2 && 2 <= |s| <= 3
    requires (s[0], s[1]) != (target[0], target[1])
    requires |s| == 3 ==> (s[1], s[2]) != (target[0], target[1])
    ensures Replace(s, target, rep) == s
  {
    assert Replace(s[|s| - 1..], target, rep) == s[|s| - 1..];
    if |s| == 3 {
      assert s[1..][..2] == s[1..3];
      assert Replace(s[1..], target, rep) == [s[1]] + s[2..];
    }
  }

  lemma EscapeOfBackslashN()
    ensures EscapeJson(Some("\\n")) == "\\\\n"
  {
    assert "n"[1..] == [] && EscapeChar('n') == "n";
    assert EscapeRef("n") == "n";
    assert "\\n"[0] == '\\' && "\\n"[1..] == "n";
    assert EscapeRef("\\n") == EscapeChar('\\') + EscapeRef("n");
  }

  lemma UnescapeOfBackslashBackslashN()
    ensures UnescapeAsWritten("\\\\n") == "\\\n"
  {
    var e := "\\\\n";
    ReplaceNoMatchShort(e, "\\\"", "\"");
    var s2 := "\\\n";
    assert e[1..] == "\\n";
    ReplaceAtTarget([], "\\n", "\n");
    assert Replace(e, "\\n", "\n") == [e[0]] + Replace(e[1..], "\\n", "\n");
    ReplaceNoMatchShort(s2, "\\r", "\r");
    ReplaceNoMatchShort(s2, "\\t", "\t");
    ReplaceNoMatchShort(s2, "\\\\", "\\");
  }

  /**
   * A backslash followed by `n` is escaped to `\\n`; the as-written unescape replaces `\n`
   * before `\\`, so it reads back a backslash and a newline, where the single pass reads back
   * the original.
   */
  lemma UnescapeAsWrittenMisreadsBackslashN()
    ensures UnescapeAsWritten(EscapeJson(Some("\\n"))) == "\\\n" != "\\n"
    ensures UnescapeFixed(EscapeJson(Some("\\n"))) == "\\n"
  {
    EscapeOfBackslashN();
    UnescapeOfBackslashBackslashN();
    assert "\\\n"[1] != "\\n"[1];
    UnescapeFixedRoundTrip("\\n");
  }

  // ---------------------------------------------------------------------------------------
  // regular-expression building blocks

  /** `\s` in a Java regular expression: space, tab, newline, vertical tab, form feed, return. */
  predicate IsRegexSpace(c: char) {
    c == ' ' || c == '\t' || c == '\n' || c == 11 as char || c == 12 as char || c == '\r'
  }

  /** The length of the greedy `\s*` run at the start of `s`. */
  function SpaceRun(s: string): (n: nat)
    ensures n <= |s|
    ensures forall k :: 0 <= k < n ==> IsRegexSpace(s[k])
    ensures n < |s| ==> !IsRegexSpace(s[n])
  {
    if s == [] || !IsRegexSpace(s[0]) then 0 else 1 + SpaceRun(s[1..])
  }

  /** The key between double quotes, as both regex extractors spell it. */
  function QuotedKey(key: string): string {
    "\"" + key + "\""
  }

  // ---------------------------------------------------------------------------------------
  // TripApiClient.extractJsonValue: "key"\s*:\s*"?([^,"}]+)"?

  /** The capture class `[^,"}]`. */
  predicate InValueClass(c: char) {
    c != ',' && c != '"' && c != '}'
  }

  /** The length of the greedy `[^,"}]+` run at the start of `s` (zero when there is none). */
  function ValueRun(s: string): (n: nat)
    ensures n <= |s|
    ensures forall k :: 0 <= k < n ==> InValueClass(s[k])
    ensures n < |s| ==> !InValueClass(s[n])
  {
    if s == [] || !InValueClass(s[0]) then 0 else 1 + ValueRun(s[1..])
  }

  lemma {:induction false} ValueRunOf(v: string, rest: string)
    requires forall k :: 0 <= k < |v| ==> InValueClass(v[k])
    requires rest != [] && !InValueClass(rest[0])
    ensures ValueRun(v + rest) == |v|
    decreases |v|
  {
    if v != [] {
      assert (v + rest)[1..] == v[1..] + rest;
      ValueRunOf(v[1..], rest);
    } else {
      assert v + rest == rest;
    }
  }

  /**
   * The rest of the pattern, tried right after an occurrence of the quoted key: spaces, a colon,
   * spaces, then the capture. The engine first tries an opening quote followed by the class run;
   * then the class run at the first non-space; then, giving back one space, that space alone.
   */
  function ValueAfterKey(t: string): (r: Option<string>)
    ensures r.Some? ==> r.value != [] && forall k :: 0 <= k < |r.value| ==> InValueClass(r.value[k])
  {
    var w1 := SpaceRun(t);
    if w1 == |t| || t[w1] != ':' then None
    else
      var u := t[w1 + 1..];
      var w := SpaceRun(u);
      var q := u[w..];
      if |q| >= 2 && q[0] == '"' && InValueClass(q[1]) then Some(q[1..][..ValueRun(q[1..])])
      else if |q| >= 1 && InValueClass(q[0]) then Some(q[..ValueRun(q)])
      else if w > 0 then Some([u[w - 1]])
      else None
  }

  /** Trimming a class run leaves a trimmed class run. */
  lemma TrimKeepsClass(v: string)
    requires forall k :: 0 <= k < |v| ==> InValueClass(v[k])
    ensures IsTrimmed(Trim(v))
    ensures ',' !in Trim(v) && '"' !in Trim(v) && '}' !in Trim(v)
  {
    var r := Trim(v);
    assert forall k :: 0 <= k < |r| ==> r[k] == v[LeadingBlanks(v) + k];
  }

  /**
   * `TripApiClient.extractJsonValue`: the trimmed capture of the leftmost match, or `None`. Every
   * result is trimmed and free of `,`, `"` and `}`; a text without the quoted key gives `None`.
   */
  function ExtractJsonValue(json: string, key: string): (r: Option<string>)
    ensures r.Some? ==> Contains(json, QuotedKey(key))
    ensures r.Some? ==> IsTrimmed(r.value)
    ensures r.Some? ==> ',' !in r.value && '"' !in r.value && '}' !in r.value
    decreases |json|
  {
    match IndexOf(json, QuotedKey(key))
    case None => None
    case Some(i) =>
      match ValueAfterKey(json[i + |QuotedKey(key)|..])
      case Some(v) =>
        TrimKeepsClass(v);
        Some(Trim(v))
      case None =>
        var r := ExtractJsonValue(json[i + 1..], key);
        assert r.Some? ==> Contains(json, QuotedKey(key)) by {
          assert OccursAt(json, QuotedKey(key), i);
        }
        r
  }

  /** The quoted key is found at the very start, so it is the leftmost occurrence. */
  lemma IndexOfAtStart(s: string, pat: string)
    requires StartsWith(s, pat)
    ensures IndexOf(s, pat) == Some(0)
  {
    IndexOfAt(s, pat, 0);
  }

  /**
   * A field written as `"key":"v"` or `"key":v` followed by a delimiter reads back as `v`
   * when `v` is a non-empty trimmed run of the capture class.
   */
  lemma ExtractJsonValueField(key: string, v: string, quoted: bool, rest: string)
    requires v != [] && IsTrimmed(v)
    requires forall k :: 0 <= k < |v| ==> InValueClass(v[k])
    requires rest != [] && !InValueClass(rest[0])
    ensures var json := QuotedKey(key) + ":" + (if quoted then "\"" else "") + v + rest;
            ExtractJsonValue(json, key) == Some(v)
  {
    var open := if quoted then "\"" else "";
    var t := ":" + open + v + rest;
    assert QuotedKey(key) + ":" + open + v + rest == QuotedKey(key) + t;
    if quoted {
      assert t == ":\"" + v + rest;
      QuotedAfterKey(v, rest);
    } else {
      assert t == ":" + v + rest;
      BareAfterKey(v, rest);
    }
    ExtractAtStart(key, t, v);
    TrimOfTrimmed(v);
  }

  /** When the text starts with the quoted key, the leftmost match is the one tried there. */
  lemma ExtractAtStart(key: string, t: string, v: string)
    requires ValueAfterKey(t) == Some(v)
    ensures ExtractJsonValue(QuotedKey(key) + t, key) == Some(Trim(v))
  {
    var json := QuotedKey(key) + t;
    IndexOfAtStart(json, QuotedKey(key));
    assert json[|QuotedKey(key)|..] == t;
  }

  /** An unquoted value starting with a non-space is captured up to its delimiter. */
  lemma BareAfterKey(v: string, rest: string)
    requires v != [] && IsTrimmed(v)
    requires forall k :: 0 <= k < |v| ==> InValueClass(v[k])
    requires rest != [] && !InValueClass(rest[0])
    ensures ValueAfterKey(":" + v + rest) == Some(v)
  {
    var t := ":" + v + rest;
    assert SpaceRun(t) == 0;
    var u := t[1..];
    assert u == v + rest;
    assert v[0] != '"' && !IsRegexSpace(v[0]);
    assert SpaceRun(u) == 0;
    ValueRunOf(v, rest);
  }

  /** A string value with a comma reads back cut at the comma (and trimmed). */
  lemma ExtractJsonValueStopsAtComma(key: string, a: string, b: string, rest: string)
    requires a != [] && forall k :: 0 <= k < |a| ==> InValueClass(a[k])
    ensures var json := QuotedKey(key) + ":\"" + a + "," + b + rest;
            ExtractJsonValue(json, key) == Some(Trim(a))
  {
    var tail := "," + b + rest;
    var json := QuotedKey(key) + ":\"" + a + "," + b + rest;
    assert json == QuotedKey(key) + (":\"" + a + tail);
    IndexOfAtStart(json, QuotedKey(key));
    QuotedAfterKey(a, tail);
  }

  /** A quoted value is captured from after its opening quote up to the first delimiter. */
  lemma QuotedAfterKey(a: string, tail: string)
    requires a != [] && forall k :: 0 <= k < |a| ==> InValueClass(a[k])
    requires tail != [] && !InValueClass(tail[0])
    ensures ValueAfterKey(":\"" + a + tail) == Some(a)
  {
    var t := ":\"" + a + tail;
    assert SpaceRun(t) == 0;
    var u := t[1..];
    assert u == "\"" + a + tail;
    assert SpaceRun(u) == 0;
    assert u[1..] == a + tail;
    ValueRunOf(a, tail);
  }

  /** The route `"Dhaka, Sylhet"` comes back as `"Dhaka"`. */
  lemma RouteWithCommaIsCut()
    ensures ExtractJsonValue("{\"route\":\"Dhaka, Sylhet\"}", "route") == Some("Dhaka")
  {
    var json := "{\"route\":\"Dhaka, Sylhet\"}";
    var key := QuotedKey("route");
    var tail := ", Sylhet\"}";
    assert json == "{" + key + (":\"" + "Dhaka" + tail);
    assert IndexOf(json, key) == Some(1) by {
      assert !OccursAt(json, key, 0) by { assert json[0] != key[0]; }
      IndexOfAt(json, key, 1);
    }
    assert json[1 + |key|..] == ":\"" + "Dhaka" + tail;
    QuotedAfterKey("Dhaka", tail);
    TrimOfTrimmed("Dhaka");
  }

  // ---------------------------------------------------------------------------------------
  // DatabaseManager.extractJsonValue: indexOf of "key":" and of the next quote

  /** The literal text the `indexOf` extractor looks for. */
  function KeyColonQuote(key: string): string {
    "\"" + key + "\":\""
  }

  /**
   * `DatabaseManager.extractJsonValue`: the text between the first `"key":"` and the next
   * quote; `None` when either is missing.
   */
  function ExtractByIndexOf(json: string, key: string): Option<string> {
    TextAfter(json, KeyColonQuote(key))
  }

  /** The text between the first `pat` and the next quote after it. */
  function TextAfter(json: string, pat: string): Option<string> {
    var at := IndexOf(json, pat);
    if at.None? then None else UpToQuote(json, at.value + |pat|)
  }

  /** The text from `start` up to the next quote, `None` without one. */
  function UpToQuote(json: string, start: nat): Option<string> {
    var close := IndexOfFrom(json, "\"", start);
    if close.None? then None else Some(json[start..close.value])
  }

  /**
   * What `extractJsonValue` returns: nothing without the key pattern, and otherwise a
   * quote-free value that the text holds between the pattern and a quote.
   */
  lemma ExtractByIndexOfSound(json: string, key: string)
    ensures ExtractByIndexOf(json, key).Some? ==>
      && '"' !in ExtractByIndexOf(json, key).value
      && Contains(json, KeyColonQuote(key) + ExtractByIndexOf(json, key).value + "\"")
  {
    var pat := KeyColonQuote(key);
    var at := IndexOf(json, pat);
    if at.Some? {
      var i := at.value;
      ExtractByIndexOfFound(json, key, i);
      FoundValueOccurs(json, pat, i);
    }
  }

  /** Without the key pattern `extractJsonValue` finds nothing. */
  lemma ExtractByIndexOfNeedsKey(json: string, key: string)
    ensures !Contains(json, KeyColonQuote(key)) ==> ExtractByIndexOf(json, key).None?
  {
  }

  /** The pattern, the stretch up to the next quote and that quote occur together. */
  lemma FoundValueOccurs(json: string, pat: string, i: nat)
    requires OccursAt(json, pat, i)
    ensures var r := UpToQuote(json, i + |pat|);
            r.Some? ==> '"' !in r.value && Contains(json, pat + r.value + "\"")
  {
    UpToQuoteSound(json, i + |pat|);
    var r := UpToQuote(json, i + |pat|);
    if r.Some? {
      OccursJoin(json, pat, r.value + "\"", i);
      ContainsAt(json, pat + r.value + "\"", i);
    }
  }

  /** An occurrence of `pat` followed by `w` is an occurrence of `pat + w`. */
  lemma OccursJoin(s: string, pat: string, w: string, i: nat)
    requires OccursAt(s, pat, i)
    requires i + |pat| + |w| <= |s| && s[i + |pat|..i + |pat| + |w|] == w
    ensures OccursAt(s, pat + w, i)
  {
    SliceJoin(s, i, i + |pat|, i + |pat| + |w|);
  }

  /** What `UpToQuote` finds: a quote-free stretch that a quote ends. */
  lemma UpToQuoteSound(json: string, start: nat)
    ensures var r := UpToQuote(json, start);
            r.Some? ==> '"' !in r.value && start + |r.value| < |json| && json[start..start + |r.value| + 1] == r.value + "\""
  {
    var close := IndexOfFrom(json, "\"", start);
    if close.Some? {
      var e := close.value;
      var v := json[start..e];
      forall k | 0 <= k < |v| ensures v[k] != '"' {
        assert !OccursAt(json, "\"", start + k);
      }
      assert json[e..e + 1] == "\"";
      SliceJoin(json, start, e, e + 1);
    }
  }

  /** A slice is the slices on either side of a cut. */
  lemma SliceJoin(s: string, a: nat, b: nat, c: nat)
    requires a <= b <= c <= |s|
    ensures s[a..c] == s[a..b] + s[b..c]
  {
  }

  /** An occurrence after a prefix that holds none is the first one. */
  lemma FirstOccurrenceAfter(pre: string, pat: string, tail: string)
    requires forall i :: 0 <= i < |pre| ==> !OccursAt(pre + pat, pat, i)
    ensures IndexOf(pre + pat + tail, pat) == Some(|pre|)
  {
    var json := pre + pat + tail;
    assert json[..|pre| + |pat|] == pre + pat;
    assert OccursAt(json, pat, |pre|);
    forall i | 0 <= i < |pre| ensures !OccursAt(json, pat, i) {
      assert json[i..i + |pat|] == (pre + pat)[i..i + |pat|];
      assert OccursAt(json, pat, i) == OccursAt(pre + pat, pat, i);
    }
    IndexOfAt(json, pat, |pre|);
  }

  /** The next quote after a quote-free stretch is the one that ends it. */
  lemma NextQuote(pre: string, v: string, rest: string)
    requires '"' !in v
    ensures IndexOfFrom(pre + v + "\"" + rest, "\"", |pre|) == Some(|pre| + |v|)
  {
    var json := pre + v + "\"" + rest;
    assert OccursAt(json, "\"", |pre| + |v|);
    forall k | |pre| <= k < |pre| + |v| ensures !OccursAt(json, "\"", k) {
      assert json[k] == v[k - |pre|];
    }
  }

  /** The first `"key":"` and nothing but a quote-free value before the next quote: the value. */
  lemma ExtractByIndexOfField(pre: string, key: string, v: string, rest: string)
    requires forall i :: 0 <= i < |pre| ==> !OccursAt(pre + KeyColonQuote(key), KeyColonQuote(key), i)
    requires '"' !in v
    ensures ExtractByIndexOf(pre + KeyColonQuote(key) + v + "\"" + rest, key) == Some(v)
  {
    var pat := KeyColonQuote(key);
    FieldLayout(pre + pat, v, rest);
    FirstOccurrenceAfter(pre, pat, v + "\"" + rest);
    ExtractByIndexOfFound(pre + pat + v + "\"" + rest, key, |pre|);
    UpToQuoteValue(pre + pat, v, rest);
  }

  /** How a field is laid out: the value sits between the key pattern and the closing quote. */
  lemma FieldLayout(head: string, v: string, rest: string)
    ensures head + v + "\"" + rest == head + (v + "\"" + rest)
    ensures (head + v + "\"" + rest)[|head|..|head| + |v|] == v
  {
  }

  /** Once the key pattern has been found, the value is whatever runs up to the next quote. */
  lemma ExtractByIndexOfFound(json: string, key: string, i: nat)
    requires IndexOf(json, KeyColonQuote(key)) == Some(i)
    ensures ExtractByIndexOf(json, key) == UpToQuote(json, i + |KeyColonQuote(key)|)
  {
  }

  /** A quote-free stretch followed by a quote is read up to that quote. */
  lemma UpToQuoteValue(head: string, v: string, rest: string)
    requires '"' !in v
    ensures UpToQuote(head + v + "\"" + rest, |head|) == Some(v)
  {
    FieldLayout(head, v, rest);
    NextQuote(head, v, rest);
    UpToQuoteAt(head + v + "\"" + rest, |head|, |head| + |v|);
  }

  /** Once the next quote has been found, the text up to it. */
  lemma UpToQuoteAt(json: string, start: nat, e: nat)
    requires IndexOfFrom(json, "\"", start) == Some(e)
    requires start <= e <= |json|
    ensures UpToQuote(json, start) == Some(json[start..e])
  {
  }

  /** A value holding an escaped quote is cut just after the backslash. */
  lemma ExtractByIndexOfCutsEscapedQuote(key: string)
    ensures ExtractByIndexOf(KeyColonQuote(key) + EscapeJson(Some("a\"b")) + "\"", key) == Some("a\\")
  {
    assert EscapeRef("a\"b") == "a\\\"b" by {
      assert "a\"b"[1..] == "\"b" && "\"b"[1..] == "b" && "b"[1..] == [];
    }
    ExtractByIndexOfField([], key, "a\\", "b\"");
    assert [] + KeyColonQuote(key) + "a\\" + "\"" + "b\"" == KeyColonQuote(key) + "a\\\"b" + "\"";
  }

  // ---------------------------------------------------------------------------------------
  // NotepadController.extractJsonString: "key"\s*:\s*"((?:[^\\"]|\\.)*)"

  /** What `.` does not match without DOTALL: newline, return, U+0085, U+2028, U+2029. */
  predicate IsLineTerminator(c: char) {
    c == '\n' || c == '\r' || c == 0x85 as char || c == 0x2028 as char || c == 0x2029 as char
  }

  /**
   * The length of the greedy `(?:[^\\"]|\\.)*` run: characters other than backslash and quote,
   * and backslash pairs whose second character is not a line terminator.
   */
  function StringBodyRun(s: string): (n: nat)
    ensures n <= |s|
    decreases |s|
  {
    if s == [] then 0
    else if s[0] != '\\' && s[0] != '"' then 1 + StringBodyRun(s[1..])
    else if s[0] == '\\' && |s| >= 2 && !IsLineTerminator(s[1]) then 2 + StringBodyRun(s[2..])
    else 0
  }

  lemma {:induction false} StringBodyRunOfPrefix(s: string)
    ensures StringBodyRun(s[..StringBodyRun(s)]) == StringBodyRun(s)
    decreases |s|
  {
    var n := StringBodyRun(s);
    if s != [] && n > 0 {
      if s[0] != '\\' && s[0] != '"' {
        StringBodyRunOfPrefix(s[1..]);
        assert s[..n][1..] == s[1..][..n - 1];
      } else {
        StringBodyRunOfPrefix(s[2..]);
        assert s[..n][2..] == s[2..][..n - 2];
      }
    }
  }

  /** What follows `\s*:\s*`, or `None` when no colon comes after the spaces. */
  function AfterColon(t: string): (r: Option<string>)
    ensures r.Some? ==> |r.value| < |t| && (r.value == [] || !IsRegexSpace(r.value[0]))
  {
    var w1 := SpaceRun(t);
    if w1 == |t| || t[w1] != ':' then None
    else
      var u := t[w1 + 1..];
      Some(u[SpaceRun(u)..])
  }

  lemma AfterColonAtOnce(b: string)
    requires b == [] || !IsRegexSpace(b[0])
    ensures AfterColon(":" + b) == Some(b)
  {
    assert (":" + b)[1..] == b;
  }

  /**
   * The rest of the pattern after an occurrence of the quoted key: spaces, a colon, spaces, an
   * opening quote, the greedy body run, and a closing quote right after it. Giving back part of
   * the run cannot help, since the run never stops just before a quote it could have consumed.
   */
  function StringAfterKey(t: string): (r: Option<string>)
    ensures r.Some? ==> StringBodyRun(r.value) == |r.value|
  {
    match AfterColon(t)
    case None => None
    case Some(q) =>
      if q == [] || q[0] != '"' then None
      else
        var b := q[1..];
        var n := StringBodyRun(b);
        if n < |b| && b[n] == '"' then
          StringBodyRunOfPrefix(b);
          Some(b[..n])
        else None
  }

  /**
   * The leftmost match of the notepad's string pattern at or after `from`, as `Matcher.find`
   * searches: each occurrence of the quoted key in turn, until the rest of the pattern matches.
   */
  function CaptureFrom(json: string, key: string, from: nat): (r: Option<string>)
    ensures r.Some? ==> Contains(json, QuotedKey(key))
    ensures r.Some? ==> StringBodyRun(r.value) == |r.value|
    decreases |json| - from, 1
  {
    match IndexOfFrom(json, QuotedKey(key), from)
    case None => None
    case Some(i) => CaptureAt(json, key, i)
  }

  /** The match tried at an occurrence of the quoted key, and the search past it when it fails. */
  function CaptureAt(json: string, key: string, i: nat): (r: Option<string>)
    requires OccursAt(json, QuotedKey(key), i)
    ensures r.Some? ==> Contains(json, QuotedKey(key))
    ensures r.Some? ==> StringBodyRun(r.value) == |r.value|
    decreases |json| - i, 0
  {
    ContainsAt(json, QuotedKey(key), i);
    match StringAfterKey(json[i + |QuotedKey(key)|..])
    case Some(v) => Some(v)
    case None => CaptureFrom(json, key, i + 1)
  }

  /** The raw capture of the leftmost match of the notepad's string pattern. */
  function StringCapture(json: string, key: string): (r: Option<string>)
    ensures r.Some? ==> Contains(json, QuotedKey(key))
    ensures r.Some? ==> StringBodyRun(r.value) == |r.value|
  {
    CaptureFrom(json, key, 0)
  }

  /** `extractJsonString` as written: the capture passed through the as-written unescape. */
  function ExtractJsonString(json: string, key: string): (r: Option<string>)
    ensures r.None? <==> StringCapture(json, key).None?
    ensures !Contains(json, QuotedKey(key)) ==> r.None?
  {
    match StringCapture(json, key)
    case None => None
    case Some(v) => Some(UnescapeAsWritten(v))
  }

  /** `extractJsonString` with the single-pass unescape. */
  function ExtractJsonStringFixed(json: string, key: string): (r: Option<string>)
    ensures r.None? <==> StringCapture(json, key).None?
    ensures !Contains(json, QuotedKey(key)) ==> r.None?
  {
    match StringCapture(json, key)
    case None => None
    case Some(v) => Some(UnescapeFixed(v))
  }

  lemma BodyRunOfEscape(c: char, x: string)
    ensures StringBodyRun(EscapeChar(c) + x) == |EscapeChar(c)| + StringBodyRun(x)
  {
    var e := EscapeChar(c);
    var s := e + x;
    if Code(c).Some? {
      assert s[0] == '\\' && s[1] == Code(c).value && !IsLineTerminator(s[1]);
      assert s[2..] == x;
    } else {
      assert s[0] == c && c != '\\' && c != '"';
      assert s[1..] == x;
    }
  }

  /** An escaped text is one body run, stopped by the quote that closes it. */
  lemma {:induction false} EscapedIsBodyRun(v: string, rest: string)
    ensures StringBodyRun(EscapeRef(v) + "\"" + rest) == |EscapeRef(v)|
    decreases |v|
  {
    var tail := "\"" + rest;
    assert EscapeRef(v) + "\"" + rest == EscapeRef(v) + tail;
    if v == [] {
      assert EscapeRef(v) + tail == tail;
    } else {
      assert EscapeRef(v[1..]) + "\"" + rest == EscapeRef(v[1..]) + tail;
      EscapedIsBodyRun(v[1..], rest);
      assert EscapeRef(v) == EscapeChar(v[0]) + EscapeRef(v[1..]);
      assert EscapeRef(v) + tail == EscapeChar(v[0]) + (EscapeRef(v[1..]) + tail);
      BodyRunOfEscape(v[0], EscapeRef(v[1..]) + tail);
    }
  }

  /**
   * A field written by `escapeJson` as `"key":"..."`, with no earlier occurrence of the quoted
   * key, is captured exactly; the single-pass unescape gives the value back, the as-written one
   * gives it back when it holds no backslash.
   */
  lemma ExtractJsonStringField(pre: string, key: string, v: string, rest: string)
    requires forall i :: 0 <= i < |pre| ==> !OccursAt(pre + QuotedKey(key), QuotedKey(key), i)
    ensures var json := pre + QuotedKey(key) + ":\"" + EscapeJson(Some(v)) + "\"" + rest;
            && StringCapture(json, key) == Some(EscapeJson(Some(v)))
            && ExtractJsonStringFixed(json, key) == Some(v)
            && ExtractJsonString(json, key) == Some(UnescapeAsWritten(EscapeJson(Some(v))))
            && ('\\' !in v ==> ExtractJsonString(json, key) == Some(v))
  {
    var e := EscapeJson(Some(v));
    var pat := QuotedKey(key);
    var json := pre + pat + ":\"" + e + "\"" + rest;
    assert json == pre + pat + (":\"" + e + "\"" + rest);
    FirstOccurrenceAfter(pre, pat, ":\"" + e + "\"" + rest);
    var t := json[|pre| + |pat|..];
    assert t == ":\"" + (e + "\"" + rest);
    StringFieldAfterKey(v, rest);
    assert CaptureFrom(json, key, 0) == CaptureAt(json, key, |pre|);
    UnescapeFixedRoundTrip(v);
    if '\\' !in v {
      UnescapeAsWrittenRoundTrip(v);
    }
  }

  /** Right after the key come a colon and an opening quote: the capture is the body run. */
  lemma StringAfterColonQuote(b: string)
    ensures var n := StringBodyRun(b);
            StringAfterKey(":\"" + b) == if n < |b| && b[n] == '"' then Some(b[..n]) else None
  {
    assert ":\"" + b == ":" + ("\"" + b);
    AfterColonAtOnce("\"" + b);
    assert ("\"" + b)[1..] == b;
  }

  lemma StringFieldAfterKey(v: string, rest: string)
    ensures StringAfterKey(":\"" + (EscapeRef(v) + "\"" + rest)) == Some(EscapeRef(v))
  {
    var e := EscapeRef(v);
    var b := e + "\"" + rest;
    EscapedIsBodyRun(v, rest);
    assert b[|e|] == '"' && b[..|e|] == e;
    StringAfterColonQuote(b);
  }

  /** An occurrence of the quoted key followed by a comma is not a match: no colon follows. */
  lemma CommaEndsKey(t: string)
    requires t != [] && t[0] == ','
    ensures StringAfterKey(t) == None
  {
    assert SpaceRun(t) == 0;
  }

  /** The search passes over an occurrence of the quoted key that a comma follows. */
  lemma CaptureSkipsComma(json: string, key: string, i: nat)
    requires OccursAt(json, QuotedKey(key), i)
    requires i + |QuotedKey(key)| < |json| && json[i + |QuotedKey(key)|] == ','
    ensures CaptureAt(json, key, i) == CaptureFrom(json, key, i + 1)
  {
    CommaEndsKey(json[i + |QuotedKey(key)|..]);
  }

  /**
   * The search passes over every occurrence of the quoted key that a comma follows, so it
   * behaves as if it had reached the first occurrence that no comma follows.
   */
  lemma {:induction false} CaptureSkipsCommaKeys(json: string, key: string, from: nat, p: nat)
    requires from <= p && OccursAt(json, QuotedKey(key), p)
    requires forall i :: from <= i < p && OccursAt(json, QuotedKey(key), i) ==> json[i + |QuotedKey(key)|] == ','
    ensures CaptureFrom(json, key, from) == CaptureAt(json, key, p)
    decreases p - from
  {
    var i := IndexOfFrom(json, QuotedKey(key), from).value;
    assert i <= p;
    if i < p {
      CaptureSkipsComma(json, key, i);
      CaptureSkipsCommaKeys(json, key, i + 1, p);
    }
  }

  /** A suffix made of two parts holds each part at its place. */
  lemma SuffixSplit(s: string, p: nat, a: string, b: string)
    requires p <= |s| && s[p..] == a + b
    ensures s[p..p + |a|] == a && s[p + |a|..] == b
  {
    assert s[p..p + |a|] == (a + b)[..|a|];
    assert s[p + |a|..] == (a + b)[|a|..];
  }

  /** The quoted key of a field, and what follows it, at their places. */
  lemma FieldLayoutAt(json: string, key: string, p: nat, v: string, rest: string)
    requires p <= |json| && json[p..] == QuotedKey(key) + ":\"" + EscapeRef(v) + "\"" + rest
    ensures OccursAt(json, QuotedKey(key), p)
    ensures json[p + |QuotedKey(key)|..] == ":\"" + (EscapeRef(v) + "\"" + rest)
  {
    var t := ":\"" + (EscapeRef(v) + "\"" + rest);
    assert json[p..] == QuotedKey(key) + t;
    SuffixSplit(json, p, QuotedKey(key), t);
  }

  /** A field written by `escapeJson` right after the quoted key matches the rest of the pattern. */
  lemma FieldAfterKeyAt(json: string, k: nat, v: string, rest: string)
    requires k <= |json| && json[k..] == ":\"" + (EscapeRef(v) + "\"" + rest)
    ensures StringAfterKey(json[k..]) == Some(EscapeRef(v))
  {
    StringFieldAfterKey(v, rest);
  }

  /** A match at an occurrence of the quoted key is the capture there. */
  lemma CaptureAtHit(json: string, key: string, i: nat)
    requires OccursAt(json, QuotedKey(key), i)
    requires StringAfterKey(json[i + |QuotedKey(key)|..]).Some?
    ensures CaptureAt(json, key, i) == StringAfterKey(json[i + |QuotedKey(key)|..])
  {
  }

  /**
   * A field written by `escapeJson` as `"key":"..."` is captured exactly when every earlier
   * occurrence of the quoted key is followed by a comma. The single-pass unescape then gives
   * the value back; the as-written `replace` chain gives it back when it holds no backslash.
   */
  lemma ExtractAfterCommaKeys(json: string, key: string, p: nat, v: string, rest: string)
    requires p <= |json| && json[p..] == QuotedKey(key) + ":\"" + EscapeRef(v) + "\"" + rest
    requires forall i :: 0 <= i < p && OccursAt(json, QuotedKey(key), i) ==> json[i + |QuotedKey(key)|] == ','
    ensures StringCapture(json, key) == Some(EscapeRef(v))
    ensures ExtractJsonStringFixed(json, key) == Some(v)
    ensures ExtractJsonString(json, key) == Some(UnescapeAsWritten(EscapeRef(v)))
    ensures '\\' !in v ==> ExtractJsonString(json, key) == Some(v)
  {
    FieldLayoutAt(json, key, p, v, rest);
    CaptureSkipsCommaKeys(json, key, 0, p);
    FieldAfterKeyAt(json, p + |QuotedKey(key)|, v, rest);
    CaptureAtHit(json, key, p);
    UnescapeFixedRoundTrip(v);
    if '\\' !in v {
      UnescapeAsWrittenRoundTrip(v);
    }
  }

  /** An occurrence in a suffix is an occurrence in the whole text, shifted. */
  lemma OccursInSuffix(s: string, pat: string, d: nat, j: nat)
    requires d <= |s|
    ensures OccursAt(s[d..], pat, j) <==> OccursAt(s, pat, d + j)
  {
    if d + j + |pat| <= |s| {
      assert s[d..][j..j + |pat|] == s[d + j..d + j + |pat|];
    }
  }

  /**
   * A quoted word (a key with no quote and no trailing backslash) that starts at the quote
   * opening a string value, or inside the value, can only end at the quote closing the value,
   * so what follows it is what follows the value.
   */
  lemma QuotedWordInValue(s: string, a: nat, v: string, k: string, i: int)
    requires 0 < a && a + |v| + 1 < |s| && s[a..a + |v|] == v && s[a + |v|] == '"'
    requires forall j :: 0 <= j < |v| && v[j] == '"' ==> 0 < j && v[j - 1] == '\\'
    requires k != [] && '"' !in k && k[|k| - 1] != '\\'
    requires a - 1 <= i < a + |v|
    ensures OccursAt(s, QuotedKey(k), i) ==> s[i + |k| + 2] == s[a + |v| + 1]
  {
    if OccursAt(s, QuotedKey(k), i) {
      var c := i + |k| + 1;
      assert forall j :: i <= j < i + |k| + 2 ==> s[j] == QuotedKey(k)[j - i];
      assert s[c] == '"' && s[c - 1] == k[|k| - 1];
      assert forall j :: a <= j < a + |v| ==> s[j] == v[j - a];
    }
  }

  /** A quoted word cannot start right before a stretch of text that lacks its first letter. */
  lemma QuotedWordNotBefore(s: string, a: nat, chunk: string, k: string, i: int)
    requires a + |chunk| <= |s| && s[a..a + |chunk|] == chunk
    requires k != [] && k[0] !in chunk
    requires a <= i + 1 < a + |chunk|
    ensures !OccursAt(s, QuotedKey(k), i)
  {
    assert s[i + 1] == chunk[i + 1 - a];
    assert QuotedKey(k)[1] == k[0];
  }
}

=== FILE: mesh_wiring.dfy ===
/**
 * `ServerCoordinator.main`: five chat-room servers, wired so that every server lists every
 * other server as a sibling, in port order. With the single-hop forwarding of `ChatMesh` this
 * complete mesh delivers a broadcast exactly once to every handler except the sender.
 */
module MeshWiring {
  import opened ChatMesh

  /** `ServerCoordinator.PORTS`. */
  const Ports: seq<int> := [8081, 8082, 8083, 8084, 8085]

  /** Every server number below `upto` except `i`, ascending. */
  function Others(i: nat, upto: nat): (r: seq<nat>)
    ensures forall j: nat :: j in r <==> j < upto && j != i
    ensures forall a :: 0 <= a < |r| ==> r[a] < upto
    ensures forall a, b :: 0 <= a < b < |r| ==> r[a] < r[b]
    ensures |r| == if i < upto then upto - 1 else upto
  {
    if upto == 0 then []
    else
      var prev := Others(i, upto - 1);
      if upto - 1 != i then prev + [upto - 1] else prev
  }

  /** In a strictly ascending list every value occurs at most once. */
  lemma {:induction false} CountInAscending(s: seq<nat>, j: nat)
    requires forall a, b :: 0 <= a < b < |s| ==> s[a] < s[b]
    ensures multiset(s)[j] == if j in s then 1 else 0
  {
    if |s| > 0 {
      var t := s[1..];
      assert s == [s[0]] + t;
      assert multiset(s) == multiset{s[0]} + multiset(t);
      CountInAscending(t, j);
      forall b | 0 <= b < |t| ensures t[b] != s[0] {
        assert t[b] == s[b + 1];
      }
    }
  }

  /** Each other server appears exactly once in `Others(i, upto)`. */
  lemma OthersCount(i: nat, upto: nat, j: nat)
    ensures multiset(Others(i, upto))[j] == if j < upto && j != i then 1 else 0
  {
    CountInAscending(Others(i, upto), j);
  }

  /** `addOtherServer`: server `i` appends server `j` to its sibling list. */
  function AddOtherServer(mesh: Mesh, i: nat, j: nat): (r: Mesh)
    requires i < |mesh|
    ensures |r| == |mesh| && r[i].siblings == mesh[i].siblings + [j]
    ensures r[i].port == mesh[i].port && r[i].clients == mesh[i].clients
    ensures forall k :: 0 <= k < |mesh| && k != i ==> r[k] == mesh[k]
  {
    mesh[i := mesh[i].(siblings := mesh[i].siblings + [j])]
  }

  /** The complete mesh: every server's sibling list is every other server, in order. */
  predicate Wired(mesh: Mesh) {
    forall k :: 0 <= k < |mesh| ==> mesh[k].siblings == Others(k, |mesh|)
  }

  /** The nested loop of `main`: for every ordered pair `(i, j)` with `i != j`, add `j` to `i`. */
  method WireMesh(mesh: Mesh) returns (r: Mesh)
    ensures |r| == |mesh|
    ensures forall k :: 0 <= k < |mesh| ==>
              r[k] == mesh[k].(siblings := mesh[k].siblings + Others(k, |mesh|))
  {
    r := mesh;
    var i := 0;
    while i < |mesh|
      invariant 0 <= i <= |mesh| && |r| == |mesh|
      invariant forall k :: 0 <= k < i ==> r[k] == mesh[k].(siblings := mesh[k].siblings + Others(k, |mesh|))
      invariant forall k :: i <= k < |mesh| ==> r[k] == mesh[k]
    {
      r := AddEveryOther(r, i, |mesh|);
      i := i + 1;
    }
  }

  /** The inner loop of `main` for server `i`: every other server below `n` is added, in order. */
  method AddEveryOther(start: Mesh, i: nat, n: nat) returns (r: Mesh)
    requires i < |start|
    ensures |r| == |start|
    ensures r[i] == start[i].(siblings := start[i].siblings + Others(i, n))
    ensures forall k :: 0 <= k < |start| && k != i ==> r[k] == start[k]
  {
    r := start;
    var j := 0;
    assert start[i].siblings + Others(i, 0) == start[i].siblings;
    while j < n
      invariant 0 <= j <= n && |r| == |start|
      invariant r[i] == start[i].(siblings := start[i].siblings + Others(i, j))
      invariant forall k :: 0 <= k < |start| && k != i ==> r[k] == start[k]
    {
      SiblingsStep(start[i].siblings, i, j);
      if i != j {
        r := AddOtherServer(r, i, j);
      }
      j := j + 1;
    }
  }

  /** One pass of the inner loop: `j` joins the list unless it is the server itself. */
  lemma SiblingsStep(base: seq<nat>, i: nat, j: nat)
    ensures (if i != j then base + Others(i, j) + [j] else base + Others(i, j)) == base + Others(i, j + 1)
  {
    if i != j {
      assert Others(i, j + 1) == Others(i, j) + [j];
    }
  }

  /** `main`: one fresh server per port, then the mesh wiring. */
  method Bootstrap(ports: seq<int>) returns (mesh: Mesh)
    ensures |mesh| == |ports| && Wired(mesh)
    ensures forall k :: 0 <= k < |mesh| ==> mesh[k].port == ports[k] && mesh[k].clients == map[]
  {
    var blank := seq(|ports|, k requires 0 <= k < |ports| => Server(ports[k], map[], []));
    mesh := WireMesh(blank);
  }

  /** No server is its own sibling. */
  lemma NoSelfSibling(mesh: Mesh, i: nat)
    requires Wired(mesh) && i < |mesh|
    ensures i !in mesh[i].siblings
  {
  }

  /** The sibling relation of the complete mesh is symmetric. */
  lemma SiblingsSymmetric(mesh: Mesh, i: nat, j: nat)
    requires Wired(mesh) && i < |mesh| && j < |mesh|
    ensures j in mesh[i].siblings <==> i in mesh[j].siblings
  {
  }

  /** With the five configured ports every server has exactly four siblings, listed by ascending port. */
  lemma FiveServersFourSiblings(mesh: Mesh, i: nat)
    requires Wired(mesh) && |mesh| == |Ports| && i < |mesh|
    requires forall k :: 0 <= k < |mesh| ==> mesh[k].port == Ports[k]
    ensures |mesh[i].siblings| == 4
    ensures forall a :: 0 <= a < 4 ==> mesh[i].siblings[a] < |mesh|
    ensures forall a, b :: 0 <= a < b < 4 ==> mesh[mesh[i].siblings[a]].port < mesh[mesh[i].siblings[b]].port
  {
    var sibs := mesh[i].siblings;
    forall a | 0 <= a < 4 ensures sibs[a] < |mesh| {
      assert sibs[a] in sibs;
    }
    forall a, b | 0 <= a < b < 4 ensures mesh[sibs[a]].port < mesh[sibs[b]].port {
      assert sibs[a] in sibs && sibs[b] in sibs;
      assert sibs[a] < sibs[b] < 5;
    }
  }

  /**
   * Exactly-once delivery with no echo: in the complete mesh, a broadcast at server `i` by
   * handler `sender` appends exactly one copy of the message to the outbox of every handler
   * on every server, except the sender itself and handlers whose writer is not open yet,
   * whose outboxes are unchanged. No handler is added or removed and no other field changes.
   */
  lemma ExactlyOnceDelivery(mesh: Mesh, i: nat, msg: string, sender: ClientId, j: nat, c: ClientId)
    requires Wired(mesh) && i < |mesh| && j < |mesh| && c in mesh[j].clients
    ensures var r := Broadcast(mesh, i, msg, sender);
            var before := mesh[j].clients[c];
            && r[j].clients.Keys == mesh[j].clients.Keys
            && r[j].siblings == mesh[j].siblings
            && c in r[j].clients
            && r[j].clients[c].username == before.username
            && r[j].clients[c].room == before.room
            && r[j].clients[c].writerOpen == before.writerOpen
            && r[j].clients[c].outbox ==
                 if before.writerOpen && (j != i || c != sender) then before.outbox + [msg] else before.outbox
  {
    BroadcastCounts(mesh, i, msg, sender, j, c);
    OthersCount(i, |mesh|, j);
    assert multiset(mesh[i].siblings)[j] == if j != i then 1 else 0;
    assert Copies(msg, 1) == [msg];
    assert mesh[j].clients[c].outbox + Copies(msg, 0) == mesh[j].clients[c].outbox;
  }

  /** The sender's own outbox never receives its broadcast back. */
  lemma NoEcho(mesh: Mesh, i: nat, msg: string, sender: ClientId)
    requires Wired(mesh) && i < |mesh| && sender in mesh[i].clients
    ensures sender in Broadcast(mesh, i, msg, sender)[i].clients
    ensures Broadcast(mesh, i, msg, sender)[i].clients[sender].outbox == mesh[i].clients[sender].outbox
  {
    ExactlyOnceDelivery(mesh, i, msg, sender, i, sender);
  }
}

=== FILE: messenger_client.dfy ===
/**
 * The chat-room client of `MessengerController`: the frames it writes, the way it reads the
 * frames the servers send back, the clock text it stamps messages with, and the order in
 * which it tries the servers.
 */
module MessengerClient {
  import opened Wrappers
  import opened JavaText
  import ChatMesh
  import MeshWiring

  /** `SERVER_PORTS`: the ports of the five servers the coordinator starts. */
  const ServerPorts: seq<int> := MeshWiring.Ports

  // ---------------------------------------------------------------------------------------
  // outgoing frames

  function JoinFrame(user: string, room: string): string {
    "JOIN:" + user + ":" + room
  }

  function MessageFrame(user: string, time: string, text: string): string {
    "MESSAGE:" + user + ":" + time + ":" + text
  }

  function FileFrame(user: string, time: string, fileName: string): string {
    "FILE:" + user + ":" + time + ":" + fileName
  }

  function LeaveFrame(user: string): string {
    "LEAVE:" + user
  }

  /**
   * `getCurrentTime`: `String.format("%02d:%02d", hour, minute)` of the wall clock, which is
   * passed in. The result always has a colon in the middle, and the digits on either side
   * read back as the hour and the minute.
   */
  function CurrentTime(hour: nat, minute: nat): (r: string)
    requires hour < 24 && minute < 60
    ensures |r| == 5 && r[2] == ':' && ':' in r
    ensures ':' !in r[..2] && ':' !in r[3..]
    ensures IsDigit(r[0]) && IsDigit(r[1]) && 10 * DigitValue(r[0]) + DigitValue(r[1]) == hour
    ensures IsDigit(r[3]) && IsDigit(r[4]) && 10 * DigitValue(r[3]) + DigitValue(r[4]) == minute
  {
    TwoDigits(hour) + ":" + TwoDigits(minute)
  }

  /** What `sendMessage` does with the input box: the frame it writes and the bubble it shows. */
  datatype Outgoing = Outgoing(frame: string, shown: Shown) | NothingSent

  /**
   * `sendMessage`: the trimmed input is sent with the current time only when it is not empty
   * and the client has a writer; the same text is shown locally.
   */
  function SendMessage(input: string, connected: bool, user: string, time: string): (r: Outgoing)
    ensures r.Outgoing? <==> connected && !IsBlank(input)
    ensures r.Outgoing? ==> r.frame == MessageFrame(user, time, Trim(input)) && r.shown == Chat(user, time, Trim(input))
  {
    BlankIsTrimEmpty(input);
    var text := Trim(input);
    if text != [] && connected then Outgoing(MessageFrame(user, time, text), Chat(user, time, text))
    else NothingSent
  }

  // ---------------------------------------------------------------------------------------
  // incoming frames

  /** What `handleIncomingMessage` adds to the chat pane. */
  datatype Shown =
    | Chat(sender: string, time: string, content: string)
    | SharedFile(sender: string, time: string, fileName: string)
    | Notice(text: string)
    | Ignored

  /**
   * `handleIncomingMessage` as written: `MESSAGE:` and `FILE:` payloads are split with limit 3
   * into sender, time and the rest; `USER_JOIN:` needs exactly two fields of a split without
   * limit; `USER_LEAVE:` names everything after its prefix. Anything from the local user, and
   * any other frame, shows nothing.
   */
  function HandleIncoming(line: string, localUser: string): (r: Shown)
    ensures r.Chat? ==> StartsWith(line, "MESSAGE:") && r.sender != localUser
    ensures r.SharedFile? ==> StartsWith(line, "FILE:") && r.sender != localUser
    ensures r.Chat? || r.SharedFile? ==> ':' !in r.sender && ':' !in r.time
  {
    if StartsWith(line, "MESSAGE:") then
      var parts := SplitLimit(line[8..], ':', 3);
      if |parts| == 3 && parts[0] != localUser then Chat(parts[0], parts[1], parts[2]) else Ignored
    else if StartsWith(line, "FILE:") then
      var parts := SplitLimit(line[5..], ':', 3);
      if |parts| == 3 && parts[0] != localUser then SharedFile(parts[0], parts[1], parts[2]) else Ignored
    else HandleNotice(line, localUser)
  }

  /** The two notice frames, shared by both decoders. */
  function HandleNotice(line: string, localUser: string): (r: Shown)
    ensures r.Notice? || r.Ignored?
  {
    if StartsWith(line, "USER_JOIN:") then
      var parts := SplitNoLimit(line[10..], ':');
      if |parts| == 2 && parts[0] != localUser then Notice(parts[0] + " joined the room") else Ignored
    else if StartsWith(line, "USER_LEAVE:") then
      var user := line[11..];
      if user != localUser then Notice(user + " left the room") else Ignored
    else Ignored
  }

  /**
   * The decoder with the time kept whole: `MESSAGE:` and `FILE:` payloads are split with limit
   * 4, and the second and third pieces are the hour and minute of the `HH:MM` time.
   */
  function HandleIncomingFixed(line: string, localUser: string): (r: Shown)
    ensures r.Chat? ==> StartsWith(line, "MESSAGE:") && r.sender != localUser
    ensures r.SharedFile? ==> StartsWith(line, "FILE:") && r.sender != localUser
  {
    if StartsWith(line, "MESSAGE:") then
      var parts := SplitLimit(line[8..], ':', 4);
      if |parts| == 4 && parts[0] != localUser then Chat(parts[0], parts[1] + ":" + parts[2], parts[3]) else Ignored
    else if StartsWith(line, "FILE:") then
      var parts := SplitLimit(line[5..], ':', 4);
      if |parts| == 4 && parts[0] != localUser then SharedFile(parts[0], parts[1] + ":" + parts[2], parts[3]) else Ignored
    else HandleNotice(line, localUser)
  }

  // ---------------------------------------------------------------------------------------
  // round trips through the server

  /**
   * The client's message frame, timestamped by `getCurrentTime`, decodes as written with the
   * hour as the time and the minute glued to the front of the text.
   */
  lemma MessageRoundTripAsWritten(user: string, hour: nat, minute: nat, text: string, localUser: string)
    requires hour < 24 && minute < 60
    requires ':' !in user && user != localUser
    ensures HandleIncoming(MessageFrame(user, CurrentTime(hour, minute), text), localUser)
            == Chat(user, TwoDigits(hour), TwoDigits(minute) + ":" + text)
    ensures HandleIncoming(MessageFrame(user, CurrentTime(hour, minute), text), localUser)
            != Chat(user, CurrentTime(hour, minute), text)
  {
    var line := MessageFrame(user, CurrentTime(hour, minute), text);
    assert line[..8] == "MESSAGE:";
    assert line[8..] == user + [':'] + TwoDigits(hour) + [':'] + (TwoDigits(minute) + ":" + text);
    SplitLimitThree(line[8..], ':', user, TwoDigits(hour), TwoDigits(minute) + ":" + text);
  }

  /** A concrete instance: `MESSAGE:bob:09:30:hi` shows time `09` and text `30:hi`. */
  lemma MessageMisreadExample()
    ensures HandleIncoming("MESSAGE:bob:09:30:hi", "amy") == Chat("bob", "09", "30:hi")
  {
    var line := "MESSAGE:bob:09:30:hi";
    assert line[..8] == "MESSAGE:";
    assert line[8..] == "bob" + [':'] + "09" + [':'] + "30:hi";
    SplitLimitThree(line[8..], ':', "bob", "09", "30:hi");
  }

  /** The fixed decoder reads back the sender, the whole time and the text, colons and all. */
  lemma MessageRoundTripFixed(user: string, hour: nat, minute: nat, text: string, localUser: string)
    requires hour < 24 && minute < 60
    requires ':' !in user && user != localUser
    ensures HandleIncomingFixed(MessageFrame(user, CurrentTime(hour, minute), text), localUser)
            == Chat(user, CurrentTime(hour, minute), text)
  {
    var line := MessageFrame(user, CurrentTime(hour, minute), text);
    assert line[..8] == "MESSAGE:";
    assert line[8..] == user + [':'] + TwoDigits(hour) + [':'] + TwoDigits(minute) + [':'] + text;
    SplitLimitFour(line[8..], ':', user, TwoDigits(hour), TwoDigits(minute), text);
  }

  /** The same for a shared file: the fixed decoder recovers sender, time and file name. */
  lemma FileRoundTripFixed(user: string, hour: nat, minute: nat, fileName: string, localUser: string)
    requires hour < 24 && minute < 60
    requires ':' !in user && user != localUser
    ensures HandleIncomingFixed(FileFrame(user, CurrentTime(hour, minute), fileName), localUser)
            == SharedFile(user, CurrentTime(hour, minute), fileName)
  {
    var line := FileFrame(user, CurrentTime(hour, minute), fileName);
    assert line[..5] == "FILE:";
    assert line[..8] != "MESSAGE:" by { assert line[0] == 'F'; }
    assert line[5..] == user + [':'] + TwoDigits(hour) + [':'] + TwoDigits(minute) + [':'] + fileName;
    SplitLimitFour(line[5..], ':', user, TwoDigits(hour), TwoDigits(minute), fileName);
  }

  /** The local user's own frames are ignored by both decoders, whatever the time and text. */
  lemma OwnFramesIgnored(user: string, time: string, text: string)
    requires ':' !in user
    ensures HandleIncomingFixed(MessageFrame(user, time, text), user) == Ignored
    ensures HandleIncoming(MessageFrame(user, time, text), user) == Ignored
  {
    var line := MessageFrame(user, time, text);
    assert line[..8] == "MESSAGE:";
    assert line[8..] == user + [':'] + (time + ":" + text);
    SplitLimitHead(line[8..], ':', 3, user, time + ":" + text);
    SplitLimitHead(line[8..], ':', 4, user, time + ":" + text);
  }

  /** A message frame of the client is relayed unchanged by the chat server. */
  lemma MessageFrameRelayed(user: string, time: string, text: string)
    ensures ChatMesh.DecodeFrame(MessageFrame(user, time, text)) == ChatMesh.Relay
  {
    var line := MessageFrame(user, time, text);
    assert line[..8] == "MESSAGE:";
    assert line[..5] != "JOIN:" by { assert line[0] == 'M'; }
  }

  /**
   * The server accepts the client's `JOIN` frame with the same name and room exactly when
   * neither contains a colon and the room is not empty.
   */
  lemma JoinFrameAccepted(user: string, room: string)
    requires ':' !in user && ':' !in room && room != []
    ensures ChatMesh.DecodeFrame(JoinFrame(user, room)) == ChatMesh.Join(user, room)
  {
    var line := JoinFrame(user, room);
    assert line[..5] == "JOIN:";
    assert line[5..] == user + [':'] + room;
    SplitNoLimitPair(line[5..], ':', user, room);
  }

  /** The server's join notice is shown with the joining user's name, unless it is the local user. */
  lemma UserJoinShown(user: string, room: string, localUser: string)
    requires ':' !in user && ':' !in room && room != []
    ensures HandleIncoming(ChatMesh.UserJoinLine(user, room), localUser)
            == if user != localUser then Notice(user + " joined the room") else Ignored
  {
    var line := ChatMesh.UserJoinLine(user, room);
    assert line[..10] == "USER_JOIN:";
    assert line[..8] != "MESSAGE:" && line[..5] != "FILE:" by { assert line[0] == 'U'; }
    assert line[10..] == user + [':'] + room;
    SplitNoLimitPair(line[10..], ':', user, room);
  }

  /** The server's leave notice is shown with the leaving user's name, `null` included. */
  lemma UserLeaveShown(user: Option<string>, localUser: string)
    ensures HandleIncoming(ChatMesh.UserLeaveLine(user), localUser)
            == if TextOf(user) != localUser then Notice(TextOf(user) + " left the room") else Ignored
  {
    var line := ChatMesh.UserLeaveLine(user);
    assert line[..11] == "USER_LEAVE:";
    assert line[..10] != "USER_JOIN:" by { assert line[5] == 'L'; }
    assert line[..8] != "MESSAGE:" && line[..5] != "FILE:" by { assert line[0] == 'U'; }
    assert line[11..] == TextOf(user);
  }

  /** The client's `LEAVE` frame ends its handler's read loop on the server. */
  lemma LeaveFrameEndsSession(user: string)
    ensures ChatMesh.DecodeFrame(LeaveFrame(user)) == ChatMesh.Leave
  {
    var line := LeaveFrame(user);
    assert line[..6] == "LEAVE:";
    assert !StartsWith(line, "JOIN:") && !StartsWith(line, "MESSAGE:") && !StartsWith(line, "FILE:") by { assert line[0] == 'L'; }
  }

  // ---------------------------------------------------------------------------------------
  // choosing a server

  /**
   * `connectToServer`: tries `SERVER_PORTS` in order from `start` and stops at the first port
   * whose server accepts (`up` holds the accepting ports; the network is a parameter). On
   * success the JOIN frame is the first line written. Returns the index it stopped at and the
   * port connected to, if any.
   */
  method Connect(start: nat, up: set<int>, user: string, room: string) returns (index: nat, port: Option<int>, sent: seq<string>)
    requires start <= |ServerPorts|
    ensures start <= index <= |ServerPorts|
    ensures forall k :: start <= k < index ==> ServerPorts[k] !in up
    ensures port.Some? <==> index < |ServerPorts|
    ensures port.Some? ==> port.value == ServerPorts[index] && port.value in up && sent == [JoinFrame(user, room)]
    ensures port.None? ==> sent == []
  {
    index := start;
    while index < |ServerPorts|
      invariant start <= index <= |ServerPorts|
      invariant forall k :: start <= k < index ==> ServerPorts[k] !in up
    {
      if ServerPorts[index] in up {
        return index, Some(ServerPorts[index]), [JoinFrame(user, room)];
      }
      index := index + 1;
    }
    return index, None, [];
  }

  /** The first accepting port at or after `start`, as a plain recursive definition. */
  function FirstUp(start: nat, up: set<int>): (r: Option<nat>)
    requires start <= |ServerPorts|
    ensures r.Some? ==> start <= r.value < |ServerPorts|
    decreases |ServerPorts| - start
  {
    if start == |ServerPorts| then None
    else if ServerPorts[start] in up then Some(start)
    else FirstUp(start + 1, up)
  }

  /** The loop picks exactly the port the recursive definition names. */
  lemma {:induction false} ConnectPicksFirstUp(start: nat, up: set<int>, index: nat)
    requires start <= index <= |ServerPorts|
    requires forall k :: start <= k < index ==> ServerPorts[k] !in up
    requires index < |ServerPorts| ==> ServerPorts[index] in up
    ensures FirstUp(start, up) == if index < |ServerPorts| then Some(index) else None
    decreases index - start
  {
    if start < index {
      ConnectPicksFirstUp(start + 1, up, index);
    }
  }

  /**
   * `reconnectToServer`: the index is reset, so after a lost connection every port is tried
   * again from the first, including the ones that failed before.
   */
  method Reconnect(up: set<int>, user: string, room: string) returns (index: nat, port: Option<int>, sent: seq<string>)
    ensures FirstUp(0, up) == if port.Some? then Some(index) else None
    ensures port.Some? ==> port.value == ServerPorts[index] && sent == [JoinFrame(user, room)]
  {
    index, port, sent := Connect(0, up, user, room);
    ConnectPicksFirstUp(0, up, index);
  }
}

=== FILE: notepad.dfy ===
/**
 * The notepad's client-side JSON handling (`NotepadController`): splitting the server's note
 * array into objects, reading each note's fields with `extractJsonString`, and the empty-title
 * guard in front of a save. The HTTP calls around them are left out.
 */
module Notepad {
  import opened Wrappers
  import opened JavaText
  import opened JsonText

  /** `SimpleNote`: a missing field is the empty string. */
  datatype Note = Note(id: string, title: string, content: string)

  // ---------------------------------------------------------------------------------------
  // finding the objects: \{[^}]*}  followed, as written, by a space

  /**
   * A match of the object pattern: `{`, a run without `}`, `}`, and with `spaced` a space
   * after it.
   */
  predicate IsObjectMatch(o: string, spaced: bool) {
    var n := if spaced then |o| - 1 else |o|;
    && 2 <= n <= |o|
    && o[0] == '{' && o[n - 1] == '}' && (forall m :: 1 <= m < n - 1 ==> o[m] != '}')
    && (spaced ==> o[n] == ' ')
  }

  /**
   * The successive matches of `find(lastEnd)`: the leftmost `{` is tried with the first `}`
   * after it; if no `}` follows, or (with `spaced`) the `}` is not followed by a space, the
   * attempt fails and the search goes on from the character after that `{`; after a match it
   * goes on from the match's end.
   */
  function Objects(s: string, spaced: bool): seq<string>
    decreases |s|
  {
    if '{' !in s then []
    else
      var i := IndexOfChar(s, '{');
      match Attempt(s, i, spaced)
      case Some(end) => [s[i..end]] + Objects(s[end..], spaced)
      case None => Objects(s[i + 1..], spaced)
  }

  /** Everything `Objects` returns is a match of the pattern. */
  lemma {:induction false} ObjectsAreMatches(s: string, spaced: bool)
    ensures forall k :: 0 <= k < |Objects(s, spaced)| ==> IsObjectMatch(Objects(s, spaced)[k], spaced)
    decreases |s|
  {
    if '{' in s {
      var i := IndexOfChar(s, '{');
      AttemptMatches(s, i, spaced);
      match Attempt(s, i, spaced)
      case Some(end) =>
        ObjectsAreMatches(s[end..], spaced);
        var r := Objects(s, spaced);
        var rest := Objects(s[end..], spaced);
        assert r == [s[i..end]] + rest;
        forall k | 0 <= k < |r| ensures IsObjectMatch(r[k], spaced) {
          if k > 0 {
            assert r[k] == rest[k - 1];
          }
        }
      case None =>
        ObjectsAreMatches(s[i + 1..], spaced);
    }
  }

  /**
   * One attempt of the matcher at the `{` at `i`: the end of the match, if the first `}` after
   * it exists and (with `spaced`) is followed by a space.
   */
  function Attempt(s: string, i: nat, spaced: bool): (r: Option<nat>)
    requires i < |s| && s[i] == '{'
    ensures r.Some? ==> i < r.value <= |s|
  {
    var after := s[i + 1..];
    if '}' !in after then None
    else
      var j := i + 1 + IndexOfChar(after, '}');
      if !spaced then Some(j + 1)
      else if j + 1 < |s| && s[j + 1] == ' ' then Some(j + 2)
      else None
  }

  /** A successful attempt covers a match of the pattern. */
  lemma AttemptMatches(s: string, i: nat, spaced: bool)
    requires i < |s| && s[i] == '{'
    ensures var r := Attempt(s, i, spaced);
            r.Some? ==> IsObjectMatch(s[i..r.value], spaced)
  {
    var after := s[i + 1..];
    if '}' in after {
      var j := i + 1 + IndexOfChar(after, '}');
      if !spaced {
        MatchAt(s, i, j, false);
      } else if j + 1 < |s| && s[j + 1] == ' ' {
        MatchAt(s, i, j, true);
      }
    }
  }

  lemma MatchAt(s: string, i: nat, j: nat, spaced: bool)
    requires i < j < |s| && s[i] == '{' && s[j] == '}' && '}' !in s[i + 1..][..j - i - 1]
    requires spaced ==> j + 1 < |s| && s[j + 1] == ' '
    ensures IsObjectMatch(s[i..if spaced then j + 2 else j + 1], spaced)
  {
    var o := s[i..if spaced then j + 2 else j + 1];
    forall m | 1 <= m < j - i ensures o[m] != '}' {
      assert o[m] == s[i + 1..][..j - i - 1][m - 1];
    }
  }

  // ---------------------------------------------------------------------------------------
  // reading one note

  /** The string extractor `parseNotes` uses: as written, or with the single-pass unescape. */
  function ReadString(o: string, key: string, fixed: bool): (r: Option<string>)
    ensures !Contains(o, QuotedKey(key)) ==> r.None?
  {
    if fixed then ExtractJsonStringFixed(o, key) else ExtractJsonString(o, key)
  }

  /** The note an object describes. */
  function NoteWith(o: string, fixed: bool): Note {
    var id := ReadString(o, "_id", fixed).OrElse(ReadString(o, "id", fixed));
    Note(id.GetOr(""), ReadString(o, "title", fixed).GetOr(""), ReadString(o, "content", fixed).GetOr(""))
  }

  /**
   * The note `parseNotes` builds from one object, with the as-written unescape: `_id` is
   * preferred to `id`, and a field that is not found is the empty string.
   */
  function NoteOf(o: string): (n: Note)
    ensures ExtractJsonString(o, "_id").Some? ==> n.id == ExtractJsonString(o, "_id").value
    ensures ExtractJsonString(o, "_id").None? && ExtractJsonString(o, "id").Some? ==> n.id == ExtractJsonString(o, "id").value
    ensures !Contains(o, QuotedKey("_id")) && !Contains(o, QuotedKey("id")) ==> n.id == []
    ensures !Contains(o, QuotedKey("title")) ==> n.title == []
    ensures !Contains(o, QuotedKey("content")) ==> n.content == []
  {
    NoteWith(o, false)
  }

  /** The same with the single-pass unescape. */
  function NoteOfFixed(o: string): (n: Note)
    ensures ExtractJsonStringFixed(o, "_id").Some? ==> n.id == ExtractJsonStringFixed(o, "_id").value
    ensures ExtractJsonStringFixed(o, "_id").None? && ExtractJsonStringFixed(o, "id").Some? ==> n.id == ExtractJsonStringFixed(o, "id").value
    ensures !Contains(o, QuotedKey("_id")) && !Contains(o, QuotedKey("id")) ==> n.id == []
    ensures !Contains(o, QuotedKey("title")) ==> n.title == []
    ensures !Contains(o, QuotedKey("content")) ==> n.content == []
  {
    NoteWith(o, true)
  }

  // ---------------------------------------------------------------------------------------
  // parseNotes

  /**
   * `parseNotes` as written: `null` or empty gives no notes; otherwise one note per match of
   * the object pattern with its trailing space, on the text with one space appended.
   */
  function ParseNotes(json: Option<string>): (r: seq<Note>)
    ensures json.None? || json == Some([]) ==> r == []
    ensures json.Some? && json.value != [] ==> |r| == |Objects(json.value + " ", true)|
    ensures json.Some? && json.value != [] ==>
              forall k :: 0 <= k < |r| ==> r[k] == NoteOf(Trim(Objects(json.value + " ", true)[k]))
  {
    if json.None? || json.value == [] then []
    else
      var objs := Objects(json.value + " ", true);
      seq(|objs|, k requires 0 <= k < |objs| => NoteOf(Trim(objs[k])))
  }

  /** `parseNotes` with the object pattern ending at the `}` and the single-pass unescape. */
  function ParseNotesFixed(json: Option<string>): (r: seq<Note>)
    ensures json.None? || json == Some([]) ==> r == []
    ensures json.Some? && json.value != [] ==> |r| == |Objects(json.value, false)|
    ensures json.Some? && json.value != [] ==>
              forall k :: 0 <= k < |r| ==> r[k] == NoteOfFixed(Objects(json.value, false)[k])
  {
    if json.None? || json.value == [] then []
    else
      var objs := Objects(json.value, false);
      seq(|objs|, k requires 0 <= k < |objs| => NoteOfFixed(objs[k]))
  }

  /** No `}` of `s` is directly followed by a space. */
  predicate NoSpacedBrace(s: string) {
    forall k :: 0 <= k < |s| - 1 ==> !BraceSpaceAt(s, k)
  }

  /** A `}` at `k` directly followed by a space. */
  predicate BraceSpaceAt(s: string, k: nat)
    requires k + 1 < |s|
  {
    s[k] == '}' && s[k + 1] == ' '
  }

  /** With no `}` directly followed by a space, the as-written pattern never matches. */
  lemma {:induction false} NoSpacedObjects(s: string)
    requires NoSpacedBrace(s)
    ensures Objects(s, true) == []
    decreases |s|
  {
    if '{' in s {
      var i := IndexOfChar(s, '{');
      SkipUnspaced(s);
      NoSpacedBraceSuffix(s, i + 1);
      NoSpacedObjects(s[i + 1..]);
    }
  }

  /** Past a `{` whose first `}` is not followed by a space, the search starts again after the `{`. */
  lemma SkipUnspaced(s: string)
    requires NoSpacedBrace(s) && '{' in s
    ensures Objects(s, true) == Objects(s[IndexOfChar(s, '{') + 1..], true)
  {
    UnspacedAttemptFails(s, IndexOfChar(s, '{'));
    SkipFailedAttempt(s, true);
  }

  /** A failed attempt at the leftmost `{` moves the search one character past it. */
  lemma SkipFailedAttempt(s: string, spaced: bool)
    requires '{' in s && Attempt(s, IndexOfChar(s, '{'), spaced).None?
    ensures Objects(s, spaced) == Objects(s[IndexOfChar(s, '{') + 1..], spaced)
  {
    var i := IndexOfChar(s, '{');
    assert Attempt(s, i, spaced) == None;
  }

  lemma UnspacedAttemptFails(s: string, i: nat)
    requires NoSpacedBrace(s) && i < |s| && s[i] == '{'
    ensures Attempt(s, i, true).None?
  {
    var after := s[i + 1..];
    if '}' in after {
      var j := i + 1 + IndexOfChar(after, '}');
      assert s[j] == after[j - i - 1] == '}';
      if j + 1 < |s| {
        assert !BraceSpaceAt(s, j);
      }
    }
  }

  lemma NoSpacedBraceSuffix(s: string, n: nat)
    requires NoSpacedBrace(s) && n <= |s|
    ensures NoSpacedBrace(s[n..])
  {
    var t := s[n..];
    forall k | 0 <= k < |t| - 1 ensures !BraceSpaceAt(t, k) {
      assert t[k] == s[n + k] && t[k + 1] == s[n + k + 1];
      assert !BraceSpaceAt(s, n + k);
    }
  }

  // ---------------------------------------------------------------------------------------
  // compact arrays

  /** An object written as `{` + body + `}`. */
  function ObjectText(body: string): string {
    "{" + body + "}"
  }

  /** The objects separated by commas, with no spaces. */
  function Items(bodies: seq<string>): (r: string)
    decreases |bodies|
  {
    if |bodies| == 0 then []
    else if |bodies| == 1 then ObjectText(bodies[0])
    else ObjectText(bodies[0]) + "," + Items(bodies[1..])
  }

  /** A JSON array written without spaces, as `JSON.stringify` writes it. */
  function CompactArray(bodies: seq<string>): string {
    "[" + Items(bodies) + "]"
  }

  predicate BracketFree(bodies: seq<string>) {
    forall k :: 0 <= k < |bodies| ==> '}' !in bodies[k]
  }

  predicate BracesEndItems(t: string) {
    forall k :: 0 <= k < |t| && t[k] == '}' ==> k == |t| - 1 || t[k + 1] == ','
  }

  /** In a list of items, every `}` is the last character or comes before a comma. */
  lemma {:induction false} ItemsBraces(bodies: seq<string>)
    requires BracketFree(bodies)
    ensures BracesEndItems(Items(bodies))
    decreases |bodies|
  {
    if |bodies| >= 1 {
      var o := ObjectText(bodies[0]);
      assert forall k :: 0 <= k < |o| - 1 ==> o[k] != '}' by {
        forall k | 0 <= k < |o| - 1 ensures o[k] != '}' {
          if k > 0 {
            assert o[k] == bodies[0][k - 1];
          }
        }
      }
      if |bodies| > 1 {
        ItemsBraces(bodies[1..]);
        var rest := Items(bodies[1..]);
        var t := o + "," + rest;
        assert Items(bodies) == t;
        forall k | 0 <= k < |t| && t[k] == '}' ensures k == |t| - 1 || t[k + 1] == ',' {
          if k < |o| {
            assert t[k] == o[k];
            assert k == |o| - 1;
            assert t[k + 1] == ',';
          } else if k > |o| {
            assert t[k] == rest[k - |o| - 1];
            if k < |t| - 1 {
              assert t[k + 1] == rest[k - |o|];
            }
          }
        }
      }
    }
  }

  /**
   * A compact array (with bodies free of `}`) holds no `}` followed by a space, even with the
   * space `parseNotes` appends.
   */
  lemma CompactArrayBraces(bodies: seq<string>)
    requires BracketFree(bodies)
    ensures NoSpacedBrace(CompactArray(bodies) + " ")
  {
    ItemsBraces(bodies);
    var t := Items(bodies);
    var s := CompactArray(bodies) + " ";
    assert s == "[" + t + "] ";
    assert s[0] == '[' && s[|t| + 1] == ']';
    forall k | 0 <= k < |s| - 1 ensures !BraceSpaceAt(s, k) {
      if s[k] == '}' {
        assert 1 <= k <= |t|;
        assert s[k] == t[k - 1];
        if k < |t| {
          assert s[k + 1] == t[k];
        }
      }
    }
  }

  /** As written, a compact array of notes yields no notes at all. */
  lemma CompactArrayYieldsNothing(bodies: seq<string>)
    requires BracketFree(bodies)
    ensures ParseNotes(Some(CompactArray(bodies))) == []
  {
    CompactArrayBraces(bodies);
    NoSpacedObjects(CompactArray(bodies) + " ");
  }

  /** The objects of a list, each written as `{` + body + `}`. */
  function ObjectTexts(bodies: seq<string>): (r: seq<string>)
    ensures |r| == |bodies|
    ensures forall k :: 0 <= k < |r| ==> r[k] == ObjectText(bodies[k])
  {
    seq(|bodies|, k requires 0 <= k < |bodies| => ObjectText(bodies[k]))
  }

  /** After a stretch without `{`, a text that starts with an object yields that object first. */
  lemma FirstObject(pre: string, body: string, tail: string)
    requires '{' !in pre && '}' !in body
    ensures Objects(pre + ObjectText(body) + tail, false) == [ObjectText(body)] + Objects(tail, false)
  {
    var s := pre + ObjectText(body) + tail;
    assert s[..|pre|] == pre && s[|pre|] == '{';
    IndexOfCharAfter(s, '{', pre);
    AttemptOnObject(pre, body, tail);
    assert s[|pre|..|pre| + |body| + 2] == ObjectText(body);
    assert s[|pre| + |body| + 2..] == tail;
  }

  /** An unspaced attempt at the `{` of an object ends just after its `}`. */
  lemma AttemptOnObject(pre: string, body: string, tail: string)
    requires '}' !in body
    ensures var s := pre + ObjectText(body) + tail;
            |pre| < |s| && s[|pre|] == '{' && Attempt(s, |pre|, false) == Some(|pre| + |body| + 2)
  {
    var s := pre + ObjectText(body) + tail;
    var after := s[|pre| + 1..];
    assert after == body + ("}" + tail);
    assert after[|body|] == '}' && after[..|body|] == body;
    IndexOfCharAfter(after, '}', body);
  }

  lemma NoObjects(s: string, spaced: bool)
    requires '{' !in s
    ensures Objects(s, spaced) == []
  {
  }

  /** With the corrected pattern, a list of items is split into exactly its objects. */
  lemma {:induction false} ItemsSplit(pre: string, bodies: seq<string>, tail: string)
    requires BracketFree(bodies)
    requires '{' !in pre && '{' !in tail
    ensures Objects(pre + Items(bodies) + tail, false) == ObjectTexts(bodies)
    decreases |bodies|
  {
    if |bodies| == 0 {
      assert pre + Items(bodies) + tail == pre + tail;
      NoObjects(pre + tail, false);
    } else {
      var rest := if |bodies| == 1 then tail else "," + Items(bodies[1..]) + tail;
      var more := if |bodies| == 1 then [] else ObjectTexts(bodies[1..]);
      ItemsCons(pre, bodies, tail);
      FirstObject(pre, bodies[0], rest);
      if |bodies| == 1 {
        NoObjects(tail, false);
      } else {
        BracketFreeTail(bodies);
        ItemsSplit(",", bodies[1..], tail);
      }
      ObjectTextsCons(bodies, more);
    }
  }

  /** The first item of a non-empty list, and what follows it. */
  lemma ItemsCons(pre: string, bodies: seq<string>, tail: string)
    requires |bodies| > 0
    ensures pre + Items(bodies) + tail ==
            pre + ObjectText(bodies[0]) + (if |bodies| == 1 then tail else "," + Items(bodies[1..]) + tail)
  {
    var x := ObjectText(bodies[0]);
    var m := if |bodies| == 1 then [] else "," + Items(bodies[1..]);
    assert Items(bodies) == x + m;
    Regroup(pre, x, m, tail);
    if |bodies| == 1 {
      assert m + tail == tail;
    }
  }

  /** Concatenation regrouped: the middle part joins what follows it. */
  lemma Regroup(a: string, x: string, m: string, t: string)
    ensures a + (x + m) + t == a + x + (m + t)
  {
  }

  lemma BracketFreeTail(bodies: seq<string>)
    requires |bodies| > 0 && BracketFree(bodies)
    ensures BracketFree(bodies[1..]) && '}' !in bodies[0]
  {
    forall k | 0 <= k < |bodies[1..]| ensures '}' !in bodies[1..][k] {
      assert bodies[1..][k] == bodies[k + 1];
    }
  }

  lemma ObjectTextsCons(bodies: seq<string>, more: seq<string>)
    requires |bodies| > 0
    requires more == if |bodies| == 1 then [] else ObjectTexts(bodies[1..])
    ensures ObjectTexts(bodies) == [ObjectText(bodies[0])] + more
  {
    var r := [ObjectText(bodies[0])] + more;
    assert |r| == |bodies|;
    forall k | 0 <= k < |bodies| ensures ObjectTexts(bodies)[k] == r[k] {
      if k > 0 {
        assert r[k] == more[k - 1];
      }
    }
  }

  // ---------------------------------------------------------------------------------------
  // spaced arrays

  /** An object followed by the space the as-written pattern needs. */
  function SpacedObject(body: string): string {
    ObjectText(body) + " "
  }

  /** The objects separated by `, `, each followed by a space: `{a} , {b} `. */
  function SpacedItems(bodies: seq<string>): string
    decreases |bodies|
  {
    if |bodies| == 0 then []
    else if |bodies| == 1 then SpacedObject(bodies[0])
    else SpacedObject(bodies[0]) + ", " + SpacedItems(bodies[1..])
  }

  /** A JSON array with a space after every object, the last one included: `[{a} , {b} ]`. */
  function SpacedArray(bodies: seq<string>): string {
    "[" + SpacedItems(bodies) + "]"
  }

  /** The matches of a list of spaced objects, each with its space. */
  function SpacedTexts(bodies: seq<string>): (r: seq<string>)
    ensures |r| == |bodies|
    ensures forall k :: 0 <= k < |r| ==> r[k] == SpacedObject(bodies[k])
  {
    seq(|bodies|, k requires 0 <= k < |bodies| => SpacedObject(bodies[k]))
  }

  /** A spaced attempt at the `{` of an object ends just after the space behind its `}`. */
  lemma AttemptOnSpaced(pre: string, body: string, tail: string)
    requires '}' !in body
    ensures var s := pre + SpacedObject(body) + tail;
            |pre| < |s| && s[|pre|] == '{' && Attempt(s, |pre|, true) == Some(|pre| + |body| + 3)
  {
    var s := pre + SpacedObject(body) + tail;
    SpacedLayout(pre, body, tail);
    var after := s[|pre| + 1..];
    assert after[|body|] == '}' && after[..|body|] == body;
    IndexOfCharAfter(after, '}', body);
  }

  /** Where the braces and the space of a spaced object sit in the text around it. */
  lemma SpacedLayout(pre: string, body: string, tail: string)
    ensures var s := pre + SpacedObject(body) + tail;
            && |s| == |pre| + |body| + 3 + |tail|
            && s[|pre|] == '{' && s[|pre| + |body| + 1] == '}' && s[|pre| + |body| + 2] == ' '
            && s[|pre| + 1..] == body + ("} " + tail)
  {
    var s := pre + SpacedObject(body) + tail;
    assert s == pre + ("{" + body + "} " + tail);
  }

  /** After a stretch without `{`, a text that starts with a spaced object yields that match first. */
  lemma FirstSpacedObject(pre: string, body: string, tail: string)
    requires '{' !in pre && '}' !in body
    ensures Objects(pre + SpacedObject(body) + tail, true) == [SpacedObject(body)] + Objects(tail, true)
  {
    var s := pre + SpacedObject(body) + tail;
    assert s[..|pre|] == pre && s[|pre|] == '{';
    IndexOfCharAfter(s, '{', pre);
    AttemptOnSpaced(pre, body, tail);
    assert s[|pre|..|pre| + |body| + 3] == SpacedObject(body);
    assert s[|pre| + |body| + 3..] == tail;
  }

  /** The first spaced item of a non-empty list, and what follows it. */
  lemma SpacedItemsCons(pre: string, bodies: seq<string>, tail: string)
    requires |bodies| > 0
    ensures pre + SpacedItems(bodies) + tail ==
            pre + SpacedObject(bodies[0]) + (if |bodies| == 1 then tail else ", " + SpacedItems(bodies[1..]) + tail)
  {
    var x := SpacedObject(bodies[0]);
    var m := if |bodies| == 1 then [] else ", " + SpacedItems(bodies[1..]);
    assert SpacedItems(bodies) == x + m;
    Regroup(pre, x, m, tail);
    if |bodies| == 1 {
      assert m + tail == tail;
    }
  }

  lemma SpacedTextsCons(bodies: seq<string>, more: seq<string>)
    requires |bodies| > 0
    requires more == if |bodies| == 1 then [] else SpacedTexts(bodies[1..])
    ensures SpacedTexts(bodies) == [SpacedObject(bodies[0])] + more
  {
    var r := [SpacedObject(bodies[0])] + more;
    assert |r| == |bodies|;
    forall k | 0 <= k < |bodies| ensures SpacedTexts(bodies)[k] == r[k] {
      if k > 0 {
        assert r[k] == more[k - 1];
      }
    }
  }

  /** As written, a list of spaced objects is split into exactly its objects, spaces included. */
  lemma {:induction false} SpacedItemsSplit(pre: string, bodies: seq<string>, tail: string)
    requires BracketFree(bodies)
    requires '{' !in pre && '{' !in tail
    ensures Objects(pre + SpacedItems(bodies) + tail, true) == SpacedTexts(bodies)
    decreases |bodies|
  {
    if |bodies| == 0 {
      assert pre + SpacedItems(bodies) + tail == pre + tail;
      NoObjects(pre + tail, true);
    } else {
      var rest := if |bodies| == 1 then tail else ", " + SpacedItems(bodies[1..]) + tail;
      var more := if |bodies| == 1 then [] else SpacedTexts(bodies[1..]);
      SpacedItemsCons(pre, bodies, tail);
      BracketFreeTail(bodies);
      FirstSpacedObject(pre, bodies[0], rest);
      if |bodies| == 1 {
        NoObjects(tail, true);
      } else {
        SpacedItemsSplit(", ", bodies[1..], tail);
      }
      SpacedTextsCons(bodies, more);
    }
  }

  /** Trimming a match drops the space behind the object. */
  lemma TrimSpacedObject(body: string)
    ensures Trim(SpacedObject(body)) == ObjectText(body)
  {
    var o := ObjectText(body);
    var s := SpacedObject(body);
    var r := Trim(s);
    assert s[0] == '{' && s[|o| - 1] == '}' && s[|o|] == ' ';
    assert LeadingBlanks(s) == 0;
    assert |r| == |o|;
    assert r == s[..|o|];
  }

  /**
   * As written, an array with a space after every object, the last one too, gives one note
   * per object, in order, each read from the object without its space.
   */
  lemma SpacedArrayNotes(bodies: seq<string>)
    requires BracketFree(bodies)
    ensures var r := ParseNotes(Some(SpacedArray(bodies)));
            && |r| == |bodies|
            && forall k :: 0 <= k < |r| ==> r[k] == NoteOf(ObjectText(bodies[k]))
  {
    var json := SpacedArray(bodies);
    assert json + " " == "[" + SpacedItems(bodies) + "] ";
    SpacedItemsSplit("[", bodies, "] ");
    var r := ParseNotes(Some(json));
    forall k | 0 <= k < |r| ensures r[k] == NoteOf(ObjectText(bodies[k])) {
      TrimSpacedObject(bodies[k]);
    }
  }

  lemma CompactArraySplit(bodies: seq<string>)
    requires BracketFree(bodies)
    ensures Objects(CompactArray(bodies), false) == ObjectTexts(bodies)
  {
    ItemsSplit("[", bodies, "]");
  }

  /** With the corrected pattern, a compact array gives one note per object, in order. */
  lemma CompactArrayNotesFixed(bodies: seq<string>)
    requires BracketFree(bodies)
    ensures |ParseNotesFixed(Some(CompactArray(bodies)))| == |bodies|
    ensures forall k :: 0 <= k < |bodies| ==> ParseNotesFixed(Some(CompactArray(bodies)))[k] == NoteOfFixed(ObjectText(bodies[k]))
  {
    CompactArraySplit(bodies);
  }

  /** A note object that starts with its `_id` field gives that id back with the corrected reader. */
  lemma NoteIdReadsBack(id: string, rest: string)
    ensures NoteOfFixed(ObjectText(QuotedKey("_id") + ":\"" + EscapeJson(Some(id)) + "\"" + rest)).id == id
  {
    var k := QuotedKey("_id");
    var e := EscapeJson(Some(id));
    var o := ObjectText(k + ":\"" + e + "\"" + rest);
    ObjectOfField(k, e, rest);
    forall i | 0 <= i < 1 ensures !OccursAt("{" + k, k, i) {
      assert ("{" + k)[0] == '{';
    }
    ExtractJsonStringField("{", "_id", id, rest + "}");
    assert ExtractJsonStringFixed(o, "_id") == Some(id);
  }

  /** An object holding one field first, written out as one text. */
  lemma ObjectOfField(k: string, e: string, rest: string)
    ensures ObjectText(k + ":\"" + e + "\"" + rest) == "{" + k + ":\"" + e + "\"" + (rest + "}")
  {
  }

  /** Two notes in a compact array: none as written, two with the corrected pattern. */
  lemma TwoNoteArray(a: string, b: string)
    requires '}' !in a && '}' !in b
    ensures ParseNotes(Some(CompactArray([a, b]))) == []
    ensures |ParseNotesFixed(Some(CompactArray([a, b])))| == 2
  {
    CompactArrayYieldsNothing([a, b]);
    CompactArrayNotesFixed([a, b]);
  }

  // ---------------------------------------------------------------------------------------
  // saving

  datatype SaveOutcome = TitleRequired | SaveRequest(body: string)

  /**
   * `onSaveNote`: a `null` or empty title is refused before any request; otherwise the body
   * carries the user name as it is and the escaped title and content.
   */
  function SaveNote(username: string, title: Option<string>, content: Option<string>): (r: SaveOutcome)
    ensures r.TitleRequired? <==> title.None? || title.value == []
    ensures r.SaveRequest? ==>
              r.body == "{\"username\":\"" + username + "\",\"title\":\"" + EscapeRef(title.value)
                        + "\",\"content\":\"" + EscapeJson(content) + "\"}"
  {
    if title.None? || title.value == [] then TitleRequired
    else SaveRequest("{\"username\":\"" + username + "\",\"title\":\"" + EscapeJson(title)
                     + "\",\"content\":\"" + EscapeJson(content) + "\"}")
  }

  /** The request body laid out as `{"username":"u","title":"e1","content":"e2"}`. */
  lemma SaveBodyLayout(username: string, title: string, content: Option<string>)
    requires title != []
    ensures SaveNote(username, Some(title), content).SaveRequest?
    ensures SaveNote(username, Some(title), content).body
            == "{\"username\":\"" + username + "\",\"title\":\"" + EscapeRef(title)
               + "\",\"content\":\"" + EscapeRef(ContentText(content)) + "\"}"
  {
    assert EscapeJson(content) == EscapeRef(ContentText(content));
  }

  /** The content the body carries: an absent content is written as an empty one. */
  function ContentText(content: Option<string>): string {
    if content.Some? then content.value else []
  }

  /** The body split at the title key: the user name part, then the title field and the rest. */
  lemma TitleFieldLayout(username: string, e1: string, e2: string)
    ensures "{\"username\":\"" + username + "\",\"title\":\"" + e1 + "\",\"content\":\"" + e2 + "\"}"
            == ("{\"username\":\"" + username + "\",")
               + (QuotedKey("title") + ":\"" + e1 + "\"" + (",\"content\":\"" + e2 + "\"}"))
  {
    assert "\",\"title\":\"" == "\"," + (QuotedKey("title") + ":\"");
    assert "\",\"content\":\"" == "\"" + ",\"content\":\"";
  }

  /** The body split at the content key: the user name and title part, then the content field. */
  lemma ContentFieldLayout(username: string, e1: string, e2: string)
    ensures var body := "{\"username\":\"" + username + "\",\"title\":\"" + e1 + "\",\"content\":\"" + e2 + "\"}";
            var field := QuotedKey("content") + ":\"" + e2 + "\"" + "}";
            var t := "\"title\":\"" + e1 + "\"," + field;
            && body == ("{\"username\":\"" + username + "\",\"title\":\"" + e1 + "\",") + field
            && body == "{\"username\":\"" + username + ("\"," + t)
            && body[15 + |username|..] == t
  {
    var body := "{\"username\":\"" + username + "\",\"title\":\"" + e1 + "\",\"content\":\"" + e2 + "\"}";
    var field := QuotedKey("content") + ":\"" + e2 + "\"" + "}";
    var t := "\"title\":\"" + e1 + "\"," + field;
    assert "\",\"content\":\"" == "\"," + (QuotedKey("content") + ":\"");
    assert "\"}" == "\"" + "}";
    assert body == ("{\"username\":\"" + username + "\",") + t;
  }

  /**
   * In a body that starts with the user name field, a quoted key word that starts before the
   * next key is the user name itself, and a comma follows it.
   */
  lemma UserNameWord(username: string, rest: string, k: string, i: int)
    requires '"' !in username
    requires k != [] && '"' !in k && k[|k| - 1] != '\\' && k[0] !in "{\"username\":\"" && k[0] != ','
    requires |rest| > |k| + 3 && rest[..3] == "\",\""
    requires 0 <= i < 15 + |username|
    ensures var body := "{\"username\":\"" + username + rest;
            OccursAt(body, QuotedKey(k), i) ==> body[i + |k| + 2] == ','
  {
    var A := "{\"username\":\"";
    var body := A + username + rest;
    var b := 13 + |username|;
    if i < 12 {
      assert body[..13] == A;
      QuotedWordNotBefore(body, 0, A, k, i);
    } else if i < b {
      assert body[13..b] == username && body[b] == '"' && body[b + 1] == ',';
      QuotedWordInValue(body, 13, username, k, i);
    } else {
      assert body[b..b + 3] == "\",\"";
      QuotedWordNotBefore(body, b, "\",\"", k, i);
    }
  }

  /**
   * The title of a saved note reads back from the request body, as long as the user name
   * (written unescaped) has no quote: with the single-pass unescape whatever the title holds,
   * and with the notepad's own `replace` chain when the title holds no backslash.
   */
  lemma SaveNoteTitleReadsBack(username: string, title: string, content: Option<string>)
    requires title != [] && '"' !in username
    ensures SaveNote(username, Some(title), content).SaveRequest?
    ensures ExtractJsonStringFixed(SaveNote(username, Some(title), content).body, "title") == Some(title)
    ensures '\\' !in title ==> ExtractJsonString(SaveNote(username, Some(title), content).body, "title") == Some(title)
  {
    SaveBodyLayout(username, title, content);
    var e1, e2 := EscapeRef(title), EscapeRef(ContentText(content));
    TitleFieldLayout(username, e1, e2);
    TitleCommaKeys(username, e1, e2);
    var body := SaveNote(username, Some(title), content).body;
    var rest := ",\"content\":\"" + e2 + "\"}";
    var pre := "{\"username\":\"" + username + "\",";
    assert body[|pre|..] == QuotedKey("title") + ":\"" + e1 + "\"" + rest;
    ExtractAfterCommaKeys(body, "title", |pre|, title, rest);
  }

  /** A quoted `title` that starts inside the user name field is followed by a comma. */
  lemma TitleCommaAt(username: string, e1: string, e2: string, i: int)
    requires '"' !in username
    requires 0 <= i < 15 + |username|
    ensures var body := "{\"username\":\"" + username + "\",\"title\":\"" + e1 + "\",\"content\":\"" + e2 + "\"}";
            OccursAt(body, QuotedKey("title"), i) ==> body[i + |QuotedKey("title")|] == ','
  {
    TitleFieldLayout(username, e1, e2);
    var field := QuotedKey("title") + ":\"" + e1 + "\"" + (",\"content\":\"" + e2 + "\"}");
    UserNameWord(username, "\"," + field, "title", i);
  }

  /** Every quoted `title` before the title key of the body is followed by a comma. */
  lemma TitleCommaKeys(username: string, e1: string, e2: string)
    requires '"' !in username
    ensures var body := "{\"username\":\"" + username + "\",\"title\":\"" + e1 + "\",\"content\":\"" + e2 + "\"}";
            forall i :: 0 <= i < 15 + |username| && OccursAt(body, QuotedKey("title"), i)
              ==> body[i + |QuotedKey("title")|] == ','
  {
    forall i | 0 <= i < 15 + |username|
      ensures var body := "{\"username\":\"" + username + "\",\"title\":\"" + e1 + "\",\"content\":\"" + e2 + "\"}";
              OccursAt(body, QuotedKey("title"), i) ==> body[i + |QuotedKey("title")|] == ','
    {
      TitleCommaAt(username, e1, e2, i);
    }
  }

  /**
   * After the user name field, a quoted `content` that starts before the content key is the
   * title itself, and a comma follows it.
   */
  lemma TitleFieldWord(e1: string, field: string, j: int)
    requires forall m :: 0 <= m < |e1| && e1[m] == '"' ==> 0 < m && e1[m - 1] == '\\'
    requires |field| >= 9 && field[0] == '"'
    requires 0 <= j < 11 + |e1|
    ensures var t := "\"title\":\"" + e1 + "\"," + field;
            OccursAt(t, QuotedKey("content"), j) ==> t[j + 9] == ','
  {
    var T := "\"title\":\"";
    var t := T + e1 + "\"," + field;
    if j < 8 {
      assert t[..9] == T;
      QuotedWordNotBefore(t, 0, T, "content", j);
    } else if j < 9 + |e1| {
      assert t[9..9 + |e1|] == e1 && t[9 + |e1|] == '"' && t[10 + |e1|] == ',';
      QuotedWordInValue(t, 9, e1, "content", j);
    } else {
      assert t[9 + |e1|..12 + |e1|] == "\",\"";
      QuotedWordNotBefore(t, 9 + |e1|, "\",\"", "content", j);
    }
  }

  /** A quoted `content` at a place before the content key of the body is followed by a comma. */
  lemma ContentCommaAt(username: string, e1: string, e2: string, i: int)
    requires '"' !in username
    requires forall m :: 0 <= m < |e1| && e1[m] == '"' ==> 0 < m && e1[m - 1] == '\\'
    requires 0 <= i < 26 + |username| + |e1|
    ensures var body := "{\"username\":\"" + username + "\",\"title\":\"" + e1 + "\",\"content\":\"" + e2 + "\"}";
            OccursAt(body, QuotedKey("content"), i) ==> body[i + |QuotedKey("content")|] == ','
  {
    ContentFieldLayout(username, e1, e2);
    var body := "{\"username\":\"" + username + "\",\"title\":\"" + e1 + "\",\"content\":\"" + e2 + "\"}";
    var field := QuotedKey("content") + ":\"" + e2 + "\"" + "}";
    var t := "\"title\":\"" + e1 + "\"," + field;
    if i < 15 + |username| {
      UserNameWord(username, "\"," + t, "content", i);
    } else {
      OccursInSuffix(body, QuotedKey("content"), 15 + |username|, i - 15 - |username|);
      TitleFieldWord(e1, field, i - 15 - |username|);
    }
  }

  /** Every quoted `content` before the content key of the body is followed by a comma. */
  lemma ContentCommaKeys(username: string, e1: string, e2: string)
    requires '"' !in username
    requires forall m :: 0 <= m < |e1| && e1[m] == '"' ==> 0 < m && e1[m - 1] == '\\'
    ensures var body := "{\"username\":\"" + username + "\",\"title\":\"" + e1 + "\",\"content\":\"" + e2 + "\"}";
            forall i :: 0 <= i < 26 + |username| + |e1| && OccursAt(body, QuotedKey("content"), i)
              ==> body[i + |QuotedKey("content")|] == ','
  {
    forall i | 0 <= i < 26 + |username| + |e1|
      ensures var body := "{\"username\":\"" + username + "\",\"title\":\"" + e1 + "\",\"content\":\"" + e2 + "\"}";
              OccursAt(body, QuotedKey("content"), i) ==> body[i + |QuotedKey("content")|] == ','
    {
      ContentCommaAt(username, e1, e2, i);
    }
  }

  /**
   * The content of a saved note reads back from the request body (an absent content as an
   * empty one), as long as the user name has no quote: with the single-pass unescape whatever
   * the title and content hold, and with the notepad's own `replace` chain when the content
   * holds no backslash.
   */
  lemma SaveNoteContentReadsBack(username: string, title: string, content: Option<string>)
    requires title != [] && '"' !in username
    ensures SaveNote(username, Some(title), content).SaveRequest?
    ensures ExtractJsonStringFixed(SaveNote(username, Some(title), content).body, "content")
            == Some(ContentText(content))
    ensures '\\' !in ContentText(content) ==>
              ExtractJsonString(SaveNote(username, Some(title), content).body, "content") == Some(ContentText(content))
  {
    SaveBodyLayout(username, title, content);
    var e1, e2 := EscapeRef(title), EscapeRef(ContentText(content));
    ContentFieldLayout(username, e1, e2);
    EscapedIsClean(title);
    ContentCommaKeys(username, e1, e2);
    var body := SaveNote(username, Some(title), content).body;
    var pre := "{\"username\":\"" + username + "\",\"title\":\"" + e1 + "\",";
    assert body[|pre|..] == QuotedKey("content") + ":\"" + e2 + "\"" + "}";
    ExtractAfterCommaKeys(body, "content", |pre|, ContentText(content), "}");
  }

  /**
   * With the notepad's own `replace` chain, a saved title holding a backslash followed by `n`
   * comes back with a newline in place of the `n`.
   */
  lemma SaveNoteTitleMisread()
    ensures SaveNote("u", Some("\\n"), None).SaveRequest?
    ensures ExtractJsonString(SaveNote("u", Some("\\n"), None).body, "title") == Some("\\\n")
    ensures ExtractJsonStringFixed(SaveNote("u", Some("\\n"), None).body, "title") == Some("\\n")
  {
    SaveNoteTitleReadsBack("u", "\\n", None);
    SaveBodyLayout("u", "\\n", None);
    TitleFieldLayout("u", EscapeRef("\\n"), EscapeRef(ContentText(None)));
    TitleCommaKeys("u", EscapeRef("\\n"), EscapeRef(ContentText(None)));
    var body := SaveNote("u", Some("\\n"), None).body;
    var rest := ",\"content\":\"" + EscapeRef(ContentText(None)) + "\"}";
    var pre := "{\"username\":\"u\",";
    assert body[|pre|..] == QuotedKey("title") + ":\"" + EscapeRef("\\n") + "\"" + rest;
    ExtractAfterCommaKeys(body, "title", |pre|, "\\n", rest);
    UnescapeAsWrittenMisreadsBackslashN();
  }
}

=== FILE: private_chat.dfy ===
/**
 * `PrivateChatServer`: a directory from user name to client handler, driven by the lines
 * each handler reads. Every handler's socket is an outbox, the sequence of lines written to it.
 *
 * The directory is a `ConcurrentHashMap`, whose iteration order Java leaves unspecified; the
 * model keeps the names in insertion order beside the map (an overwrite keeps the name's
 * place), so the `USERS:` lines come out in that order.
 */
module PrivateChat {
  import opened Wrappers
  import opened JavaText

  /** The server's listening port. */
  const Port := 8888

  type HandlerId = nat

  /** One `ClientHandler`: the name it read during the handshake, and its socket's outbox. */
  datatype Handler = Handler(username: Option<string>, outbox: seq<string>)

  /**
   * The directory `connectedClients` (`users`, with its names in iteration order in
   * `order`), and every handler that ever connected.
   */
  datatype State = State(users: map<string, HandlerId>, order: seq<string>, handlers: map<HandlerId, Handler>)

  /** Result of handling one line: the new state, and whether the read loop ends. */
  datatype Step = Step(state: State, stop: bool)

  predicate Distinct<T(==)>(s: seq<T>) {
    forall a, b :: 0 <= a < b < |s| ==> s[a] != s[b]
  }

  /**
   * What every reachable state satisfies: `order` lists each registered name once, every
   * registered handler exists and is registered under the name it read, and no registered
   * name is blank. Two names therefore never share a handler.
   */
  predicate Valid(st: State) {
    && Distinct(st.order)
    && (forall n :: n in st.order ==> n in st.users)
    && (forall n :: n in st.users ==> n in st.order)
    && forall n :: n in st.users ==>
         && st.users[n] in st.handlers
         && st.handlers[st.users[n]].username == Some(n)
         && !IsBlank(n)
  }

  /** Handler `g` is the one its own name is registered to. */
  predicate IsListed(st: State, g: HandlerId)
    requires g in st.handlers
  {
    var u := st.handlers[g].username;
    u.Some? && u.value in st.users && st.users[u.value] == g
  }

  // ---------------------------------------------------------------------------------------
  // the directory

  /** The tail of a repetition-free sequence is repetition-free and lacks the head. */
  lemma DistinctTail<T>(s: seq<T>)
    requires |s| > 0 && Distinct(s)
    ensures s[0] !in s[1..] && Distinct(s[1..])
  {
    forall k | 0 <= k < |s[1..]| ensures s[1..][k] != s[0] {
      assert s[1..][k] == s[k + 1];
    }
    forall a, b | 0 <= a < b < |s[1..]| ensures s[1..][a] != s[1..][b] {
      assert s[1..][a] == s[a + 1] && s[1..][b] == s[b + 1];
    }
  }

  /** `s` with every occurrence of `x` removed, order kept. */
  function Without(s: seq<string>, x: string): (r: seq<string>)
    ensures forall y :: y in r <==> y in s && y != x
    ensures Distinct(s) ==> Distinct(r)
  {
    if |s| == 0 then []
    else
      var rest := Without(s[1..], x);
      assert forall y :: y in s <==> y == s[0] || y in s[1..] by { assert s == [s[0]] + s[1..]; }
      if s[0] == x then rest
      else
        var r := [s[0]] + rest;
        assert Distinct(s) ==> Distinct(r) by {
          if Distinct(s) {
            DistinctTail(s);
            forall a, b | 0 <= a < b < |r| ensures r[a] != r[b] {
              if a == 0 { assert r[b] == rest[b - 1] && rest[b - 1] in rest; }
            }
          }
        }
        r
  }

  /**
   * `connectedClients.put(u, h)` by a handler that has just read the non-blank name `u`: the
   * name now maps to `h`, whoever held it before; a new name joins the end of the order.
   */
  function Register(st: State, u: string, h: HandlerId): (r: State)
    requires Valid(st) && h in st.handlers && st.handlers[h].username == Some(u) && !IsBlank(u)
    ensures Valid(r)
    ensures r.users == st.users[u := h] && r.handlers == st.handlers
    ensures u in st.users ==> r.order == st.order
  {
    if u in st.users then st.(users := st.users[u := h])
    else
      var order := st.order + [u];
      assert Distinct(order) by {
        forall a, b | 0 <= a < b < |order| ensures order[a] != order[b] {
          if b == |st.order| { assert order[a] in st.order; }
        }
      }
      st.(users := st.users[u := h], order := order)
  }

  /** `connectedClients.remove(u)`: only the name `u` leaves, whichever handler held it. */
  function Unregister(st: State, u: string): (r: State)
    requires Valid(st)
    ensures Valid(r)
    ensures r.users == st.users - {u} && r.handlers == st.handlers
    ensures u !in st.users ==> r.users == st.users && r.order == st.order
  {
    assert u !in st.users ==> Without(st.order, u) == st.order && st.users - {u} == st.users by {
      if u !in st.users {
        WithoutAbsent(st.order, u);
      }
    }
    st.(users := st.users - {u}, order := Without(st.order, u))
  }

  // ---------------------------------------------------------------------------------------
  // output

  /** `out.println(line)` on handler `h`. */
  function Send(handlers: map<HandlerId, Handler>, h: HandlerId, line: string): (r: map<HandlerId, Handler>)
    requires h in handlers
    ensures r.Keys == handlers.Keys
    ensures r[h].username == handlers[h].username && r[h].outbox == handlers[h].outbox + [line]
    ensures forall g :: g in handlers && g != h ==> r[g] == handlers[g]
  {
    handlers[h := handlers[h].(outbox := handlers[h].outbox + [line])]
  }

  /** `out.println(line)` on handler `h`, as a step of the whole server. */
  function Write(st: State, h: HandlerId, line: string): (r: State)
    requires Valid(st) && h in st.handlers
    ensures Valid(r) && r.users == st.users && r.order == st.order && r.handlers.Keys == st.handlers.Keys
    ensures r.handlers[h] == st.handlers[h].(outbox := st.handlers[h].outbox + [line])
    ensures forall g :: g in st.handlers && g != h ==> r.handlers[g] == st.handlers[g]
  {
    st.(handlers := Send(st.handlers, h, line))
  }

  /** The names a `USERS:` line lists for a handler called `self`: every other name, in order. */
  function Listed(order: seq<string>, self: Option<string>): (r: seq<string>)
    ensures forall n :: n in r <==> n in order && self != Some(n)
    ensures Distinct(order) ==> Distinct(r)
  {
    if self.Some? then Without(order, self.value) else order
  }

  /** The `StringBuilder` loop: each name followed by a comma. */
  function CommaTerminated(names: seq<string>): string {
    if |names| == 0 then [] else names[0] + "," + CommaTerminated(names[1..])
  }

  /** `sendOnlineUsers` for a handler called `self`. */
  function UsersLine(order: seq<string>, self: Option<string>): string {
    "USERS:" + CommaTerminated(Listed(order, self))
  }

  /**
   * The loop of `broadcastOnlineUsers` over the handlers registered under `names`: each one
   * gets the user list for its own name. With distinct names and each handler registered
   * under its own name, a handler gets exactly one line if its name is among `names`, and
   * none otherwise.
   */
  function SendUsers(order: seq<string>, users: map<string, HandlerId>, handlers: map<HandlerId, Handler>, names: seq<string>): (r: map<HandlerId, Handler>)
    requires Distinct(names)
    requires forall n :: n in names ==> n in users && users[n] in handlers && handlers[users[n]].username == Some(n)
    ensures r.Keys == handlers.Keys
    ensures forall g :: g in handlers ==> r[g].username == handlers[g].username
    ensures forall g :: g in handlers ==>
              var u := handlers[g].username;
              r[g].outbox == if u.Some? && u.value in names && users[u.value] == g
                             then handlers[g].outbox + [UsersLine(order, u)]
                             else handlers[g].outbox
    decreases |names|
  {
    if |names| == 0 then handlers
    else
      var g0 := users[names[0]];
      var sent := Send(handlers, g0, UsersLine(order, handlers[g0].username));
      DistinctTail(names);
      var r := SendUsers(order, users, sent, names[1..]);
      SendUsersStep(order, users, handlers, names, r);
      r
  }

  /** The first name's handler gets its line; the rest of the loop then behaves as promised. */
  lemma SendUsersStep(order: seq<string>, users: map<string, HandlerId>, handlers: map<HandlerId, Handler>,
                      names: seq<string>, r: map<HandlerId, Handler>)
    requires |names| > 0 && Distinct(names)
    requires forall n :: n in names ==> n in users && users[n] in handlers && handlers[users[n]].username == Some(n)
    requires var g0 := users[names[0]];
             var sent := Send(handlers, g0, UsersLine(order, handlers[g0].username));
             && r.Keys == sent.Keys
             && (forall g :: g in sent ==> r[g].username == sent[g].username)
             && forall g :: g in sent ==>
                  var u := sent[g].username;
                  r[g].outbox == if u.Some? && u.value in names[1..] && users[u.value] == g
                                 then sent[g].outbox + [UsersLine(order, u)]
                                 else sent[g].outbox
    ensures r.Keys == handlers.Keys
    ensures forall g :: g in handlers ==> r[g].username == handlers[g].username
    ensures forall g :: g in handlers ==>
              var u := handlers[g].username;
              r[g].outbox == if u.Some? && u.value in names && users[u.value] == g
                             then handlers[g].outbox + [UsersLine(order, u)]
                             else handlers[g].outbox
  {
    var g0 := users[names[0]];
    var sent := Send(handlers, g0, UsersLine(order, handlers[g0].username));
    DistinctTail(names);
    forall g | g in handlers
      ensures var u := handlers[g].username;
              r[g].outbox == if u.Some? && u.value in names && users[u.value] == g
                             then handlers[g].outbox + [UsersLine(order, u)]
                             else handlers[g].outbox
    {
      var u := handlers[g].username;
      assert u.Some? ==> (u.value in names <==> u.value == names[0] || u.value in names[1..]) by {
        assert names == [names[0]] + names[1..];
      }
    }
  }

  /** `broadcastOnlineUsers`: every registered handler gets a user list; nothing else changes. */
  function BroadcastOnlineUsers(st: State): (r: State)
    requires Valid(st)
    ensures Valid(r) && r.users == st.users && r.order == st.order && r.handlers.Keys == st.handlers.Keys
    ensures forall g :: g in st.handlers ==>
              && r.handlers[g].username == st.handlers[g].username
              && r.handlers[g].outbox == if IsListed(st, g)
                                         then st.handlers[g].outbox + [UsersLine(st.order, st.handlers[g].username)]
                                         else st.handlers[g].outbox
  {
    st.(handlers := SendUsers(st.order, st.users, st.handlers, st.order))
  }

  // ---------------------------------------------------------------------------------------
  // the handler

  /** A connection is accepted and its handler asks for a name. */
  function Connect(st: State, h: HandlerId): (r: State)
    requires Valid(st) && h !in st.handlers
    ensures Valid(r) && r.users == st.users
    ensures h in r.handlers && r.handlers[h] == Handler(None, ["ENTER_USERNAME"])
    ensures forall g :: g in st.handlers ==> g in r.handlers && r.handlers[g] == st.handlers[g]
  {
    st.(handlers := st.handlers[h := Handler(None, ["ENTER_USERNAME"])])
  }

  /**
   * `disconnect`: a handler that read a name removes whatever entry holds that name, then
   * the user lists go out; a handler that read no name does nothing.
   */
  function Disconnect(st: State, h: HandlerId): (r: State)
    requires Valid(st) && h in st.handlers
    ensures Valid(r) && r.handlers.Keys == st.handlers.Keys
    ensures st.handlers[h].username.None? ==> r == st
    ensures st.handlers[h].username.Some? ==> r.users == st.users - {st.handlers[h].username.value}
    ensures st.handlers[h].username.Some? && st.handlers[h].username.value !in st.users ==>
              r.users == st.users && r.order == st.order
  {
    match st.handlers[h].username
    case None => st
    case Some(u) => BroadcastOnlineUsers(Unregister(st, u))
  }

  /** `username = in.readLine()` on a handler that is not registered yet. */
  function Named(st: State, h: HandlerId, line: Option<string>): (r: State)
    requires Valid(st) && h in st.handlers && st.handlers[h].username.None?
    ensures Valid(r) && r.users == st.users && r.order == st.order && r.handlers.Keys == st.handlers.Keys
    ensures r.handlers[h] == st.handlers[h].(username := line)
    ensures forall g :: g in st.handlers && g != h ==> r.handlers[g] == st.handlers[g]
  {
    assert forall n :: n in st.users ==> st.users[n] != h;
    st.(handlers := st.handlers[h := st.handlers[h].(username := line)])
  }

  /** Result of the handshake: the new state, and whether the name was registered. */
  datatype Handshake = Handshake(state: State, registered: bool)

  /**
   * The start of `run`: the line read after `ENTER_USERNAME` (`None` at end of stream). A
   * missing or blank name is not registered; otherwise the name now maps to this handler,
   * whoever held it before, the handler is told `SUCCESS`, and the user lists go out.
   */
  function DoHandshake(st: State, h: HandlerId, line: Option<string>): (r: Handshake)
    requires Valid(st) && h in st.handlers && st.handlers[h].username.None?
    ensures Valid(r.state) && r.state.handlers.Keys == st.handlers.Keys
    ensures r.state.handlers[h].username == line
    ensures r.registered <==> line.Some? && !IsBlank(line.value)
    ensures r.registered ==> r.state.users == st.users[line.value := h]
    ensures !r.registered ==> r.state.users == st.users && r.state.order == st.order
    ensures !r.registered ==> forall g :: g in st.handlers ==> r.state.handlers[g].outbox == st.handlers[g].outbox
  {
    var named := Named(st, h, line);
    match line
    case None => Handshake(named, false)
    case Some(u) =>
      if IsBlank(u) then Handshake(named, false)
      else
        Handshake(BroadcastOnlineUsers(Admit(st, h, u)), true)
  }

  /**
   * A non-blank name is read: the handler records it, the directory maps it to the handler,
   * and the handler is told `SUCCESS`.
   */
  function Admit(st: State, h: HandlerId, u: string): (r: State)
    requires Valid(st) && h in st.handlers && st.handlers[h].username.None? && !IsBlank(u)
    ensures Valid(r) && r.users == st.users[u := h] && r.handlers.Keys == st.handlers.Keys
    ensures u in st.users ==> r.order == st.order
    ensures r.handlers[h] == Handler(Some(u), st.handlers[h].outbox + ["SUCCESS:Connected as " + u])
    ensures forall g :: g in st.handlers && g != h ==> r.handlers[g] == st.handlers[g]
  {
    Write(Register(Named(st, h, Some(u)), u, h), h, "SUCCESS:Connected as " + u)
  }

  /** `sendPrivateMessage(recipient, text)` from handler `h`. */
  function SendPrivate(st: State, h: HandlerId, recipient: string, text: string): (r: State)
    requires Valid(st) && h in st.handlers
    ensures Valid(r) && r.users == st.users && r.order == st.order && r.handlers.Keys == st.handlers.Keys
    ensures forall g :: g in st.handlers ==> r.handlers[g].username == st.handlers[g].username
    ensures recipient in st.users && st.users[recipient] != h ==>
              var rh := st.users[recipient];
              && r.handlers[rh].outbox == st.handlers[rh].outbox + ["MESSAGE:" + TextOf(st.handlers[h].username) + ":" + text]
              && r.handlers[h].outbox == st.handlers[h].outbox + ["SENT:" + recipient + ":" + text]
              && forall g :: g in st.handlers && g != h && g != rh ==> r.handlers[g] == st.handlers[g]
    ensures recipient in st.users && st.users[recipient] == h ==>
              && r.handlers[h].outbox == st.handlers[h].outbox
                   + ["MESSAGE:" + TextOf(st.handlers[h].username) + ":" + text, "SENT:" + recipient + ":" + text]
              && forall g :: g in st.handlers && g != h ==> r.handlers[g] == st.handlers[g]
    ensures recipient !in st.users ==>
              && r.handlers[h].outbox == st.handlers[h].outbox + ["ERROR:User " + recipient + " is not online"]
              && forall g :: g in st.handlers && g != h ==> r.handlers[g] == st.handlers[g]
  {
    if recipient in st.users then
      var delivered := Write(st, st.users[recipient], "MESSAGE:" + TextOf(st.handlers[h].username) + ":" + text);
      Write(delivered, h, "SENT:" + recipient + ":" + text)
    else
      Write(st, h, "ERROR:User " + recipient + " is not online")
  }

  /** One iteration of the read loop after registration. */
  function HandleLine(st: State, h: HandlerId, line: string): (r: Step)
    requires Valid(st) && h in st.handlers
    ensures Valid(r.state) && r.state.users == st.users && r.state.order == st.order
    ensures r.state.handlers.Keys == st.handlers.Keys
    ensures forall g :: g in st.handlers ==> r.state.handlers[g].username == st.handlers[g].username
    ensures r.stop <==> line == "DISCONNECT"
  {
    if StartsWith(line, "PRIVATE:") then
      assert line[0] == 'P';
      var parts := SplitLimit(line[8..], ':', 2);
      if |parts| == 2 then Step(SendPrivate(st, h, parts[0], parts[1]), false) else Step(st, false)
    else if line == "GET_USERS" then
      Step(Write(st, h, UsersLine(st.order, st.handlers[h].username)), false)
    else if line == "DISCONNECT" then Step(st, true)
    else Step(st, false)
  }

  /** The read loop: lines in order until `DISCONNECT` or end of stream. */
  function ReadLoop(st: State, h: HandlerId, lines: seq<string>): (r: State)
    requires Valid(st) && h in st.handlers
    ensures Valid(r) && r.users == st.users && r.handlers.Keys == st.handlers.Keys
    ensures forall g :: g in st.handlers ==> r.handlers[g].username == st.handlers[g].username
    decreases |lines|
  {
    if |lines| == 0 then st
    else
      var step := HandleLine(st, h, lines[0]);
      if step.stop then step.state else ReadLoop(step.state, h, lines[1..])
  }

  /**
   * The early return of `run` after a missing or blank name: it happens inside the `try`, so
   * `disconnect` runs there and again in the `finally` block. The directory is unchanged.
   */
  function Abandon(st: State, h: HandlerId): (r: State)
    requires Valid(st) && h in st.handlers
    requires st.handlers[h].username.Some? ==> IsBlank(st.handlers[h].username.value)
    ensures Valid(r) && r.users == st.users && r.order == st.order && r.handlers.Keys == st.handlers.Keys
    ensures st.handlers[h].username.None? ==> r == st
  {
    assert st.handlers[h].username.Some? ==> st.handlers[h].username.value !in st.users;
    Disconnect(Disconnect(st, h), h)
  }

  /** On the early-return path with a (blank) name, every registered handler gets two user lists. */
  lemma AbandonBroadcastsTwice(st: State, h: HandlerId, g: HandlerId)
    requires Valid(st) && h in st.handlers
    requires st.handlers[h].username.Some? && IsBlank(st.handlers[h].username.value)
    requires g in st.handlers
    ensures Abandon(st, h).handlers[g].outbox ==
              if IsListed(st, g)
              then st.handlers[g].outbox + [UsersLine(st.order, st.handlers[g].username), UsersLine(st.order, st.handlers[g].username)]
              else st.handlers[g].outbox
  {
    AbandonIsTwoBroadcasts(st, h);
    BroadcastTwice(st, g);
  }

  /** With a name that is not registered, the early return amounts to two user-list broadcasts. */
  lemma AbandonIsTwoBroadcasts(st: State, h: HandlerId)
    requires Valid(st) && h in st.handlers
    requires st.handlers[h].username.Some? && IsBlank(st.handlers[h].username.value)
    ensures Abandon(st, h) == BroadcastOnlineUsers(BroadcastOnlineUsers(st))
  {
    assert st.handlers[h].username.value !in st.users;
    DisconnectUnlisted(st, h);
    DisconnectUnlisted(BroadcastOnlineUsers(st), h);
  }

  /** Two user-list broadcasts give each registered handler two copies of its list. */
  lemma BroadcastTwice(st: State, g: HandlerId)
    requires Valid(st) && g in st.handlers
    ensures BroadcastOnlineUsers(BroadcastOnlineUsers(st)).handlers[g].outbox ==
              if IsListed(st, g)
              then st.handlers[g].outbox + [UsersLine(st.order, st.handlers[g].username), UsersLine(st.order, st.handlers[g].username)]
              else st.handlers[g].outbox
  {
    BroadcastTwiceAt(st, g);
    TwoCopies(st.handlers[g].outbox, Heard(st, g), UsersLine(st.order, st.handlers[g].username), IsListed(st, g));
  }

  lemma TwoCopies(out: seq<string>, heard: seq<string>, line: string, listed: bool)
    requires heard == if listed then [line] else []
    ensures out + heard + heard == if listed then out + [line, line] else out
  {
    if listed {
      assert out + [line] + [line] == out + [line, line];
    } else {
      assert out + [] + [] == out;
    }
  }

  lemma BroadcastTwiceAt(st: State, g: HandlerId)
    requires Valid(st) && g in st.handlers
    ensures BroadcastOnlineUsers(BroadcastOnlineUsers(st)).handlers[g].outbox
            == st.handlers[g].outbox + Heard(st, g) + Heard(st, g)
  {
    BroadcastAt(st, g);
    BroadcastAt(BroadcastOnlineUsers(st), g);
  }

  /** What one user-list broadcast appends to handler `g`'s outbox. */
  function Heard(st: State, g: HandlerId): seq<string>
    requires g in st.handlers
  {
    if IsListed(st, g) then [UsersLine(st.order, st.handlers[g].username)] else []
  }

  /** One user-list broadcast, seen from handler `g`. */
  lemma BroadcastAt(st: State, g: HandlerId)
    requires Valid(st) && g in st.handlers
    ensures var r := BroadcastOnlineUsers(st);
            && Valid(r) && g in r.handlers && r.order == st.order
            && r.handlers[g] == st.handlers[g].(outbox := st.handlers[g].outbox + Heard(st, g))
            && Heard(r, g) == Heard(st, g)
  {
    var r := BroadcastOnlineUsers(st);
    BroadcastKeepsListing(st, g);
    assert r.handlers[g].username == st.handlers[g].username;
    assert r.handlers[g].outbox == st.handlers[g].outbox + Heard(st, g);
  }

  /** `disconnect` by a handler whose name is not registered only sends the user lists. */
  lemma DisconnectUnlisted(st: State, h: HandlerId)
    requires Valid(st) && h in st.handlers
    requires st.handlers[h].username.Some? && st.handlers[h].username.value !in st.users
    ensures Disconnect(st, h) == BroadcastOnlineUsers(st)
  {
    assert Unregister(st, st.handlers[h].username.value) == st;
  }

  /** Sending user lists changes nobody's registration. */
  lemma BroadcastKeepsListing(st: State, g: HandlerId)
    requires Valid(st) && g in st.handlers
    ensures IsListed(BroadcastOnlineUsers(st), g) <==> IsListed(st, g)
  {
  }

  /** The read loop of a registered handler, then the `finally` block. */
  function Serve(st: State, h: HandlerId, lines: seq<string>): (r: State)
    requires Valid(st) && h in st.handlers && st.handlers[h].username.Some?
    ensures Valid(r) && r.handlers.Keys == st.handlers.Keys
    ensures r.users == st.users - {st.handlers[h].username.value}
  {
    Disconnect(ReadLoop(st, h, lines), h)
  }

  /** `run` from the handshake to the `finally` block. */
  function RunSession(st: State, h: HandlerId, name: Option<string>, lines: seq<string>): (r: State)
    requires Valid(st) && h in st.handlers && st.handlers[h].username.None?
    ensures Valid(r) && r.handlers.Keys == st.handlers.Keys
  {
    var hs := DoHandshake(st, h, name);
    if !hs.registered then Abandon(hs.state, h) else Serve(hs.state, h, lines)
  }

  // ---------------------------------------------------------------------------------------
  // properties

  /**
   * A session that registered `u` ends with `u` no longer registered, whichever handler holds
   * it by then; every other name keeps its handler, and no name is added.
   */
  lemma SessionReleasesName(st: State, h: HandlerId, u: string, lines: seq<string>)
    requires Valid(st) && h in st.handlers && st.handlers[h].username.None? && !IsBlank(u)
    ensures var r := RunSession(st, h, Some(u), lines);
            && u !in r.users
            && (forall n :: n in st.users && n != u ==> n in r.users && r.users[n] == st.users[n])
            && forall n :: n in r.users ==> n in st.users
  {
  }

  /** A session whose name is blank leaves the directory as it was. */
  lemma BlankSessionKeepsDirectory(st: State, h: HandlerId, u: string, lines: seq<string>)
    requires Valid(st) && h in st.handlers && st.handlers[h].username.None? && IsBlank(u)
    ensures RunSession(st, h, Some(u), lines).users == st.users
  {
  }

  /** A connection closed before sending a name changes nothing at all. */
  lemma NamelessSessionSilent(st: State, h: HandlerId, lines: seq<string>)
    requires Valid(st) && h in st.handlers && st.handlers[h].username.None?
    ensures RunSession(st, h, None, lines) == st
  {
  }

  /** A `PRIVATE:` line whose recipient has no colon sends the rest of the line as the text. */
  lemma PrivateLine(st: State, h: HandlerId, recipient: string, text: string)
    requires Valid(st) && h in st.handlers && ':' !in recipient
    ensures HandleLine(st, h, "PRIVATE:" + recipient + ":" + text) == Step(SendPrivate(st, h, recipient, text), false)
  {
    var line := "PRIVATE:" + recipient + ":" + text;
    assert line[..8] == "PRIVATE:";
    assert line[8..] == recipient + [':'] + text;
    SplitLimitTwo(line[8..], ':', recipient, text);
  }

  /**
   * `PRIVATE:<r>:<text>` to an online recipient other than the sender: the recipient gets
   * `MESSAGE:<sender>:<text>`, the sender `SENT:<r>:<text>`, and no other outbox changes. The
   * text may itself contain colons.
   */
  lemma PrivateToOnline(st: State, h: HandlerId, recipient: string, text: string)
    requires Valid(st) && h in st.handlers && ':' !in recipient
    requires recipient in st.users && st.users[recipient] != h
    ensures var r := HandleLine(st, h, "PRIVATE:" + recipient + ":" + text).state;
            var rh := st.users[recipient];
            && r.handlers[rh].outbox == st.handlers[rh].outbox + ["MESSAGE:" + TextOf(st.handlers[h].username) + ":" + text]
            && r.handlers[h].outbox == st.handlers[h].outbox + ["SENT:" + recipient + ":" + text]
            && forall g :: g in st.handlers && g != h && g != rh ==> r.handlers[g] == st.handlers[g]
  {
    PrivateLine(st, h, recipient, text);
  }

  /**
   * `PRIVATE:<r>:<text>` where `<r>` is registered to the sender itself: the sender gets its
   * own message as `MESSAGE:<sender>:<text>` and then `SENT:<r>:<text>`, and no other outbox
   * changes.
   */
  lemma PrivateToSelf(st: State, h: HandlerId, recipient: string, text: string)
    requires Valid(st) && h in st.handlers && ':' !in recipient
    requires recipient in st.users && st.users[recipient] == h
    ensures var r := HandleLine(st, h, "PRIVATE:" + recipient + ":" + text).state;
            && r.handlers[h].outbox == st.handlers[h].outbox
                 + ["MESSAGE:" + TextOf(st.handlers[h].username) + ":" + text, "SENT:" + recipient + ":" + text]
            && forall g :: g in st.handlers && g != h ==> r.handlers[g] == st.handlers[g]
  {
    PrivateLine(st, h, recipient, text);
  }

  /** To an offline recipient, the sender alone gets exactly one error line. */
  lemma PrivateToOffline(st: State, h: HandlerId, recipient: string, text: string)
    requires Valid(st) && h in st.handlers && ':' !in recipient
    requires recipient !in st.users
    ensures var r := HandleLine(st, h, "PRIVATE:" + recipient + ":" + text).state;
            && r.handlers[h].outbox == st.handlers[h].outbox + ["ERROR:User " + recipient + " is not online"]
            && forall g :: g in st.handlers && g != h ==> r.handlers[g] == st.handlers[g]
  {
    PrivateLine(st, h, recipient, text);
  }

  /** A `PRIVATE:` payload with no colon is ignored. */
  lemma PrivateWithoutSeparatorIgnored(st: State, h: HandlerId, line: string)
    requires Valid(st) && h in st.handlers
    requires StartsWith(line, "PRIVATE:") && ':' !in line[8..]
    ensures HandleLine(st, h, line) == Step(st, false)
  {
  }

  /** Lines other than `PRIVATE:...`, `GET_USERS` and `DISCONNECT` change nothing. */
  lemma OtherLinesSilent(st: State, h: HandlerId, line: string)
    requires Valid(st) && h in st.handlers
    requires !StartsWith(line, "PRIVATE:") && line != "GET_USERS" && line != "DISCONNECT"
    ensures HandleLine(st, h, line) == Step(st, false)
  {
  }

  /**
   * `GET_USERS` answers the requester alone, with one line listing every registered name
   * except the requester's own, each exactly once.
   */
  lemma GetUsersReply(st: State, h: HandlerId)
    requires Valid(st) && h in st.handlers
    ensures var r := HandleLine(st, h, "GET_USERS").state;
            var names := Listed(st.order, st.handlers[h].username);
            && r.handlers[h].outbox == st.handlers[h].outbox + ["USERS:" + CommaTerminated(names)]
            && (forall g :: g in st.handlers && g != h ==> r.handlers[g] == st.handlers[g])
            && Distinct(names)
            && forall n :: n in names <==> n in st.users && st.handlers[h].username != Some(n)
  {
    assert "GET_USERS"[..8][0] == 'G';
  }

  /** A non-blank name: the handshake admits the handler, then sends everybody the user lists. */
  lemma HandshakeAdmits(st: State, h: HandlerId, u: string)
    requires Valid(st) && h in st.handlers && st.handlers[h].username.None? && !IsBlank(u)
    ensures DoHandshake(st, h, Some(u)).state == BroadcastOnlineUsers(Admit(st, h, u))
  {
  }

  /** Registration: the handler is told `SUCCESS` and then gets its own user list. */
  lemma RegistrationRepliesToNewcomer(st: State, h: HandlerId, u: string)
    requires Valid(st) && h in st.handlers && st.handlers[h].username.None? && !IsBlank(u)
    ensures var r := DoHandshake(st, h, Some(u)).state;
            r.handlers[h].outbox == st.handlers[h].outbox + ["SUCCESS:Connected as " + u, UsersLine(r.order, Some(u))]
  {
    var admitted := Admit(st, h, u);
    HandshakeAdmits(st, h, u);
    assert IsListed(admitted, h);
    BroadcastAt(admitted, h);
    var line := UsersLine(admitted.order, Some(u));
    assert Heard(admitted, h) == [line];
    AppendTwo(st.handlers[h].outbox, "SUCCESS:Connected as " + u, line);
  }

  lemma AppendTwo(out: seq<string>, a: string, b: string)
    ensures out + [a] + [b] == out + [a, b]
  {
  }

  /**
   * Registration, seen by another handler: one that stays registered gets one user list of
   * its own view, and the rest (among them a handler whose name was just taken over) get
   * nothing.
   */
  lemma RegistrationRepliesToOthers(st: State, h: HandlerId, u: string, g: HandlerId)
    requires Valid(st) && h in st.handlers && st.handlers[h].username.None? && !IsBlank(u)
    requires g in st.handlers && g != h
    ensures var r := DoHandshake(st, h, Some(u)).state;
            r.handlers[g].outbox ==
              if IsListed(st, g) && st.handlers[g].username != Some(u)
              then st.handlers[g].outbox + [UsersLine(r.order, st.handlers[g].username)]
              else st.handlers[g].outbox
  {
    var admitted := Admit(st, h, u);
    HandshakeAdmits(st, h, u);
    assert admitted.handlers[g] == st.handlers[g];
    assert IsListed(admitted, g) <==> IsListed(st, g) && st.handlers[g].username != Some(u);
    BroadcastAt(admitted, g);
  }

  /**
   * A blank name is never registered, yet `disconnect` runs twice on the way out, each time
   * sending a user list to every registered handler.
   */
  lemma BlankNameBroadcastsTwice(st: State, h: HandlerId, u: string, lines: seq<string>, g: HandlerId)
    requires Valid(st) && h in st.handlers && st.handlers[h].username.None? && IsBlank(u)
    requires g in st.handlers && IsListed(st, g)
    ensures var r := RunSession(st, h, Some(u), lines);
            && r.users == st.users
            && r.handlers[g].outbox ==
                 st.handlers[g].outbox + [UsersLine(st.order, st.handlers[g].username), UsersLine(st.order, st.handlers[g].username)]
  {
    var hs := DoHandshake(st, h, Some(u));
    assert g != h;
    assert IsListed(hs.state, g);
    AbandonBroadcastsTwice(hs.state, h, g);
  }

  /** Removing a name that is not there changes nothing. */
  lemma {:induction false} WithoutAbsent(s: seq<string>, x: string)
    requires x !in s
    ensures Without(s, x) == s
  {
    if |s| > 0 {
      assert x !in s[1..] by { assert forall y :: y in s[1..] ==> y in s; }
      WithoutAbsent(s[1..], x);
      assert s == [s[0]] + s[1..];
    }
  }

  /**
   * Overwrite and eviction: when a second handler registers a name already held, the name
   * maps to the newcomer; when the first handler then disconnects, it removes the name even
   * though the newcomer holds it, leaving the newcomer connected but unlisted.
   */
  lemma StaleDisconnectEvicts(st: State, h1: HandlerId, h2: HandlerId, u: string)
    requires Valid(st) && h2 in st.handlers && st.handlers[h2].username.None?
    requires u in st.users && st.users[u] == h1
    ensures var taken := DoHandshake(st, h2, Some(u)).state;
            && taken.users[u] == h2
            && h1 in taken.handlers && taken.handlers[h1].username == Some(u)
            && u !in Disconnect(taken, h1).users
            && h2 in Disconnect(taken, h1).handlers
  {
    assert h1 != h2;
  }
}

=== FILE: private_client.dfy ===
/**
 * The private-chat client of `PrivateChatController`: its handshake, the frames it sends, the
 * way it reads the frames of the directory server, the per-peer message history, and the
 * user-list search box.
 */
module PrivateClient {
  import opened Wrappers
  import opened JavaText
  import PrivateChat

  // ---------------------------------------------------------------------------------------
  // handshake

  /** What the client did during the handshake: the lines it wrote, and whether it went online. */
  datatype Handshake = Handshake(sent: seq<string>, connected: bool)

  /**
   * The handshake thread: the user name is written only when the first line is exactly
   * `ENTER_USERNAME`; the client is online only when the next line starts with `SUCCESS:`.
   * A missing line (end of stream) stops the thread at that point.
   */
  function ClientHandshake(prompt: Option<string>, response: Option<string>, user: string): (r: Handshake)
    ensures r.sent == [user] <==> prompt == Some("ENTER_USERNAME")
    ensures r.sent != [user] ==> r.sent == []
    ensures r.connected <==> prompt.Some? && response.Some? && StartsWith(response.value, "SUCCESS:")
  {
    match prompt
    case None => Handshake([], false)
    case Some(p) =>
      var sent := if p == "ENTER_USERNAME" then [user] else [];
      Handshake(sent, response.Some? && StartsWith(response.value, "SUCCESS:"))
  }

  /**
   * Against the directory server, a non-blank name goes through: the first two lines a new
   * handler writes are the prompt and the `SUCCESS` reply, so the client sends its name and
   * goes online.
   */
  lemma HandshakeWithServer(st: PrivateChat.State, h: PrivateChat.HandlerId, user: string)
    requires PrivateChat.Valid(st) && h !in st.handlers && !IsBlank(user)
    ensures var joined := PrivateChat.Connect(st, h);
            var out := PrivateChat.DoHandshake(joined, h, Some(user)).state.handlers[h].outbox;
            && |out| >= 2
            && ClientHandshake(Some(out[0]), Some(out[1]), user) == Handshake([user], true)
  {
    ServerGreeting(st, h, user);
    var out := PrivateChat.DoHandshake(PrivateChat.Connect(st, h), h, Some(user)).state.handlers[h].outbox;
    GreetingAccepted(out, user);
  }

  /** The client's reading of a prompt followed by a `SUCCESS` reply. */
  lemma GreetingAccepted(out: seq<string>, user: string)
    requires |out| >= 2 && out[..2] == ["ENTER_USERNAME", "SUCCESS:Connected as " + user]
    ensures ClientHandshake(Some(out[0]), Some(out[1]), user) == Handshake([user], true)
  {
    assert out[0] == out[..2][0];
    assert out[1] == out[..2][1];
    assert out[1][..8] == "SUCCESS:";
  }

  /** The first two lines the directory server writes to a new handler with a non-blank name. */
  lemma ServerGreeting(st: PrivateChat.State, h: PrivateChat.HandlerId, user: string)
    requires PrivateChat.Valid(st) && h !in st.handlers && !IsBlank(user)
    ensures var out := PrivateChat.DoHandshake(PrivateChat.Connect(st, h), h, Some(user)).state.handlers[h].outbox;
            |out| >= 2 && out[..2] == ["ENTER_USERNAME", "SUCCESS:Connected as " + user]
  {
    var joined := PrivateChat.Connect(st, h);
    var admitted := PrivateChat.Admit(joined, h, user);
    assert admitted.handlers[h].outbox == ["ENTER_USERNAME", "SUCCESS:Connected as " + user];
    assert PrivateChat.IsListed(admitted, h);
    var done := PrivateChat.BroadcastOnlineUsers(admitted);
    assert PrivateChat.DoHandshake(joined, h, Some(user)).state == done;
    assert done.handlers[h].outbox[..2] == admitted.handlers[h].outbox;
  }

  // ---------------------------------------------------------------------------------------
  // sending

  /** The frame `handleSendMessage` writes. */
  function PrivateFrame(peer: string, text: string): string {
    "PRIVATE:" + peer + ":" + text
  }

  datatype SendOutcome = Sent(frame: string) | NotConnected | NothingToSend

  /**
   * `handleSendMessage`: nothing happens for blank input or when no peer is open; when
   * offline the user is alerted instead; otherwise the trimmed text goes to the open peer.
   */
  function HandleSend(input: string, peer: Option<string>, connected: bool): (r: SendOutcome)
    ensures r.NothingToSend? <==> IsBlank(input) || peer.None?
    ensures r.NotConnected? <==> !IsBlank(input) && peer.Some? && !connected
    ensures r.Sent? ==> r.frame == PrivateFrame(peer.value, Trim(input)) && Trim(input) != []
  {
    BlankIsTrimEmpty(input);
    var text := Trim(input);
    if text == [] || peer.None? then NothingToSend
    else if !connected then NotConnected
    else Sent(PrivateFrame(peer.value, text))
  }

  /** The server's limit-2 split gives back the peer and the whole text, colons and all. */
  lemma FrameReachesServer(st: PrivateChat.State, h: PrivateChat.HandlerId, peer: string, text: string)
    requires PrivateChat.Valid(st) && h in st.handlers && ':' !in peer
    ensures PrivateChat.HandleLine(st, h, PrivateFrame(peer, text))
            == PrivateChat.Step(PrivateChat.SendPrivate(st, h, peer, text), false)
  {
    PrivateChat.PrivateLine(st, h, peer, text);
  }

  // ---------------------------------------------------------------------------------------
  // receiving

  /** What `listenForMessages` makes of one line. */
  datatype Incoming =
    | OnlineUsers(names: seq<string>)
    | Received(sender: string, content: string)
    | Confirmed(recipient: string, content: string)
    | Alert(text: string)
    | Dropped

  /**
   * `listenForMessages`: `MESSAGE:` and `SENT:` payloads are split with limit 2 into the other
   * party and the text; one without a colon is dropped. Unknown lines are dropped too.
   */
  function Decode(line: string): (r: Incoming)
    ensures r.OnlineUsers? <==> StartsWith(line, "USERS:")
    ensures r.Received? ==> ':' !in r.sender && line == "MESSAGE:" + r.sender + ":" + r.content
    ensures r.Confirmed? ==> ':' !in r.recipient && line == "SENT:" + r.recipient + ":" + r.content
    ensures r.Alert? ==> line == "ERROR:" + r.text
  {
    if StartsWith(line, "USERS:") then OnlineUsers(UpdateOnlineUsers(line[6..]))
    else if StartsWith(line, "MESSAGE:") then
      var parts := PartyAndText(line, 8);
      if parts.Some? then Received(parts.value.0, parts.value.1) else Dropped
    else if StartsWith(line, "SENT:") then
      var parts := PartyAndText(line, 5);
      if parts.Some? then Confirmed(parts.value.0, parts.value.1) else Dropped
    else if StartsWith(line, "ERROR:") then
      assert line == line[..6] + line[6..];
      Alert(line[6..])
    else Dropped
  }

  /** The limit-2 split of what follows an `n`-character prefix, when it yields two fields. */
  function PartyAndText(line: string, n: nat): (r: Option<(string, string)>)
    requires n <= |line|
    ensures r.Some? ==> ':' !in r.value.0 && line == line[..n] + r.value.0 + ":" + r.value.1
  {
    var parts := SplitLimit(line[n..], ':', 2);
    if |parts| == 2 then
      PrefixAndPair(line, n, parts);
      Some((parts[0], parts[1]))
    else None
  }

  /** A line is its prefix followed by the two joined fields of what comes after it. */
  lemma PrefixAndPair(line: string, n: nat, parts: seq<string>)
    requires n <= |line| && |parts| == 2 && JoinWith(parts, ':') == line[n..]
    ensures line == line[..n] + parts[0] + ":" + parts[1]
  {
    assert JoinWith(parts, ':') == parts[0] + [':'] + parts[1];
    assert line == line[..n] + line[n..];
  }

  /** A delivered message decodes to its sender and the whole text. */
  lemma MessageDecoded(sender: string, text: string)
    requires ':' !in sender
    ensures Decode("MESSAGE:" + sender + ":" + text) == Received(sender, text)
  {
    var line := "MESSAGE:" + sender + ":" + text;
    assert line[..8] == "MESSAGE:";
    assert !StartsWith(line, "USERS:") by { assert line[0] == 'M'; }
    assert line[8..] == sender + [':'] + text;
    SplitLimitTwo(line[8..], ':', sender, text);
  }

  /** A delivery confirmation decodes to its recipient and the whole text. */
  lemma ConfirmationDecoded(recipient: string, text: string)
    requires ':' !in recipient
    ensures Decode("SENT:" + recipient + ":" + text) == Confirmed(recipient, text)
  {
    var line := "SENT:" + recipient + ":" + text;
    assert line[..5] == "SENT:";
    assert !StartsWith(line, "USERS:") && !StartsWith(line, "MESSAGE:") by { assert line[0] == 'S'; }
    assert line[5..] == recipient + [':'] + text;
    SplitLimitTwo(line[5..], ':', recipient, text);
  }

  /** The server's offline error reaches the user as an alert naming the recipient. */
  lemma OfflineErrorDecoded(recipient: string)
    ensures Decode("ERROR:User " + recipient + " is not online") == Alert("User " + recipient + " is not online")
  {
    var line := "ERROR:User " + recipient + " is not online";
    assert line[..6] == "ERROR:";
    assert !StartsWith(line, "USERS:") && !StartsWith(line, "MESSAGE:") && !StartsWith(line, "SENT:") by { assert line[0] == 'E'; }
  }

  /**
   * End to end: a frame the client sends to an online peer reaches that peer's socket as a
   * line its client decodes to the sender's name and the original text, and the sender's own
   * socket gets a line its client decodes to the peer and the same text.
   */
  lemma PrivateRoundTrip(st: PrivateChat.State, h: PrivateChat.HandlerId, me: string, peer: string, text: string)
    requires PrivateChat.Valid(st) && h in st.handlers && st.handlers[h].username == Some(me)
    requires ':' !in me && ':' !in peer && peer in st.users && st.users[peer] != h
    ensures var r := PrivateChat.HandleLine(st, h, PrivateFrame(peer, text)).state;
            var out := r.handlers[st.users[peer]].outbox;
            var back := r.handlers[h].outbox;
            && |out| > 0 && Decode(out[|out| - 1]) == Received(me, text)
            && |back| > 0 && Decode(back[|back| - 1]) == Confirmed(peer, text)
  {
    PrivateChat.PrivateToOnline(st, h, peer, text);
    MessageDecoded(me, text);
    ConfirmationDecoded(peer, text);
  }

  // ---------------------------------------------------------------------------------------
  // the online-user list

  /** Each piece trimmed; the pieces that trim to nothing are left out. */
  function KeepNames(parts: seq<string>): (r: seq<string>)
    ensures |r| <= |parts|
    ensures forall i :: 0 <= i < |r| ==> r[i] != [] && IsTrimmed(r[i])
  {
    if |parts| == 0 then []
    else
      var name := Trim(parts[0]);
      (if name != [] then [name] else []) + KeepNames(parts[1..])
  }

  /** `updateOnlineUsers`: the payload of `USERS:` split on commas, trimmed, empties dropped. */
  function UpdateOnlineUsers(list: string): (r: seq<string>)
    ensures forall i :: 0 <= i < |r| ==> r[i] != [] && IsTrimmed(r[i])
    ensures list == [] ==> r == []
  {
    if list == [] then [] else KeepNames(SplitNoLimit(list, ','))
  }

  /** The server's comma-terminated list is a join with one empty piece at the end. */
  lemma {:induction false} CommaTerminatedIsJoin(names: seq<string>)
    ensures PrivateChat.CommaTerminated(names) == JoinWith(names + [[]], ',')
  {
    if |names| > 0 {
      CommaTerminatedIsJoin(names[1..]);
      assert (names + [[]])[1..] == names[1..] + [[]];
    }
  }

  /** Names that are already trimmed and non-empty pass through unchanged. */
  lemma {:induction false} KeepTrimmedNames(names: seq<string>)
    requires forall i :: 0 <= i < |names| ==> names[i] != [] && IsTrimmed(names[i])
    ensures KeepNames(names) == names
  {
    if |names| > 0 {
      TrimOfTrimmed(names[0]);
      KeepTrimmedNames(names[1..]);
      assert names == [names[0]] + names[1..];
    }
  }

  /**
   * The client's parse inverts the server's list whenever the names are non-empty, have no
   * comma and no surrounding blanks.
   */
  lemma UsersRoundTrip(names: seq<string>)
    requires forall i :: 0 <= i < |names| ==> names[i] != [] && IsTrimmed(names[i]) && ',' !in names[i]
    ensures UpdateOnlineUsers(PrivateChat.CommaTerminated(names)) == names
  {
    CommaTerminatedIsJoin(names);
    if |names| > 0 {
      SplitCommaTerminated(names);
      KeepTrimmedNames(names);
    }
  }

  /** Split without a limit, a non-empty comma-terminated list loses only its final empty piece. */
  lemma SplitCommaTerminated(names: seq<string>)
    requires |names| > 0 && names[|names| - 1] != []
    requires forall i :: 0 <= i < |names| ==> ',' !in names[i]
    ensures SplitNoLimit(JoinWith(names + [[]], ','), ',') == names
  {
    var parts := names + [[]];
    var s := JoinWith(parts, ',');
    SplitAllOfJoin(parts, ',');
    assert s == names[0] + [','] + JoinWith(parts[1..], ',');
    assert s[|names[0]|] == ',';
    assert parts[..|parts| - 1] == names;
    assert DropTrailingEmpty(parts) == DropTrailingEmpty(names);
  }

  /**
   * A `USERS:` line from the server shows exactly the names it listed, provided the
   * registered names are trimmed and comma-free.
   */
  lemma UsersLineDecoded(order: seq<string>, self: Option<string>)
    requires forall i :: 0 <= i < |order| ==> order[i] != [] && IsTrimmed(order[i]) && ',' !in order[i]
    ensures Decode(PrivateChat.UsersLine(order, self)) == OnlineUsers(PrivateChat.Listed(order, self))
  {
    var names := PrivateChat.Listed(order, self);
    forall i | 0 <= i < |names| ensures names[i] != [] && IsTrimmed(names[i]) && ',' !in names[i] {
      assert names[i] in names;
    }
    UsersRoundTrip(names);
    var line := PrivateChat.UsersLine(order, self);
    assert line[..6] == "USERS:";
    assert line[6..] == PrivateChat.CommaTerminated(names);
  }

  // ---------------------------------------------------------------------------------------
  // history

  /** A `ChatMessage` as kept in the history (its local timestamp is left out). */
  datatype Entry = Entry(sender: string, content: string, sentByMe: bool)

  type History = map<string, seq<Entry>>

  function Thread(history: History, peer: string): seq<Entry> {
    if peer in history then history[peer] else []
  }

  /** `computeIfAbsent(peer, ...).add(entry)`: the entry goes at the end of that peer's thread. */
  function Append(history: History, peer: string, entry: Entry): (r: History)
    ensures r.Keys == history.Keys + {peer}
    ensures Thread(r, peer) == Thread(history, peer) + [entry]
    ensures forall p :: p != peer ==> Thread(r, p) == Thread(history, p)
  {
    history[peer := Thread(history, peer) + [entry]]
  }

  /** The other party of a decoded line, if it is one the history records. */
  function Party(e: Incoming): Option<string> {
    match e
    case Received(sender, _) => Some(sender)
    case Confirmed(recipient, _) => Some(recipient)
    case _ => None
  }

  /** The history entry for a received message (`receiveMessage`) or a confirmation (`addSentMessage`). */
  function EntryOf(me: string, e: Incoming): Entry
    requires Party(e).Some?
  {
    match e
    case Received(sender, content) => Entry(sender, content, false)
    case Confirmed(_, content) => Entry(me, content, true)
  }

  /** One decoded line applied to the history. */
  function Record(history: History, me: string, e: Incoming): (r: History)
    ensures forall p :: Party(e) != Some(p) ==> Thread(r, p) == Thread(history, p)
    ensures Party(e).Some? ==> Thread(r, Party(e).value) == Thread(history, Party(e).value) + [EntryOf(me, e)]
  {
    if Party(e).Some? then Append(history, Party(e).value, EntryOf(me, e)) else history
  }

  /** The listener thread: every line, in arrival order. */
  function RecordAll(history: History, me: string, events: seq<Incoming>): History
    decreases |events|
  {
    if |events| == 0 then history else RecordAll(Record(history, me, events[0]), me, events[1..])
  }

  /** The entries a sequence of lines contributes to one peer's thread, in order. */
  function About(me: string, events: seq<Incoming>, peer: string): seq<Entry> {
    if |events| == 0 then []
    else (if Party(events[0]) == Some(peer) then [EntryOf(me, events[0])] else []) + About(me, events[1..], peer)
  }

  /**
   * Each peer's thread is the old thread followed by exactly the messages received from and
   * confirmed to that peer, in the order they arrived; other traffic leaves it alone.
   */
  lemma {:induction false} HistoryKeepsOrder(history: History, me: string, events: seq<Incoming>, peer: string)
    ensures Thread(RecordAll(history, me, events), peer) == Thread(history, peer) + About(me, events, peer)
    decreases |events|
  {
    if |events| > 0 {
      HistoryKeepsOrder(Record(history, me, events[0]), me, events[1..], peer);
    }
  }

  // ---------------------------------------------------------------------------------------
  // search box

  /** Case-insensitive substring match (ASCII case mapping). */
  predicate Matches(user: string, query: string) {
    Contains(ToLower(user), ToLower(query))
  }

  /** `filterUsers`: no query or an empty one shows everybody, otherwise the matching names in order. */
  function FilterUsers(users: seq<string>, query: Option<string>): (r: seq<string>)
    ensures query.None? || query.value == [] ==> r == users
    ensures forall u :: u in r <==> u in users && (query.None? || query.value == [] || Matches(u, query.value))
    ensures forall u :: multiset(r)[u]
              == if query.None? || query.value == [] || Matches(u, query.value) then multiset(users)[u] else 0
  {
    if query.None? || query.value == [] then users else Keep(users, query.value)
  }

  /** The matching users, each as often as it occurs. */
  function Keep(users: seq<string>, query: string): (r: seq<string>)
    ensures forall u :: u in r <==> u in users && Matches(u, query)
    ensures forall u :: multiset(r)[u] == if Matches(u, query) then multiset(users)[u] else 0
  {
    if |users| == 0 then []
    else
      assert users == [users[0]] + users[1..];
      (if Matches(users[0], query) then [users[0]] else []) + Keep(users[1..], query)
  }

  /** `sub` can be obtained from `s` by deleting elements. */
  predicate SubsequenceOf(sub: seq<string>, s: seq<string>)
    decreases |s|
  {
    if |sub| == 0 then true
    else if |s| == 0 then false
    else if sub[0] == s[0] then SubsequenceOf(sub[1..], s[1..])
    else SubsequenceOf(sub, s[1..])
  }

  /** Anything that fits in `s[1..]` fits in `s`. */
  lemma {:induction false} SubsequenceOfTail(sub: seq<string>, s: seq<string>)
    requires |s| > 0 && SubsequenceOf(sub, s[1..])
    ensures SubsequenceOf(sub, s)
    decreases |s|, 0
  {
    if |sub| > 0 && sub[0] == s[0] {
      SubsequenceShrink(sub, s[1..]);
    }
  }

  /** Dropping the first element of a subsequence leaves a subsequence. */
  lemma {:induction false} SubsequenceShrink(sub: seq<string>, s: seq<string>)
    requires |sub| > 0 && SubsequenceOf(sub, s)
    ensures SubsequenceOf(sub[1..], s)
    decreases |s|, 1
  {
    if sub[0] == s[0] {
      SubsequenceOfTail(sub[1..], s);
    } else {
      SubsequenceShrink(sub, s[1..]);
      SubsequenceOfTail(sub[1..], s);
    }
  }

  /** The filtered list keeps the original order: it is a subsequence of the online users. */
  lemma {:induction false} FilterKeepsOrder(users: seq<string>, query: Option<string>)
    ensures SubsequenceOf(FilterUsers(users, query), users)
  {
    if query.None? || query.value == [] {
      SubsequenceReflexive(users);
    } else {
      KeepIsSubsequence(users, query.value);
    }
  }

  lemma {:induction false} SubsequenceReflexive(s: seq<string>)
    ensures SubsequenceOf(s, s)
  {
    if |s| > 0 {
      SubsequenceReflexive(s[1..]);
    }
  }

  lemma {:induction false} KeepIsSubsequence(users: seq<string>, query: string)
    ensures SubsequenceOf(Keep(users, query), users)
  {
    if |users| > 0 {
      KeepIsSubsequence(users[1..], query);
      var rest := Keep(users[1..], query);
      if Matches(users[0], query) {
        assert Keep(users, query) == [users[0]] + rest;
        assert ([users[0]] + rest)[1..] == rest;
      } else {
        assert Keep(users, query) == rest;
        if |rest| > 0 {
          SubsequenceOfTail(rest, users);
        }
      }
    }
  }
}

=== FILE: time_ago.dfy ===
/**
 * The "time ago" labels of `TripPost.getTimeAgo` and `Notification.getTimeAgo`, as functions
 * of the elapsed whole minutes (the clock is a parameter). Both pick the largest unit whose
 * threshold is passed and show the elapsed time rounded down in that unit.
 */
module TimeAgo {
  import opened JavaText

  const MinutesPerHour: nat := 60
  const MinutesPerDay: nat := 60 * 24
  const MinutesPerWeek: nat := 60 * 24 * 7

  /** The unit a label is written in, and the count shown. */
  datatype Bucket = JustNow | Minutes(n: nat) | Hours(n: nat) | Days(n: nat) | Weeks(n: nat) | Dated

  /** `hours = minutes / 60`, `days = hours / 24`, `weeks = days / 7`: each is a floor of the minutes. */
  lemma NestedFloors(m: nat)
    ensures m / 60 / 24 == m / MinutesPerDay
    ensures m / 60 / 24 / 7 == m / MinutesPerWeek
  {
    var d := m / MinutesPerDay;
    var rest := m % MinutesPerDay;
    assert m == d * 1440 + rest && 0 <= rest < 1440;
    assert m / 60 == d * 24 + rest / 60 by {
      assert m == (d * 24 + rest / 60) * 60 + rest % 60;
    }
    assert m / 60 / 24 == d;
    var w := m / MinutesPerWeek;
    var wrest := m % MinutesPerWeek;
    assert m == w * 10080 + wrest && 0 <= wrest < 10080;
    assert d == w * 7 + wrest / 1440 by {
      assert m == (w * 7 + wrest / 1440) * 1440 + wrest % 1440;
    }
  }

  /**
   * `Notification.getTimeAgo`'s choice of unit: under a minute (negative included) is "just
   * now"; otherwise the count is the elapsed time rounded down to whole minutes, hours, days or
   * weeks, in the largest unit whose count is at least one, and weeks have no upper bound.
   */
  function NotificationBucket(m: int): (b: Bucket)
    ensures b.JustNow? <==> m < 1
    ensures !b.Dated?
    ensures b.Minutes? ==> b.n == m && 1 <= m < 60
    ensures b.Hours? ==> 1 <= b.n < 24 && b.n == m / MinutesPerHour
    ensures b.Days? ==> 1 <= b.n < 7 && b.n == m / MinutesPerDay
    ensures b.Weeks? ==> 1 <= b.n && b.n == m / MinutesPerWeek
  {
    if m < 1 then JustNow
    else if m < 60 then Minutes(m)
    else
      var hours := m / 60;
      NestedFloors(m);
      if hours < 24 then Hours(hours)
      else
        var days := hours / 24;
        if days < 7 then Days(days)
        else Weeks(days / 7)
  }

  /** `TripPost.getTimeAgo`'s choice: the same up to a week; from a week on, a date is shown. */
  function PostBucket(m: int): (b: Bucket)
    ensures !b.Weeks?
  {
    if m < 1 then JustNow
    else if m < 60 then Minutes(m)
    else
      var hours := m / 60;
      if hours < 24 then Hours(hours)
      else
        var days := hours / 24;
        if days < 7 then Days(days)
        else Dated
  }

  /** The two labels agree below a week; from a week on, the post shows its date instead. */
  lemma PostAgreesWithNotification(m: int)
    ensures m < MinutesPerWeek ==> PostBucket(m) == NotificationBucket(m)
    ensures m >= MinutesPerWeek ==> PostBucket(m).Dated?
  {
    if m >= 60 {
      NestedFloors(m);
    }
  }

  /** The unit word, singular or plural. */
  function UnitWord(b: Bucket, plural: bool): string
    requires b.Minutes? || b.Hours? || b.Days? || b.Weeks?
  {
    var word := match b
      case Minutes(_) => "minute"
      case Hours(_) => "hour"
      case Days(_) => "day"
      case Weeks(_) => "week";
    if plural then word + "s" else word
  }

  /**
   * The notification label: minutes are always plural (`1 minutes ago`), the other units are
   * singular exactly when the count is one.
   */
  function NotificationText(m: int): (r: string)
  {
    var b := NotificationBucket(m);
    if b.JustNow? then "Just now"
    else NatToString(b.n) + " " + UnitWord(b, b.Minutes? || b.n > 1) + " ago"
  }

  /** The post label: every unit is plural (`1 hours ago`); a week or more shows `date`. */
  function PostText(m: int, date: string): (r: string)
  {
    var b := PostBucket(m);
    if b.JustNow? then "Just now"
    else if b.Dated? then date
    else NatToString(b.n) + " " + UnitWord(b, true) + " ago"
  }

  /** The leading run of digits of `s`. */
  function LeadingDigits(s: string): (r: string)
    ensures |r| <= |s| && r == s[..|r|]
    ensures forall i :: 0 <= i < |r| ==> IsDigit(r[i])
  {
    if |s| == 0 || !IsDigit(s[0]) then [] else [s[0]] + LeadingDigits(s[1..])
  }

  lemma {:induction false} LeadingDigitsOfNumber(digits: string, rest: string)
    requires forall i :: 0 <= i < |digits| ==> IsDigit(digits[i])
    requires rest != [] && !IsDigit(rest[0])
    ensures LeadingDigits(digits + rest) == digits
  {
    if |digits| > 0 {
      assert (digits + rest)[1..] == digits[1..] + rest;
      LeadingDigitsOfNumber(digits[1..], rest);
    }
  }

  /** A label `<n> <word> ago` starts with the digits of `n`. */
  lemma LabelReadsBack(n: nat, word: string)
    ensures ParseDigits(LeadingDigits(NatToString(n) + " " + word + " ago")) == n
  {
    var digits := NatToString(n);
    assert digits + " " + word + " ago" == digits + (" " + word + " ago");
    LeadingDigitsOfNumber(digits, " " + word + " ago");
    NatToStringRoundTrip(n);
  }

  /**
   * Reading a notification label back: the number it starts with is the count of its bucket,
   * and the unit word is singular exactly for a count of one hour, day or week.
   */
  lemma NotificationTextReadsBack(m: int)
    requires m >= 1
    ensures var b := NotificationBucket(m);
            var text := NotificationText(m);
            && ParseDigits(LeadingDigits(text)) == b.n
            && text == NatToString(b.n) + " " + UnitWord(b, b.Minutes? || b.n != 1) + " ago"
  {
    var b := NotificationBucket(m);
    var word := UnitWord(b, b.Minutes? || b.n > 1);
    assert NotificationText(m) == NatToString(b.n) + " " + word + " ago";
    LabelReadsBack(b.n, word);
  }

  /** Reading a post label back below a week: the number it starts with is the count of its bucket. */
  lemma PostTextReadsBack(m: int, date: string)
    requires 1 <= m < MinutesPerWeek
    ensures var b := PostBucket(m);
            && ParseDigits(LeadingDigits(PostText(m, date))) == b.n
            && b == NotificationBucket(m)
  {
    var b := PostBucket(m);
    PostAgreesWithNotification(m);
    var word := UnitWord(b, true);
    assert PostText(m, date) == NatToString(b.n) + " " + word + " ago";
    LabelReadsBack(b.n, word);
  }
}

=== FILE: trip_service.dfy ===
/**
 * The in-memory part of `TripService`: the trip, group-chat and post maps, and the operations
 * on them. Fresh ids (`UUID.randomUUID`) and the clock are parameters; the backend calls made
 * along the way are left out, since their results do not change the local state.
 */
module TripService {
  import opened Wrappers
  import opened Trips

  datatype Store = Store(trips: map<string, Trip>, chats: map<string, GroupChat>, posts: map<string, TripPost>)

  /** `stream().filter(r -> r.getId().equals(id)).findFirst()` over a trip's requests. */
  function FindRequest(requests: seq<JoinRequest>, id: string): (r: Option<nat>)
    ensures r.Some? ==> r.value < |requests| && requests[r.value].id == id
    ensures r.Some? ==> forall k :: 0 <= k < r.value ==> requests[k].id != id
    ensures r.None? ==> forall k :: 0 <= k < |requests| ==> requests[k].id != id
    decreases |requests|
  {
    if |requests| == 0 then None
    else if requests[0].id == id then Some(0)
    else
      match FindRequest(requests[1..], id)
      case None => None
      case Some(k) => Some(k + 1)
  }

  /** The name of the chat created for a trip. */
  function ChatName(title: string): string {
    title + " - Group Chat"
  }

  /** The chat a trip already has, if its id names a stored chat. */
  predicate HasChat(st: Store, t: Trip) {
    t.groupChatId.Some? && t.groupChatId.value in st.chats
  }

  // ---------------------------------------------------------------------------------------
  // approve / reject

  /** The result of `approveJoinRequest`: the new store and the returned chat (`null` is `None`). */
  datatype Approval = Approval(store: Store, chat: Option<GroupChat>)

  /**
   * `approveJoinRequest(tripId, requestId)`, with `chatId` the id a new chat would get. An
   * unknown trip or request changes nothing and returns `null`. Otherwise the first request
   * with that id is approved and its requester added to the trip's members; the trip's chat,
   * if it has one, gains the requester too, and if not, a new chat of all members is stored
   * and linked to the trip. No other trip and no post changes.
   */
  function ApproveJoinRequest(st: Store, tripId: string, requestId: string, chatId: string): (r: Approval)
    ensures tripId !in st.trips || FindRequest(st.trips[tripId].joinRequests, requestId).None? ==> r == Approval(st, None)
    ensures tripId in st.trips && FindRequest(st.trips[tripId].joinRequests, requestId).Some? ==>
              var t := st.trips[tripId];
              var k := FindRequest(t.joinRequests, requestId).value;
              var requester := t.joinRequests[k].requester;
              && tripId in r.store.trips && r.chat.Some?
              && r.store.posts == st.posts
              && (forall id :: id in st.trips && id != tripId ==> id in r.store.trips && r.store.trips[id] == st.trips[id])
              && r.store.trips.Keys == st.trips.Keys
              && r.store.trips[tripId] == t.(joinRequests := r.store.trips[tripId].joinRequests,
                                             members := r.store.trips[tripId].members,
                                             groupChatId := r.store.trips[tripId].groupChatId)
              && r.store.trips[tripId].joinRequests == t.joinRequests[k := Approve(t.joinRequests[k])]
              && r.store.trips[tripId].members == AddIfAbsent(t.members, requester)
              && requester in r.chat.value.members
              && r.store.trips[tripId].groupChatId.Some?
              && r.store.chats == st.chats[r.store.trips[tripId].groupChatId.value := r.chat.value]
              && (HasChat(st, t) ==>
                    && r.store.trips[tripId].groupChatId == t.groupChatId
                    && r.chat.value == AddMember(st.chats[t.groupChatId.value], requester))
              && (!HasChat(st, t) ==>
                    && r.store.trips[tripId].groupChatId == Some(chatId)
                    && r.chat.value == NewGroupChat(chatId, tripId, ChatName(t.title), r.store.trips[tripId].members))
  {
    if tripId !in st.trips then Approval(st, None)
    else
      var t := st.trips[tripId];
      match FindRequest(t.joinRequests, requestId)
      case None => Approval(st, None)
      case Some(k) =>
        var request := t.joinRequests[k];
        var approved := ApproveMember(t.(joinRequests := t.joinRequests[k := Approve(request)]), request.requester);
        if HasChat(st, t) then
          var chat := AddMember(st.chats[t.groupChatId.value], request.requester);
          Approval(st.(trips := st.trips[tripId := approved], chats := st.chats[t.groupChatId.value := chat]), Some(chat))
        else
          var chat := NewGroupChat(chatId, tripId, ChatName(t.title), approved.members);
          var linked := approved.(groupChatId := Some(chatId));
          Approval(st.(trips := st.trips[tripId := linked], chats := st.chats[chatId := chat]), Some(chat))
  }

  /** A list without duplicates holds each of its elements exactly once. */
  lemma {:induction false} DistinctCount(s: seq<string>, x: string)
    requires Distinct(s)
    ensures multiset(s)[x] == if x in s then 1 else 0
  {
    if |s| > 0 {
      var tail := s[1..];
      assert Distinct(tail) by {
        forall a, b | 0 <= a < b < |tail| ensures tail[a] != tail[b] {
          assert tail[a] == s[a + 1] && tail[b] == s[b + 1];
        }
      }
      assert s[0] !in tail by {
        forall k | 0 <= k < |tail| ensures tail[k] != s[0] {
          assert tail[k] == s[k + 1];
        }
      }
      DistinctCount(tail, x);
      assert s == [s[0]] + tail;
      assert multiset(s) == multiset{s[0]} + multiset(tail);
    }
  }

  /**
   * On a trip whose member list has no duplicates, an approved requester is a member exactly
   * once afterwards, however often the request is approved, and the list stays free of
   * duplicates.
   */
  lemma ApprovedMemberOnce(st: Store, tripId: string, requestId: string, chatId: string)
    requires tripId in st.trips && Distinct(st.trips[tripId].members)
    requires FindRequest(st.trips[tripId].joinRequests, requestId).Some?
    ensures var t := st.trips[tripId];
            var requester := t.joinRequests[FindRequest(t.joinRequests, requestId).value].requester;
            var members := ApproveJoinRequest(st, tripId, requestId, chatId).store.trips[tripId].members;
            Distinct(members) && multiset(members)[requester] == 1
  {
    var t := st.trips[tripId];
    var requester := t.joinRequests[FindRequest(t.joinRequests, requestId).value].requester;
    var members := AddIfAbsent(t.members, requester);
    DistinctCount(members, requester);
  }

  /**
   * `rejectJoinRequest`: the first request with that id, and only it, becomes rejected;
   * members, chats and posts are untouched. An unknown trip or request changes nothing.
   */
  function RejectJoinRequest(st: Store, tripId: string, requestId: string): (r: Store)
    ensures tripId !in st.trips || FindRequest(st.trips[tripId].joinRequests, requestId).None? ==> r == st
    ensures r.chats == st.chats && r.posts == st.posts && r.trips.Keys == st.trips.Keys
    ensures forall id :: id in st.trips && id != tripId ==> r.trips[id] == st.trips[id]
    ensures tripId in st.trips ==>
              var t := st.trips[tripId];
              var u := r.trips[tripId];
              && u.(joinRequests := t.joinRequests) == t
              && |u.joinRequests| == |t.joinRequests|
              && forall k :: 0 <= k < |t.joinRequests| ==>
                   u.joinRequests[k] ==
                     if Some(k) == FindRequest(t.joinRequests, requestId) then Reject(t.joinRequests[k]) else t.joinRequests[k]
  {
    if tripId !in st.trips then st
    else
      var t := st.trips[tripId];
      match FindRequest(t.joinRequests, requestId)
      case None => st
      case Some(k) =>
        st.(trips := st.trips[tripId := t.(joinRequests := t.joinRequests[k := Reject(t.joinRequests[k])])])
  }

  // ---------------------------------------------------------------------------------------
  // request / post

  datatype Requested = Requested(store: Store, request: Option<JoinRequest>)

  /**
   * `requestToJoin(tripId, message)` by `user`, with `requestId` the new request's id: `null`
   * for an unknown or solo trip; otherwise a pending request from `user` is appended to the
   * trip and returned.
   */
  function RequestToJoin(st: Store, tripId: string, message: string, requestId: string, user: string): (r: Requested)
    ensures r.request.Some? <==> tripId in st.trips && IsGroupTrip(st.trips[tripId])
    ensures r.request.None? ==> r.store == st
    ensures r.request.Some? ==>
              && r.request.value == NewJoinRequest(requestId, tripId, user, message)
              && r.store == st.(trips := st.trips[tripId := AddJoinRequest(st.trips[tripId], r.request.value)])
  {
    if tripId !in st.trips || !IsGroupTrip(st.trips[tripId]) then Requested(st, None)
    else
      var request := NewJoinRequest(requestId, tripId, user, message);
      Requested(st.(trips := st.trips[tripId := AddJoinRequest(st.trips[tripId], request)]), Some(request))
  }

  datatype PostResult = PostResult(store: Store, post: Option<TripPost>)

  /**
   * `postTrip(tripId, content)` at time `now` by `author` (`null` is `None`), with `postId` the
   * new post's id: an unknown trip gives `null`; otherwise the trip becomes posted and a new
   * post with zero counters is stored under `postId`.
   */
  function PostTrip(st: Store, tripId: string, content: string, postId: string, author: Option<string>, now: int): (r: PostResult)
    ensures r.post.Some? <==> tripId in st.trips
    ensures r.post.None? ==> r.store == st
    ensures r.post.Some? ==>
              var p := r.post.value;
              && p.id == postId && p.likes == 0 && p.comments == 0 && p.shares == 0
              && p.tripId == tripId && p.author == author && p.content == content && p.postedAt == now
              && r.store.posts == st.posts[postId := p]
              && r.store.trips == st.trips[tripId := st.trips[tripId].(status := Posted)]
              && r.store.chats == st.chats
  {
    if tripId !in st.trips then PostResult(st, None)
    else
      var post := NewPost(postId, tripId, author, content, now);
      PostResult(Store(st.trips[tripId := st.trips[tripId].(status := Posted)], st.chats, st.posts[postId := post]), Some(post))
  }

  /**
   * After a post, the feed's store reads the returned post back under its own id, the trip is
   * the old trip with only its status changed to posted, and `getPostedTrips` now lists it.
   */
  lemma PostTripReadsBack(st: Store, tripId: string, content: string, postId: string, author: Option<string>, now: int)
    requires tripId in st.trips
    ensures var r := PostTrip(st, tripId, content, postId, author, now);
            && r.post.Some? && postId in r.store.posts
            && r.store.posts[postId] == r.post.value && r.store.posts[postId].id == postId
            && r.store.trips[tripId] == st.trips[tripId].(status := Posted)
            && PostedTrips([r.store.trips[tripId]]) == [r.store.trips[tripId]]
  {
    var r := PostTrip(st, tripId, content, postId, author, now);
    var t := r.store.trips[tripId];
    assert multiset(PostedTrips([t]))[t] == 1;
    assert forall u :: u in PostedTrips([t]) ==> u == t;
    PostedSingle(t);
  }

  /** A single posted trip is listed by itself. */
  lemma PostedSingle(t: Trip)
    requires t.status == Posted
    ensures PostedTrips([t]) == [t]
  {
    var r := PostedTrips([t]);
    assert multiset(r)[t] == 1;
    assert forall u :: u != t ==> multiset(r)[u] == 0;
    assert multiset(r) == multiset{t};
    assert |r| == |multiset(r)|;
    assert r[0] in r;
  }

  // ---------------------------------------------------------------------------------------
  // filters over the trips, in the map's iteration order

  /** `stream().filter(keep)`: each trip kept as often as it occurs, in the same order. */
  function Filter(ts: seq<Trip>, keep: Trip -> bool): (r: seq<Trip>)
    ensures forall t :: multiset(r)[t] == if keep(t) then multiset(ts)[t] else 0
    ensures forall i :: 0 <= i < |r| ==> keep(r[i])
    ensures forall t :: t in r <==> t in ts && keep(t)
  {
    if |ts| == 0 then []
    else
      var rest := Filter(ts[1..], keep);
      assert ts == [ts[0]] + ts[1..];
      if keep(ts[0]) then [ts[0]] + rest else rest
  }

  /** `getPostedTrips`: exactly the posted trips, each as often as it occurs. */
  function PostedTrips(ts: seq<Trip>): (r: seq<Trip>)
    ensures forall t :: t in r <==> t in ts && t.status == Posted
    ensures forall t :: multiset(r)[t] == if t.status == Posted then multiset(ts)[t] else 0
  {
    Filter(ts, (t: Trip) => t.status == Posted)
  }

  /** `getUserTrips`: exactly the trips created by `username`, each as often as it occurs. */
  function UserTrips(ts: seq<Trip>, username: string): (r: seq<Trip>)
    ensures forall t :: t in r <==> t in ts && t.creator == username
    ensures forall t :: multiset(r)[t] == if t.creator == username then multiset(ts)[t] else 0
  {
    Filter(ts, (t: Trip) => t.creator == username)
  }

  /** `getUserMemberTrips`: exactly the trips `username` is an approved member of, each as often as it occurs. */
  function MemberTrips(ts: seq<Trip>, username: string): (r: seq<Trip>)
    ensures forall t :: t in r <==> t in ts && username in t.members
    ensures forall t :: multiset(r)[t] == if username in t.members then multiset(ts)[t] else 0
  {
    Filter(ts, (t: Trip) => username in t.members)
  }

  // ---------------------------------------------------------------------------------------
  // news feed

  /** Newest first: no post is older than one after it. */
  predicate NewestFirst(s: seq<TripPost>) {
    forall i, j :: 0 <= i < j < |s| ==> s[i].postedAt >= s[j].postedAt
  }

  /** In a newest-first list the head is the newest post. */
  lemma HeadIsNewest(s: seq<TripPost>)
    requires NewestFirst(s) && |s| > 0
    ensures forall x :: x in s ==> x.postedAt <= s[0].postedAt
  {
    forall x | x in s ensures x.postedAt <= s[0].postedAt {
      var j :| 0 <= j < |s| && s[j] == x;
    }
  }

  /** A post no older than anything in a newest-first list may go in front of it. */
  lemma ConsNewestFirst(h: TripPost, t: seq<TripPost>)
    requires NewestFirst(t)
    requires forall x :: x in t ==> x.postedAt <= h.postedAt
    ensures NewestFirst([h] + t)
  {
    var s := [h] + t;
    forall i, j | 0 <= i < j < |s| ensures s[i].postedAt >= s[j].postedAt {
      if i > 0 {
        assert s[i] == t[i - 1] && s[j] == t[j - 1];
      } else {
        assert s[j] == t[j - 1] && s[j] in t;
      }
    }
  }

  /** One step of the sort: `p` placed before the first post older than it. */
  function Insert(p: TripPost, s: seq<TripPost>): (r: seq<TripPost>)
    requires NewestFirst(s)
    ensures NewestFirst(r)
    ensures forall x :: x in r ==> x == p || x in s
    ensures multiset(r) == multiset(s) + multiset{p}
  {
    if |s| == 0 then [p]
    else
      HeadIsNewest(s);
      if p.postedAt >= s[0].postedAt then
        ConsNewestFirst(p, s);
        [p] + s
      else
        assert s == [s[0]] + s[1..];
        var rest := Insert(p, s[1..]);
        ConsNewestFirst(s[0], rest);
        [s[0]] + rest
  }

  /** The posts of `s` stamped `time`, in their order in `s`. */
  function AtTime(s: seq<TripPost>, time: int): (r: seq<TripPost>)
    ensures forall x :: x in r ==> x in s && x.postedAt == time
  {
    if |s| == 0 then []
    else (if s[0].postedAt == time then [s[0]] else []) + AtTime(s[1..], time)
  }

  /** `Insert` goes in front of every post stamped like it, so equal-time posts keep their order. */
  lemma {:induction false} InsertAtTime(p: TripPost, s: seq<TripPost>, time: int)
    requires NewestFirst(s)
    ensures AtTime(Insert(p, s), time) == (if p.postedAt == time then [p] else []) + AtTime(s, time)
    decreases |s|
  {
    if |s| == 0 {
      assert Insert(p, s) == [p];
      AtTimeCons(p, s, time);
    } else if p.postedAt >= s[0].postedAt {
      InsertInFront(p, s);
      AtTimeCons(p, s, time);
    } else {
      InsertBehind(p, s);
      InsertAtTime(p, s[1..], time);
      AtTimeBehind(p, s, Insert(p, s[1..]), time);
    }
  }

  lemma InsertInFront(p: TripPost, s: seq<TripPost>)
    requires NewestFirst(s) && |s| > 0 && p.postedAt >= s[0].postedAt
    ensures Insert(p, s) == [p] + s
  {
  }

  lemma InsertBehind(p: TripPost, s: seq<TripPost>)
    requires NewestFirst(s) && |s| > 0 && p.postedAt < s[0].postedAt
    ensures NewestFirst(s[1..])
    ensures Insert(p, s) == [s[0]] + Insert(p, s[1..])
  {
  }

  /** The bookkeeping of the step where `p` goes behind the head `s[0]`, newer than it. */
  lemma AtTimeBehind(p: TripPost, s: seq<TripPost>, rest: seq<TripPost>, time: int)
    requires |s| > 0 && p.postedAt < s[0].postedAt
    requires AtTime(rest, time) == (if p.postedAt == time then [p] else []) + AtTime(s[1..], time)
    ensures AtTime([s[0]] + rest, time) == (if p.postedAt == time then [p] else []) + AtTime(s, time)
  {
    assert s == [s[0]] + s[1..];
    AtTimeCons(s[0], s[1..], time);
    AtTimeCons(s[0], rest, time);
  }

  lemma AtTimeCons(h: TripPost, t: seq<TripPost>, time: int)
    ensures AtTime([h] + t, time) == (if h.postedAt == time then [h] else []) + AtTime(t, time)
  {
    assert ([h] + t)[1..] == t;
  }

  /**
   * The feed is a stable sort: for every time stamp, the posts stamped with it come out in
   * the order they came in, as with Java's stable `sorted`.
   */
  lemma {:induction false} NewsFeedStable(posts: seq<TripPost>, time: int)
    ensures AtTime(NewsFeed(posts), time) == AtTime(posts, time)
    decreases |posts|
  {
    if |posts| > 0 {
      NewsFeedStable(posts[1..], time);
      InsertAtTime(posts[0], NewsFeed(posts[1..]), time);
    }
  }

  /**
   * `getNewsFeed`: every post, each exactly as often as it occurs, newest first. (`posts` is
   * the map's values in iteration order.)
   */
  function NewsFeed(posts: seq<TripPost>): (r: seq<TripPost>)
    ensures NewestFirst(r)
    ensures multiset(r) == multiset(posts)
  {
    if |posts| == 0 then []
    else
      assert posts == [posts[0]] + posts[1..];
      Insert(posts[0], NewsFeed(posts[1..]))
  }
}

=== FILE: trips.dfy ===
/**
 * The trip-planning entities: `Trip`, `JoinRequest`, `GroupChat`, `TripPost` and
 * `Notification`, as immutable values. Each mutator of the Java classes is a function from
 * the old value to the new one. Dates, budgets and timestamps other than a post's
 * `postedAt` are left out.
 */
module Trips {
  import opened Wrappers
  import opened JavaText

  datatype TripType = Solo | Group
  datatype TripStatus = Draft | Posted | InProgress | Completed
  datatype RequestStatus = Pending | Approved | Rejected

  predicate Distinct(s: seq<string>) {
    forall a, b :: 0 <= a < b < |s| ==> s[a] != s[b]
  }

  // ---------------------------------------------------------------------------------------
  // member lists

  /**
   * `if (!list.contains(x)) list.add(x)`, shared by `Trip.approveMember` and
   * `GroupChat.addMember`: the list ends up holding `x`, keeps every earlier entry in place,
   * and grows by at most one.
   */
  function AddIfAbsent(s: seq<string>, x: string): (r: seq<string>)
    ensures x in r
    ensures |s| <= |r| <= |s| + 1 && r[..|s|] == s
    ensures forall y :: y in r <==> y in s || y == x
    ensures Distinct(s) ==> Distinct(r)
  {
    if x in s then s else s + [x]
  }

  /** Adding a name twice is the same as adding it once. */
  lemma AddIfAbsentIdempotent(s: seq<string>, x: string)
    ensures AddIfAbsent(AddIfAbsent(s, x), x) == AddIfAbsent(s, x)
  {
  }

  /** A name already on the list stays there after any further additions, as do all others. */
  function AddAll(s: seq<string>, xs: seq<string>): seq<string>
    decreases |xs|
  {
    if |xs| == 0 then s else AddAll(AddIfAbsent(s, xs[0]), xs[1..])
  }

  /** After any sequence of additions the original list is a prefix of the result. */
  lemma {:induction false} AddAllKeepsPrefix(s: seq<string>, xs: seq<string>)
    ensures |s| <= |AddAll(s, xs)| && AddAll(s, xs)[..|s|] == s
    decreases |xs|
  {
    if |xs| > 0 {
      var s1 := AddIfAbsent(s, xs[0]);
      AddAllKeepsPrefix(s1, xs[1..]);
      var r := AddAll(s1, xs[1..]);
      assert r[..|s|] == r[..|s1|][..|s|];
    }
  }

  /** The names on the list after a sequence of additions are the earlier ones and the added ones. */
  lemma {:induction false} AddAllMembers(s: seq<string>, xs: seq<string>)
    ensures forall y :: y in AddAll(s, xs) <==> y in s || y in xs
    decreases |xs|
  {
    if |xs| > 0 {
      var s1 := AddIfAbsent(s, xs[0]);
      AddAllMembers(s1, xs[1..]);
      forall y ensures y in AddAll(s, xs) <==> y in s || y in xs {
        assert y in xs <==> y == xs[0] || y in xs[1..] by {
          assert xs == [xs[0]] + xs[1..];
        }
      }
    }
  }

  /** A list without duplicates stays without duplicates through any sequence of additions. */
  lemma {:induction false} AddAllDistinct(s: seq<string>, xs: seq<string>)
    requires Distinct(s)
    ensures Distinct(AddAll(s, xs))
    decreases |xs|
  {
    if |xs| > 0 {
      AddAllDistinct(AddIfAbsent(s, xs[0]), xs[1..]);
    }
  }

  // ---------------------------------------------------------------------------------------
  // JoinRequest

  datatype JoinRequest = JoinRequest(id: string, tripId: string, requester: string, message: string, status: RequestStatus)

  /** A new request is pending. */
  function NewJoinRequest(id: string, tripId: string, requester: string, message: string): (r: JoinRequest)
    ensures r.status == Pending
    ensures r.id == id && r.tripId == tripId && r.requester == requester && r.message == message
  {
    JoinRequest(id, tripId, requester, message, Pending)
  }

  /** `approve`: the status becomes `APPROVED` from any status; nothing else changes. */
  function Approve(r: JoinRequest): (q: JoinRequest)
    ensures q.status == Approved && q.(status := r.status) == r
  {
    r.(status := Approved)
  }

  /** `reject`: the status becomes `REJECTED` from any status; nothing else changes. */
  function Reject(r: JoinRequest): (q: JoinRequest)
    ensures q.status == Rejected && q.(status := r.status) == r
  {
    r.(status := Rejected)
  }

  /** There is no transition guard: the last decision wins, whichever came first. */
  lemma LastDecisionWins(r: JoinRequest)
    ensures Approve(Reject(r)) == Approve(r)
    ensures Reject(Approve(r)) == Reject(r)
  {
  }

  // ---------------------------------------------------------------------------------------
  // Trip

  datatype Trip = Trip(
    id: string,
    title: string,
    route: string,
    description: string,
    tripType: TripType,
    creator: string,
    status: TripStatus,
    joinRequests: seq<JoinRequest>,
    members: seq<string>,
    groupChatId: Option<string>)

  /** A new trip is a draft with no requests, whose only approved member is its creator. */
  function NewTrip(id: string, title: string, route: string, description: string, tripType: TripType, creator: string): (t: Trip)
    ensures t.status == Draft && t.joinRequests == [] && t.members == [creator] && t.groupChatId.None?
    ensures t.id == id && t.title == title && t.route == route && t.creator == creator && t.tripType == tripType
    ensures Distinct(t.members)
  {
    Trip(id, title, route, description, tripType, creator, Draft, [], [creator], None)
  }

  predicate IsGroupTrip(t: Trip) {
    t.tripType == Group
  }

  /** `addJoinRequest`: exactly one request is appended; earlier ones and the rest stay. */
  function AddJoinRequest(t: Trip, request: JoinRequest): (r: Trip)
    ensures |r.joinRequests| == |t.joinRequests| + 1
    ensures r.joinRequests[..|t.joinRequests|] == t.joinRequests && r.joinRequests[|t.joinRequests|] == request
    ensures r.(joinRequests := t.joinRequests) == t
  {
    t.(joinRequests := t.joinRequests + [request])
  }

  /** `approveMember`: the member list gains the name unless it is already there. */
  function ApproveMember(t: Trip, username: string): (r: Trip)
    ensures username in r.members
    ensures |t.members| <= |r.members| <= |t.members| + 1 && r.members[..|t.members|] == t.members
    ensures Distinct(t.members) ==> Distinct(r.members)
    ensures r.(members := t.members) == t
  {
    t.(members := AddIfAbsent(t.members, username))
  }

  lemma ApproveMemberIdempotent(t: Trip, username: string)
    ensures ApproveMember(ApproveMember(t, username), username) == ApproveMember(t, username)
  {
    AddIfAbsentIdempotent(t.members, username);
  }

  function ApproveMembers(t: Trip, names: seq<string>): Trip
    decreases |names|
  {
    if |names| == 0 then t else ApproveMembers(ApproveMember(t, names[0]), names[1..])
  }

  /**
   * The creator, a member from construction, stays one after any sequence of approvals; so
   * does every earlier member, in the same place.
   */
  lemma {:induction false} CreatorStaysMember(t: Trip, names: seq<string>)
    ensures ApproveMembers(t, names).members == AddAll(t.members, names)
    ensures ApproveMembers(t, names).(members := t.members) == t
    ensures t.creator in t.members ==> t.creator in ApproveMembers(t, names).members
    decreases |names|
  {
    if |names| > 0 {
      CreatorStaysMember(ApproveMember(t, names[0]), names[1..]);
    }
    AddAllMembers(t.members, names);
  }

  // ---------------------------------------------------------------------------------------
  // GroupChat

  datatype ChatMessage = ChatMessage(sender: string, content: string)

  datatype GroupChat = GroupChat(id: string, tripId: string, name: string, members: seq<string>, messages: seq<ChatMessage>)

  /** A new chat holds a copy of the given members and no messages. */
  function NewGroupChat(id: string, tripId: string, name: string, members: seq<string>): (c: GroupChat)
    ensures c.members == members && c.messages == []
    ensures c.id == id && c.tripId == tripId && c.name == name
  {
    GroupChat(id, tripId, name, members, [])
  }

  /** `addMember`: as `approveMember`, on the chat's member list. */
  function AddMember(c: GroupChat, username: string): (r: GroupChat)
    ensures username in r.members
    ensures |c.members| <= |r.members| <= |c.members| + 1 && r.members[..|c.members|] == c.members
    ensures Distinct(c.members) ==> Distinct(r.members)
    ensures r.(members := c.members) == c
  {
    c.(members := AddIfAbsent(c.members, username))
  }

  lemma AddMemberIdempotent(c: GroupChat, username: string)
    ensures AddMember(AddMember(c, username), username) == AddMember(c, username)
  {
    AddIfAbsentIdempotent(c.members, username);
  }

  /** `addMessage`: appended at the end, earlier messages unchanged. */
  function AddMessage(c: GroupChat, m: ChatMessage): (r: GroupChat)
    ensures |r.messages| == |c.messages| + 1
    ensures r.messages[..|c.messages|] == c.messages && r.messages[|c.messages|] == m
    ensures r.(messages := c.messages) == c
  {
    c.(messages := c.messages + [m])
  }

  // ---------------------------------------------------------------------------------------
  // TripPost

  /** Java's `int`. */
  const IntMin: int := -0x8000_0000
  const IntMax: int := 0x7fff_ffff

  predicate IsInt(n: int) {
    IntMin <= n <= IntMax
  }

  /** `n++` on an `int`: one more, except that the largest value wraps to the smallest. */
  function Increment(n: int): (r: int)
    requires IsInt(n)
    ensures IsInt(r)
    ensures n < IntMax ==> r == n + 1
    ensures n == IntMax ==> r == IntMin
  {
    if n == IntMax then IntMin else n + 1
  }

  /** A post; `postedAt` is the posting time as a number (larger is later). */
  datatype TripPost = TripPost(id: string, tripId: string, author: Option<string>, content: string, postedAt: int, likes: int, comments: int, shares: int)

  predicate CountersInRange(p: TripPost) {
    IsInt(p.likes) && IsInt(p.comments) && IsInt(p.shares)
  }

  /** A new post starts with no likes, comments or shares. */
  function NewPost(id: string, tripId: string, author: Option<string>, content: string, postedAt: int): (p: TripPost)
    ensures p.likes == 0 && p.comments == 0 && p.shares == 0
    ensures p.id == id && p.tripId == tripId && p.author == author && p.content == content && p.postedAt == postedAt
  {
    TripPost(id, tripId, author, content, postedAt, 0, 0, 0)
  }

  /** `like`: only the like counter moves. */
  function Like(p: TripPost): (r: TripPost)
    requires CountersInRange(p)
    ensures CountersInRange(r)
    ensures r.(likes := p.likes) == p
    ensures p.likes < IntMax ==> r.likes == p.likes + 1
  {
    p.(likes := Increment(p.likes))
  }

  /** `unlike`: one fewer, but never below zero; at zero (or below) nothing changes. */
  function Unlike(p: TripPost): (r: TripPost)
    ensures r.(likes := p.likes) == p
    ensures p.likes > 0 ==> r.likes == p.likes - 1
    ensures p.likes <= 0 ==> r == p
    ensures p.likes >= 0 ==> r.likes >= 0
  {
    if p.likes > 0 then p.(likes := p.likes - 1) else p
  }

  /** `unlike` after `like` gives the post back, as long as the counter did not wrap. */
  lemma UnlikeUndoesLike(p: TripPost)
    requires CountersInRange(p) && 0 <= p.likes < IntMax
    ensures Unlike(Like(p)) == p
  {
  }

  /** `addComment`: only the comment counter moves. */
  function AddComment(p: TripPost): (r: TripPost)
    requires CountersInRange(p)
    ensures CountersInRange(r)
    ensures r.(comments := p.comments) == p
    ensures p.comments < IntMax ==> r.comments == p.comments + 1
  {
    p.(comments := Increment(p.comments))
  }

  /** `share`: only the share counter moves. */
  function Share(p: TripPost): (r: TripPost)
    requires CountersInRange(p)
    ensures CountersInRange(r)
    ensures r.(shares := p.shares) == p
    ensures p.shares < IntMax ==> r.shares == p.shares + 1
  {
    p.(shares := Increment(p.shares))
  }

  // ---------------------------------------------------------------------------------------
  // Notification

  datatype Notification = Notification(id: string, kind: string, tripId: string, tripTitle: string, tripRoute: string, requester: string, message: string)

  /** The words between the requester and the quoted trip title. */
  const JoinPhrase := " wants to join your trip \""

  /** `getDisplayText`: the requester, then the trip title in double quotes. */
  function DisplayText(n: Notification): (r: string)
    ensures |r| == |n.requester| + |JoinPhrase| + |n.tripTitle| + 1
    ensures r[..|n.requester|] == n.requester
    ensures r[|n.requester|..|n.requester| + |JoinPhrase|] == JoinPhrase
    ensures r[|r| - |n.tripTitle| - 1..|r| - 1] == n.tripTitle && r[|r| - 1] == '"'
  {
    n.requester + JoinPhrase + n.tripTitle + "\""
  }

  /**
   * When the requester holds no double quote, the first quote of the text is the one that
   * opens the title, so both the requester and the title read back from the text alone.
   */
  lemma DisplayTextReadsBack(n: Notification)
    requires '"' !in n.requester
    ensures var r := DisplayText(n);
            && '"' in r
            && var q := IndexOfChar(r, '"');
            && q == |n.requester| + |JoinPhrase| - 1
            && r[..q - |JoinPhrase| + 1] == n.requester
            && r[q + 1..|r| - 1] == n.tripTitle
  {
    var r := DisplayText(n);
    var a := n.requester + " wants to join your trip ";
    assert r[..|a|] == a && r[|a|] == '"';
    IndexOfCharAfter(r, '"', a);
  }
}

=== FILE: wrappers.dfy ===
/** The optional value used wherever the Java code returns or stores `null`. */
module Wrappers {

  datatype Option<+T> = None | Some(value: T) {

    /** The value, or `default` when there is none (Java's `x != null ? x : default`). */
    function GetOr(default: T): T {
      match this
      case Some(v) => v
      case None => default
    }

    /** Java's `a != null ? a : b` chained over two optional values. */
    function OrElse(other: Option<T>): Option<T> {
      match this
      case Some(v) => this
      case None => other
    }
  }
}
